=== FILE: README.md ===
# LawComply core in Dafny

LawComply is a compliance-evaluation application. An Express/PostgreSQL back
end serves catalogs of controls (questions) for a regulation such as GDPR or
SOX. It scores a company's answers into a percentage and a maturity level,
and it lets administrators manage regulations, articles, controls and
companies. It also imports the text of a regulation's PDF as numbered
pre-articles. A React front end holds the evaluation form, the result
detail page, the administrators' article browser and companies panel, the
login page and the navigation bar.

This project models that core in Dafny and proves what it promises:
- the scoring loop against a recursive specification of the weights;
- the catalog query as a filter followed by a sort, with the fallbacks;
- the schema-tolerant SQL column builder;
- the PDF chunking pipeline and its `AUTO-n` numbering;
- the admin tables as classes over sequences;
- the Bearer-token and administrator checks;
- the front end's derived values and keyed state updates, as classes whose
  methods change exactly the fields the page changes.

Shared modules:
- `Js` models the JavaScript values the code inspects: truthiness, `??`,
  `||`, `===`, `Number()` on the texts that matter, and `>=` on a value.
- `Text` covers white space, trimming, ASCII case, `includes`, splitting on
  one character and joining.
- `Lists` covers filter, filter-map and "fill an object with `forEach`, later
  keys win".
- `Sorting` is a stable insertion sort that stands for an SQL `ORDER BY`. It
  is proved sorted and a permutation for any total preorder.

Every database call, `fetch` and foreign library is a parameter of the
member that uses it. Examples: `dbFails`, the rows of a table, the server's
reply as an `Option` (None when the request fails), `verify` for
`jwt.verify`, and `decode` for `atob` followed by `JSON.parse`.

Three pairs of source files share an expression, and the model defines each
once:
- The older form (src/components/EvaluacionFormulario.jsx) and the result
  page colour their bands with the same `colorNivel` as the newer form. They
  reuse `EvaluationForm.ColorNivel`.
- The older form's file-name sanitiser reuses `EvaluationForm.Safe`.
- The result page's evidence upload uses the same transitions as the form:
  `EvaluationForm.PickFiles` and `EvaluationForm.AfterUpload`.

## Model

| member | source | states |
|---|---|---|
| Scoring.CalcularNivel | backend/Controllers/evaluacionController.js:1-6 | The level is Inicial exactly below 30, Básico exactly in [30,60), Intermedio exactly in [60,80) and Avanzado from 80 up; a NaN percentage fails every comparison and is Avanzado |
| Scoring.NivelMonotone | backend/Controllers/evaluacionController.js:1-6 | A higher percentage never gives a lower level |
| Scoring.Round100 | backend/Controllers/evaluacionController.js:28 | `Math.round(c/t*100)` is the integer k with 2tk ≤ 200c+t < 2t(k+1); a total of 0 gives NaN |
| Scoring.RoundIs | backend/Controllers/evaluacionController.js:28 | Any k meeting the rounding bounds is the rounded percentage, so the rounding is unique |
| Scoring.EvaluarNormativa | backend/Controllers/evaluacionController.js:8-32 | The loop returns the rounding of satisfied weight over total weight, the level of that percentage, and exactly the report of the unsatisfied controls in catalog order |
| Scoring.WeightSplit | backend/Controllers/evaluacionController.js:13-25 | Satisfied weight plus the weight of the non-compliant controls is the total weight |
| Scoring.UnsatisfiedExactly | backend/Controllers/evaluacionController.js:17-25 | A control is listed as non-compliant exactly when it is in the catalog and its answer is falsy |
| Scoring.PercentInRange | backend/Controllers/evaluacionController.js:28 | With a positive total weight the percentage is a number in [0,100] |
| Scoring.AllTruthy | backend/Controllers/evaluacionController.js:13-31 | When every answer is truthy nothing is reported and a positive total gives 100 |
| Scoring.NoAnswers | backend/Controllers/evaluacionController.js:13-31 | With no answers every control is reported and the percentage is 0, or NaN for an empty catalog |
| Scoring.ZeroTotalIsAvanzado | backend/Controllers/evaluacionController.js:28-29 | A catalog whose weights sum to 0 is rated Avanzado whatever the answers |
| Scoring.NonEmptyStringsSatisfy | backend/Controllers/evaluacionController.js:17 | The answers "false" and "partial" satisfy a control in full; only the empty answer does not |
| Scoring.SelectCatalog | backend/Controllers/evaluacionController.js:42-51 | The upper-cased normativa selects GDPR or SOX exactly when it reads so, and nothing otherwise |
| Scoring.EvaluarCumplimiento | backend/Controllers/evaluacionController.js:37-60 | A normativa that is not a string (`toUpperCase` throws) is exactly the server error; an unsupported one is exactly a 400 "Normativa no soportada"; otherwise the reply echoes empresa and normativa with the score of the selected catalog: its rounded percentage, the level of that percentage and the report of unmet controls |
| ControlCatalog.NormalizeCode | backend/routes/evaRoutes.js:29 | The code is the trimmed parameter upper-cased character by character: same length as the trimmed text, each letter mapped by `toUpperCase`, no lower-case ASCII letter left, no white space at either end |
| Text.TrimIsSlice | backend/routes/evaRoutes.js:29 | `trim` returns a contiguous slice of its input, and everything it drops before and after that slice is white space |
| ControlCatalog.NormalizeIdempotent | backend/routes/evaRoutes.js:29 | Normalising a normalised code changes nothing |
| ControlCatalog.SelectByCode | backend/routes/evaRoutes.js:32-46 | The rows are exactly the projections of the active controls of the regulation with that code whose article is absent or enabled |
| ControlCatalog.SelectById | backend/routes/evaRoutes.js:77-90 | The same selection for the regulation with that id |
| ControlCatalog.SelectByCodeConcat | backend/routes/evaRoutes.js:32-46 | The selection by code keeps table order and each row once: it distributes over concatenation |
| ControlCatalog.SelectByCodeSingle | backend/routes/evaRoutes.js:32-46 | One control yields its projection exactly when it belongs to the code's regulation and is eligible, and nothing otherwise |
| ControlCatalog.SelectByIdConcat | backend/routes/evaRoutes.js:77-90 | The selection by id distributes over concatenation |
| ControlCatalog.SelectByIdSingle | backend/routes/evaRoutes.js:77-90 | One control yields its projection exactly when its regulation_id matches and it is eligible |
| ControlCatalog.ByCodeIsById | backend/routes/evaRoutes.js:42-44 | When one regulation has the code, selecting by code and by its id give the same rows |
| ControlCatalog.FirstDigitRun | backend/routes/evaRoutes.js:48 | `regexp_match(code, '([0-9]+)')[1]` is a non-empty run of digits |
| ControlCatalog.FirstDigitRunIsLeftmost | backend/routes/evaRoutes.js:48 | There is no run exactly when the code has no digit; otherwise the run is the leftmost maximal one |
| ControlCatalog.SortKey | backend/routes/evaRoutes.js:48 | The key is exactly the article number when there is one, and 2147483647 for a code without digits or a control without an article |
| ControlCatalog.CatalogOrderIsPreorder | backend/routes/evaRoutes.js:47-49 | The catalog order is total and transitive |
| ControlCatalog.Ordered | backend/routes/evaRoutes.js:47-49 | The ordered rows are a permutation of the selection, sorted by article number, then clave, then pregunta |
| ControlCatalog.OrderedByArticleNumber | backend/routes/evaRoutes.js:47-49 | In the output, article numbers never decrease, and among equal numbers clave never decreases |
| ControlCatalog.ControlesPorNormativa | backend/routes/evaRoutes.js:28-67 | A failed query, including an article number that overflows `int4`, is a 500 "Error de servidor"; a non-empty selection is returned as a sorted permutation |
| ControlCatalog.FallbackCases | backend/routes/evaRoutes.js:53-62 | An empty selection gives the static GDPR catalog exactly for "GDPR", the SOX one exactly for "SOX", and a 404 "Normativa no encontrada" otherwise |
| ControlCatalog.CodeNormalised | backend/routes/evaRoutes.js:29 | The route answers the same for a code and its normalised form |
| ControlCatalog.ControlesPorRegulacion | backend/routes/evaRoutes.js:73-101 | The route by id never falls back: it fails exactly when the query fails, and otherwise returns the sorted selection, possibly empty |
| ControlCatalog.RoutesAgree | backend/routes/evaRoutes.js:28-101 | For a regulation with controls, both routes give the same answer |
| EvaluationQueries.Kept | backend/routes/evaluationRoutes.js:18-19 | The kept names are exactly the candidates present in the column set, and none is kept exactly when no candidate exists |
| EvaluationQueries.KeptConcat | backend/routes/evaluationRoutes.js:18-19 | The kept names follow the candidate order: a concatenation of candidate lists keeps the concatenation of what each keeps |
| EvaluationQueries.KeptSingle | backend/routes/evaluationRoutes.js:18-19 | A single candidate is kept exactly when the column exists |
| EvaluationQueries.Refs | backend/routes/evaluationRoutes.js:20 | Each kept name becomes `alias."name"`, in priority order |
| EvaluationQueries.BuildExpr | backend/routes/evaluationRoutes.js:17-35 | `select` is `base` followed by " AS " and the output alias |
| EvaluationQueries.NoCandidateIsNull | backend/routes/evaluationRoutes.js:23-24 | No existing candidate gives `NULL` |
| EvaluationQueries.OneCandidateIsItsReference | backend/routes/evaluationRoutes.js:25-26 | One existing candidate gives its quoted reference |
| EvaluationQueries.ManyCandidatesCoalesce | backend/routes/evaluationRoutes.js:27-28 | Two or more give `COALESCE(` with the references joined by ", " and a closing `)` |
| EvaluationQueries.CastWraps | backend/routes/evaluationRoutes.js:30 | A non-empty cast wraps the base as `(base)::cast`; an empty one leaves it unchanged |
| EvaluationQueries.FirstCandidateWins | backend/routes/evaluationRoutes.js:18-20 | An existing first candidate is the first reference |
| EvaluationQueries.KeptIgnoresOtherColumns | backend/routes/evaluationRoutes.js:18-19 | Columns that are not candidates never change which candidates are kept |
| EvaluationQueries.BuildExprIgnoresOtherColumns | backend/routes/evaluationRoutes.js:17-35 | Columns that are not candidates never change the expression |
| EvaluationQueries.RefsNameKeptCandidates | backend/routes/evaluationRoutes.js:18-20 | Every reference names a candidate that exists in the table |
| EvaluationQueries.Projection | backend/routes/evaluationRoutes.js:44-49 | Six columns in select-list order: normativa, level, start and due dates read the surviving evaluation columns (coalesced, or NULL when none exists), the company name reads the company's; the percentage, and only it, is wrapped as `(…)::float`, even when it is NULL |
| EvaluationQueries.ProjectionSelects | backend/routes/evaluationRoutes.js:31-34 | Each column is selected as its expression followed by ` AS ` and its output name (normativa, pct, level, started_at, due_at, company_name) |
| EvaluationQueries.FirstNonNull | backend/routes/evaluationRoutes.js:47 | A `COALESCE` of columns is null exactly when every kept column is null, and otherwise the value of one of them |
| EvaluationQueries.FirstNonNullIsFirst | backend/routes/evaluationRoutes.js:47 | A non-null `COALESCE` is the value of the first non-null kept column: every column listed before it is null |
| EvaluationQueries.ListOrderIsPreorder | backend/routes/evaluationRoutes.js:63 | The listing order is total and transitive |
| EvaluationQueries.ListEvaluaciones | backend/routes/evaluationRoutes.js:38-72 | A failed query is exactly the 500 reply; otherwise `items` is a permutation of the rows in the listing order |
| EvaluationQueries.ListNewestFirst | backend/routes/evaluationRoutes.js:63 | Later start dates come first, rows without one come last, and equal dates are ordered by id descending |
| EvaluationQueries.DetalleEvaluacion | backend/routes/evaluationRoutes.js:75-112 | A failed query is exactly the 500 reply; the 404 "No existe" happens exactly when no row has the id; a found row has it |
| PdfImport.RunEnd | backend/routes/adminUploadRoutes.js:44 | The end of a white-space run: every character skipped is white space and the next one is not |
| PdfImport.BackToNewline | backend/routes/adminUploadRoutes.js:44 | Backing up to the run's last newline keeps its number of newlines |
| PdfImport.BreakEnd | backend/routes/adminUploadRoutes.js:44 | A separator found by `/\n\s*\n\s*\n/` matches the pattern and reaches greedily to the last line feed of its white-space run |
| PdfImport.FindBreak | backend/routes/adminUploadRoutes.js:44 | The leftmost position where a separator starts, and none before it |
| PdfImport.SplitFromSound | backend/routes/adminUploadRoutes.js:43-44 | The pieces interleaved with the separators rebuild the text, every separator matches the pattern, and no piece contains a match (the split cuts at every one) |
| PdfImport.NoBreakInSlice | backend/routes/adminUploadRoutes.js:44 | A stretch of the text in which no match starts contains no match when taken on its own |
| PdfImport.BreakInSlice | backend/routes/adminUploadRoutes.js:44 | A match inside a slice of the text is a match of the text at the same place |
| PdfImport.RunEndAtLeast | backend/routes/adminUploadRoutes.js:44 | White space up to a position extends the run at least that far |
| PdfImport.NewlinesPrefix | backend/routes/adminUploadRoutes.js:44 | A prefix holds no more line feeds than the whole |
| PdfImport.SplitBlocks | backend/routes/adminUploadRoutes.js:43-44 | Splitting always gives at least one piece |
| PdfImport.LongPieces | backend/routes/adminUploadRoutes.js:45 | The kept pieces are exactly those whose trimmed length exceeds 60 |
| PdfImport.LongPiecesConcat | backend/routes/adminUploadRoutes.js:45 | The length filter keeps the pieces' order: it distributes over concatenation |
| PdfImport.LongPiecesSingle | backend/routes/adminUploadRoutes.js:45 | One piece survives exactly when its trimmed length exceeds 60 |
| PdfImport.Take | backend/routes/adminUploadRoutes.js:46 | `slice(0, n)` is the prefix of length min(n, length) |
| PdfImport.Chunks | backend/routes/adminUploadRoutes.js:42-46 | The chunks are the first min(50, n) of the n long pieces, in order; each is longer than 60 characters once trimmed |
| PdfImport.ChunksArePieces | backend/routes/adminUploadRoutes.js:42-46 | Every chunk is a piece of the split text whose trimmed length exceeds 60 |
| PdfImport.ChunksInOrder | backend/routes/adminUploadRoutes.js:42-46 | A later chunk is a later piece of the text |
| PdfImport.AutoArticles | backend/routes/adminUploadRoutes.js:48-59 | One article row per chunk |
| PdfImport.AutoCodeInjective | backend/routes/adminUploadRoutes.js:51 | Different numbers give different `AUTO-n` codes |
| PdfImport.AutoCodesDistinct | backend/routes/adminUploadRoutes.js:48-59 | The imported articles have pairwise distinct codes |
| PdfImport.AutoArticlesWellFormed | backend/routes/adminUploadRoutes.js:45-57 | The i-th article has sort index i+1, no title, and a trimmed body longer than 60; there are at most 50 |
| PdfImport.PageCount | backend/routes/adminUploadRoutes.js:38 | `numpages \|\| null` is null exactly for a missing or zero page count |
| PdfImport.RegulationStore.Upload | backend/routes/adminUploadRoutes.js:16-73 | No file is a 400 "Archivo requerido" and a parse failure a 500, both changing nothing; otherwise one source row and the chunk articles are added, and the reply counts them and samples the first three |
| PdfImport.RegulationStore.InsertArticles | backend/routes/adminUploadRoutes.js:48-59 | The loop inserts exactly the `AUTO-n` rows, appended in order |
| AdminRegulations.OrNull | backend/routes/adminRegRoutes.js:56 | `v \|\| null` keeps a truthy value and is null otherwise |
| AdminRegulations.NewRegulacion | backend/routes/adminRegRoutes.js:50-56 | An inserted regulation is active, keeps codigo and nombre, and stores a falsy version or source_url as null |
| AdminRegulations.IntegerOrNull | backend/routes/adminRegRoutes.js:108 | `indice_orden` is kept exactly when it is an integer number |
| AdminRegulations.NewArticulo | backend/routes/adminRegRoutes.js:97-109 | An inserted article keeps regulacion_id and cuerpo, stores a falsy codigo or titulo as null, and has an index exactly when indice_orden is an integral number, that number itself |
| AdminRegulations.PesoOrOne | backend/routes/adminRegRoutes.js:141 | The weight is the number given, and 1 for anything else |
| AdminRegulations.NewControl | backend/routes/adminRegRoutes.js:129-142 | An inserted control is active, keeps its references and question, stores a falsy clave or recomendacion as null, and weighs peso when it is a number and 1 otherwise |
| AdminRegulations.RegulacionOrderIsPreorder | backend/routes/adminRegRoutes.js:28 | Newest-first by creado_en is a total preorder |
| AdminRegulations.ArticuloOrderIsPreorder | backend/routes/adminRegRoutes.js:75 | indice_orden with nulls last, then creado_en, is a total preorder |
| AdminRegulations.ArticulosOf | backend/routes/adminRegRoutes.js:74 | Exactly the articles of the regulation |
| AdminRegulations.ArticulosOfConcat | backend/routes/adminRegRoutes.js:74 | The selection keeps table order and each row once: it distributes over concatenation |
| AdminRegulations.ArticulosOfSingle | backend/routes/adminRegRoutes.js:74 | One article is kept exactly when it belongs to the regulation |
| AdminRegulations.ArticulosListedInPosition | backend/routes/adminRegRoutes.js:75 | In a listing, indices never decrease, unindexed articles come last, and equal indices keep creation order |
| AdminRegulations.RegulationCatalog.ListRegulaciones | backend/routes/adminRegRoutes.js:23-36 | A failed query is exactly the 500 reply; otherwise every regulation, newest first |
| AdminRegulations.RegulationCatalog.CrearRegulacion | backend/routes/adminRegRoutes.js:43-62 | A falsy codigo or nombre is a 400 and a failed insert a 500, both changing nothing; otherwise the new row is returned and appended |
| AdminRegulations.RegulationCatalog.ListArticulos | backend/routes/adminRegRoutes.js:68-83 | A failed query is exactly the 500 reply; otherwise the regulation's articles in listing order |
| AdminRegulations.RegulationCatalog.CrearArticulo | backend/routes/adminRegRoutes.js:90-115 | A falsy regulacion_id or cuerpo is a 400 and a failed insert a 500, both changing nothing; otherwise the new row is returned and appended |
| AdminRegulations.RegulationCatalog.CrearControl | backend/routes/adminRegRoutes.js:122-148 | A falsy regulacion_id, articulo_id or pregunta is a 400 and a failed insert a 500, both changing nothing; otherwise the new row is returned and appended |
| AdminRegulations.MinimalRegulacion | backend/routes/adminRegRoutes.js:45-56 | A body with only codigo and nombre is valid and stores null version and source_url |
| AdminRegulations.IndiceOrdenOnlyIntegers | backend/routes/adminRegRoutes.js:108 | A text or fractional index is dropped; 3 is kept |
| AdminRegulations.PesoDefaults | backend/routes/adminRegRoutes.js:141 | A text or missing weight becomes 1, while 0 stays 0 |
| CompaniesApi.NullIfMissing | backend/routes/adminCompaniesRoutes.js:45 | `v ?? null` keeps every non-nullish value, empty text included |
| CompaniesApi.NewCompany | backend/routes/adminCompaniesRoutes.js:40-45 | A created company is active, keeps its name and stores a missing tax_id, address or phone as null |
| CompaniesApi.Not | backend/routes/adminCompaniesRoutes.js:59 | SQL `NOT` flips a boolean and keeps NULL |
| CompaniesApi.Toggled | backend/routes/adminCompaniesRoutes.js:57-62 | Exactly the rows with the id have is_active flipped; the others and the length are unchanged |
| CompaniesApi.Without | backend/routes/adminCompaniesRoutes.js:76 | Exactly the rows without the id remain |
| CompaniesApi.WithoutConcat | backend/routes/adminCompaniesRoutes.js:76 | The deletion keeps the other rows in order and each once: it distributes over concatenation |
| CompaniesApi.WithoutSingle | backend/routes/adminCompaniesRoutes.js:76 | One row stays exactly when its id differs |
| CompaniesApi.FirstWithId | backend/routes/adminCompaniesRoutes.js:61-65 | The first row with the id, and none exactly when no row has it |
| CompaniesApi.ToggleTwice | backend/routes/adminCompaniesRoutes.js:57-62 | Toggling twice restores the table |
| CompaniesApi.ToggleUnknown | backend/routes/adminCompaniesRoutes.js:57-64 | Toggling an unknown id changes nothing |
| CompaniesApi.DeleteIdempotent | backend/routes/adminCompaniesRoutes.js:76 | Deleting twice is deleting once |
| CompaniesApi.CompanyTable.List | backend/routes/adminCompaniesRoutes.js:12-32 | A failed query is exactly the 500 reply; otherwise every company by created_at descending |
| CompaniesApi.CompanyTable.Create | backend/routes/adminCompaniesRoutes.js:35-51 | A falsy name is a 400 and a failed insert a 500, both leaving the table alone; otherwise a 201 with the new row, which is appended |
| CompaniesApi.CompanyTable.Toggle | backend/routes/adminCompaniesRoutes.js:54-70 | The table becomes its toggle; an unknown id is exactly the 404; the row returned is the first match, flipped |
| CompaniesApi.CompanyTable.Delete | backend/routes/adminCompaniesRoutes.js:73-82 | Unless the query fails, the rows with the id go and the reply is `{ok: true}`, even for an unknown id |
| Auth.SchemeAndToken | backend/middlewares/auth.js:5 | The scheme is the text before the first space and the token the text up to the second, when there is one |
| Auth.Authenticate | backend/middlewares/auth.js:3-15 | 401 "Token requerido" exactly when the scheme is not "Bearer" or the token is empty; 401 "Token inválido" exactly when verification fails; otherwise the request continues with the verified user |
| Auth.BearerToken | backend/middlewares/auth.js:5-6 | "Bearer t" and "Bearer t x" both give the token t |
| Auth.DoubleSpaceRefused | backend/middlewares/auth.js:5-8 | Two spaces after "Bearer" leave an empty token and are refused |
| Auth.SchemeRequired | backend/middlewares/auth.js:4-8 | A missing header and a lower-case "bearer" are refused |
| RequireAdmin.RequireAdmin | backend/middlewares/requireAdmin.js:1-8 | 401 exactly without a user, 403 exactly for a user who is not an administrator, and otherwise the request continues with the same user |
| RequireAdmin.AdminMarkers | backend/middlewares/requireAdmin.js:4-5 | rol "ADMIN" passes and role_id 1 passes; "admin" with role_id "1" is refused, since the comparisons are strict |
| RequireAdmin.AdminGate | backend/middlewares/requireAdmin.js:1-8 | The two middlewares in a row let a request through exactly when the token verifies and its user is an administrator |
| EvaluationForm.NormalizeCompanies | src/modules/laws/EvaluacionFormulario.jsx:34-42 | A non-array gives nothing; the output is no longer than the input, every company has a truthy id and name, and every such company is kept |
| EvaluationForm.NormalizeConcat | src/modules/laws/EvaluacionFormulario.jsx:36-41 | Normalising keeps order: it distributes over concatenation, one element at a time |
| EvaluationForm.NormalizeFallbacks | src/modules/laws/EvaluacionFormulario.jsx:38-39 | The id falls back to uuid then company_id by truthiness, the name to nombre by nullishness, and an empty name drops the company |
| EvaluationForm.FindCompany | src/modules/laws/EvaluacionFormulario.jsx:29 | `find` returns the first company with that id, or none exactly when no company has it |
| EvaluationForm.SelectedCompanyName | src/modules/laws/EvaluacionFormulario.jsx:28-31 | The name of the first matching company when truthy, and "" otherwise |
| EvaluationForm.FirstCompanySelected | src/modules/laws/EvaluacionFormulario.jsx:71 | After loading, the first company is selected and its name is shown |
| EvaluationForm.PickFiles | src/modules/laws/EvaluacionFormulario.jsx:136-142 | Only the entry of that clave changes: its files become the chosen ones and its error is cleared |
| EvaluationForm.AfterUpload | src/modules/laws/EvaluacionFormulario.jsx:144-189 | Files are sent exactly when some are pending; with none the entry gets an error and uploading is false; only that entry changes |
| EvaluationForm.KeysStep | src/modules/laws/EvaluacionFormulario.jsx:111-115 | Each loop step adds its control's clave to the keys |
| EvaluationForm.BlankCoversControls | src/modules/laws/EvaluacionFormulario.jsx:108-118 | The initial answers have exactly the catalog's claves as keys, each mapped to "" |
| EvaluationForm.InitialEntries | src/modules/laws/EvaluacionFormulario.jsx:108-115 | The `forEach` builds the blank answers, the blank comments and a fresh evidence entry per clave |
| EvaluationForm.BlankFormScoresNothing | src/modules/laws/EvaluacionFormulario.jsx:108-118 | Submitting a freshly loaded form reports every control and scores 0 satisfied weight |
| EvaluationForm.FormState.constructor | src/modules/laws/EvaluacionFormulario.jsx:11-23 | The form starts with no companies, no selection, no controls, empty maps and no result |
| EvaluationForm.FormState.LoadCompanies | src/modules/laws/EvaluacionFormulario.jsx:45-81 | A failure empties the list and shows the error; otherwise the normalised companies, with the first one selected when there are any |
| EvaluationForm.FormState.LoadControls | src/modules/laws/EvaluacionFormulario.jsx:84-126 | No normativa changes nothing; a failure empties the controls and maps; otherwise the controls with blank answers, comments and evidence |
| EvaluationForm.FormState.HandleRespuesta | src/modules/laws/EvaluacionFormulario.jsx:128-130 | Only the answer of that clave changes |
| EvaluationForm.FormState.HandleComentario | src/modules/laws/EvaluacionFormulario.jsx:132-134 | Only the comment of that clave changes |
| EvaluationForm.FormState.OnPickFiles | src/modules/laws/EvaluacionFormulario.jsx:136-142 | The evidence map becomes `PickFiles` of the old one; nothing else changes |
| EvaluationForm.FormState.UploadEvidence | src/modules/laws/EvaluacionFormulario.jsx:144-189 | The evidence map and whether files were sent are `AfterUpload` of the old map |
| EvaluationForm.FormState.Payload | src/modules/laws/EvaluacionFormulario.jsx:194-200 | The payload sends the company name or "", the company id or null when it is falsy, and the current answers and comments |
| EvaluationForm.FormState.Submit | src/modules/laws/EvaluacionFormulario.jsx:191-221 | The payload is posted; a reply becomes the result, and a failure keeps the old one |
| EvaluationForm.LoadedFormHidesEvidence | src/modules/laws/EvaluacionFormulario.jsx:108-118 | No evidence block shows on a freshly loaded form |
| EvaluationForm.ColorNivel | src/modules/laws/EvaluacionFormulario.jsx:223-228 | Green exactly from 80, yellow in [60,80), orange in [40,60), red below 40 or for a value that compares false |
| EvaluationForm.ColorMonotone | src/modules/laws/EvaluacionFormulario.jsx:223-228 | A higher percentage never gives a worse colour |
| EvaluationForm.EvidenceOnlyForSatisfied | src/modules/laws/EvaluacionFormulario.jsx:269 | The evidence block shows only for a truthy answer, yet the truthy "false" hides it |
| EvaluationForm.SkipOthers | src/modules/laws/EvaluacionFormulario.jsx:264 | Skipping a run of characters outside `[A-Za-z0-9_-]` stops at the first word character |
| EvaluationForm.Safe | src/modules/laws/EvaluacionFormulario.jsx:264 | The file name uses only `[A-Za-z0-9_-]` and is no longer than the input |
| EvaluationForm.SafeKeepsWordChars | src/modules/laws/EvaluacionFormulario.jsx:264 | A name of word characters is unchanged |
| EvaluationForm.SafeIdempotent | src/modules/laws/EvaluacionFormulario.jsx:264 | Sanitising twice is sanitising once |
| EvaluationForm.SafeCopiesWord | src/modules/laws/EvaluacionFormulario.jsx:264 | Word characters are copied as they are |
| EvaluationForm.SafeCollapsesRun | src/modules/laws/EvaluacionFormulario.jsx:264 | Each maximal run of other characters becomes one "_" |
| EvaluationForm.ComentariosNoVacios | src/modules/laws/EvaluacionFormulario.jsx:272-274 | Every listed comment is trimmed and non-empty, and every control with a non-blank comment is listed |
| EvaluationForm.ComentariosConcat | src/modules/laws/EvaluacionFormulario.jsx:272-274 | The list keeps catalog order: it distributes over concatenation of the catalog |
| EvaluationForm.ComentariosSingle | src/modules/laws/EvaluacionFormulario.jsx:272-274 | A single control is listed exactly when its comment is non-blank |
| LegacyForm.InitialAnswers | src/components/EvaluacionFormulario.jsx:31-33 | The `forEach` maps every loaded clave to "" |
| LegacyForm.LegacyFormState.constructor | src/components/EvaluacionFormulario.jsx:8-10 | The form starts with no controls, no answers and no result |
| LegacyForm.LegacyFormState.LoadControls | src/components/EvaluacionFormulario.jsx:13-40 | No normativa changes nothing; a failure leaves the controls and answers empty; otherwise the controls with blank answers |
| LegacyForm.LegacyFormState.HandleRespuesta | src/components/EvaluacionFormulario.jsx:42-43 | Only the answer of that clave changes |
| LegacyForm.LegacyFormState.Payload | src/components/EvaluacionFormulario.jsx:47 | The payload always names "Farmacia Vida", with the normativa and the current answers |
| LegacyForm.LegacyFormState.Submit | src/components/EvaluacionFormulario.jsx:45-55 | The payload is posted and the reply becomes the result |
| ResultDetail.AnswersOf | src/modules/results/ResultDetail.jsx:51-56 | Every row's key (control_clave, else clave) has an answer, and every key comes from a row |
| ResultDetail.CommentsOf | src/modules/results/ResultDetail.jsx:51-56 | The same for the comments |
| ResultDetail.EvidencesOf | src/modules/results/ResultDetail.jsx:70-74 | Every row's key gets a fresh evidence entry |
| ResultDetail.LastRowWins | src/modules/results/ResultDetail.jsx:51-56 | For a repeated key, the answer and comment of its last row are kept |
| ResultDetail.CollectAnswers | src/modules/results/ResultDetail.jsx:51-56 | The `forEach` builds exactly those answer and comment maps |
| ResultDetail.CollectEvidence | src/modules/results/ResultDetail.jsx:70-74 | The `forEach` builds exactly that evidence map |
| ResultDetail.ControlesByKey | src/modules/results/ResultDetail.jsx:85-89 | Every control's clave is a key, and each key maps to a control with that clave |
| ResultDetail.LaterControlWins | src/modules/results/ResultDetail.jsx:85-89 | For a repeated clave, the last control is kept |
| ResultDetail.FmtNivel | src/modules/results/ResultDetail.jsx:91 | "Alto" exactly from 80, "Medio" in [60,80), "Bajo" in [40,60), "Crítico" otherwise |
| ResultDetail.LabelMatchesColor | src/modules/results/ResultDetail.jsx:31-32 | Each label goes with the colour of the same band |
| ResultDetail.ShownPct | src/modules/results/ResultDetail.jsx:232 | The percentage shown is never nullish: cumplimiento, else pct, else 0 |
| ResultDetail.ShownNivel | src/modules/results/ResultDetail.jsx:233 | The level shown is always truthy: the stored one when truthy, else the label of the percentage shown |
| ResultDetail.Merge | src/modules/results/ResultDetail.jsx:184-192 | With no evaluation nothing changes; otherwise only cumplimiento and nivel change, each to the server's value when that is not nullish |
| ResultDetail.MergeProperties | src/modules/results/ResultDetail.jsx:184-192 | Merging the same reply twice is merging once, and a returned cumplimiento is the percentage shown afterwards |
| ResultDetail.DetailState.constructor | src/modules/results/ResultDetail.jsx:15-27 | The page starts loading, with no evaluation, no controls and empty maps |
| ResultDetail.DetailState.Load | src/modules/results/ResultDetail.jsx:35-83 | A failure shows the error and keeps the rest; otherwise the evaluation, its answer, comment and evidence maps, and its catalog when it has a normativa |
| ResultDetail.DetailState.SetAnswer | src/modules/results/ResultDetail.jsx:95-96 | Only the answer of that clave changes |
| ResultDetail.DetailState.SetComment | src/modules/results/ResultDetail.jsx:98-99 | Only the comment of that clave changes |
| ResultDetail.DetailState.OnPickFiles | src/modules/results/ResultDetail.jsx:103-109 | The evidence map becomes `PickFiles` of the old one |
| ResultDetail.DetailState.UploadEvidence | src/modules/results/ResultDetail.jsx:111-162 | The evidence map and whether files were sent are `AfterUpload` of the old map |
| ResultDetail.DetailState.SaveBodyFor | src/modules/results/ResultDetail.jsx:172-175 | The save sends the answer or "" and the trimmed comment |
| ResultDetail.DetailState.SaveControl | src/modules/results/ResultDetail.jsx:164-198 | The body is sent; a reply is merged into the evaluation and a failure changes nothing |
| AdminArticles.Filtered | src/modules/admin/AdminArticles.jsx:58-66 | A blank term keeps every article; otherwise an article stays exactly when its lower-cased code, title or body contains the term |
| AdminArticles.BlankTermKeepsAll | src/modules/admin/AdminArticles.jsx:60 | The empty term matches every article |
| AdminArticles.SearchFindsOccurrence | src/modules/admin/AdminArticles.jsx:61-65 | An article whose field holds the term at some position is found |
| AdminArticles.SearchKeepsOrder | src/modules/admin/AdminArticles.jsx:58-66 | Filtering keeps order: it distributes over concatenation |
| AdminArticles.TotalPages | src/modules/admin/AdminArticles.jsx:68 | At least one page, with enough 20-item pages for every article and no empty page beyond the first |
| AdminArticles.Slice | src/modules/admin/AdminArticles.jsx:69 | Array `slice` with in-range bounds is the sub-sequence |
| AdminArticles.PageItems | src/modules/admin/AdminArticles.jsx:69 | A page holds at most 20 filtered articles, and a valid page of a non-empty list holds some |
| AdminArticles.PagesArePrefixes | src/modules/admin/AdminArticles.jsx:69 | The first k pages together are the first 20k articles |
| AdminArticles.AllPagesShowAll | src/modules/admin/AdminArticles.jsx:68-69 | Pages 1 to totalPages together are exactly the filtered list |
| AdminArticles.Quote | src/modules/admin/AdminArticles.jsx:79-82 | A field with `"`, `,`, a newline or `;` is wrapped in quotes; any other field is unchanged |
| AdminArticles.DoubleQuotesConcat | src/modules/admin/AdminArticles.jsx:81 | Doubling quotes works character by character: it distributes over concatenation |
| AdminArticles.DoubleQuotesQuote | src/modules/admin/AdminArticles.jsx:81 | A quote becomes two quotes |
| AdminArticles.DoubleQuotesNoQuotes | src/modules/admin/AdminArticles.jsx:81 | A field without quotes is unchanged by the doubling |
| AdminArticles.QuoteAllFields | src/modules/admin/AdminArticles.jsx:79-83 | Each field of a line is quoted on its own, in place |
| AdminArticles.LinesOfRows | src/modules/admin/AdminArticles.jsx:79-83 | Each row becomes its own line, in place |
| AdminArticles.FlattenLines | src/modules/admin/AdminArticles.jsx:76 | Replacing each `\r?\n` by a space leaves no newline and never lengthens the text |
| AdminArticles.FlattenLineFeeds | src/modules/admin/AdminArticles.jsx:76 | Without carriage returns, each line feed becomes a space and every other character stays in place |
| AdminArticles.FlattenConcat | src/modules/admin/AdminArticles.jsx:76 | The replacement distributes over concatenation when the cut does not split a CRLF |
| AdminArticles.FlattenCrLf | src/modules/admin/AdminArticles.jsx:76 | A CRLF becomes a single space |
| AdminArticles.FlattenCrLfCons | src/modules/admin/AdminArticles.jsx:76 | A leading CRLF becomes one space before the rest's replacement |
| AdminArticles.FlattenCharCons | src/modules/admin/AdminArticles.jsx:76 | A leading character that does not start a CRLF is replaced on its own: a line feed by a space, anything else by itself |
| AdminArticles.FlattenKeepsSingleLine | src/modules/admin/AdminArticles.jsx:76 | A body without newlines is unchanged |
| AdminArticles.BodyField | src/modules/admin/AdminArticles.jsx:76 | The body column is the first min(32000, n) characters of the n-character flattened body, without newlines |
| AdminArticles.ArticleRow | src/modules/admin/AdminArticles.jsx:74-80 | Seven fields in header order: the uuid ids, code, title and date as their text or "" when null, the sort index in decimal or "", and the body column |
| AdminArticles.CsvRows | src/modules/admin/AdminArticles.jsx:72-78 | The 7-column header, then one 7-field row per filtered article, in order |
| AdminArticles.ReadQuotedBody | src/modules/admin/AdminArticles.jsx:81 | Doubling inner quotes is undone by reading a quoted field (RFC 4180 section 2, rule 7) |
| AdminArticles.QuotedFieldReadsBack | src/modules/admin/AdminArticles.jsx:79-82 | Every written field reads back as itself |
| AdminArticles.LineReadsBack | src/modules/admin/AdminArticles.jsx:79-83 | A written line reads back as its fields |
| AdminArticles.CsvReadsBack | src/modules/admin/AdminArticles.jsx:79-83 | Any written table reads back as its rows |
| AdminArticles.ExportReadsBack | src/modules/admin/AdminArticles.jsx:71-83 | The exported text reads back as the header plus the article rows |
| AdminArticles.ArticleBrowser.constructor | src/modules/admin/AdminArticles.jsx:8-16 | The browser starts on page 1 with nothing loaded |
| AdminArticles.ArticleBrowser.Shown | src/modules/admin/AdminArticles.jsx:69 | At most 20 loaded articles, and some whenever the search matches any |
| AdminArticles.ArticleBrowser.LoadRegulations | src/modules/admin/AdminArticles.jsx:19-35 | A failure shows the error; otherwise the list from an array or a `data` array, with the first regulation selected |
| AdminArticles.ArticleBrowser.SelectRegulation | src/modules/admin/AdminArticles.jsx:112 | Only the selected regulation changes, and the page stays valid |
| AdminArticles.ArticleBrowser.LoadArticles | src/modules/admin/AdminArticles.jsx:37-56 | No regulation changes nothing; otherwise page 1, with the articles, or none and the error on failure |
| AdminArticles.ArticleBrowser.SetQuery | src/modules/admin/AdminArticles.jsx:126 | The search changes and the page resets to 1 |
| AdminArticles.ArticleBrowser.Prev | src/modules/admin/AdminArticles.jsx:175 | One page back, never below 1 |
| AdminArticles.ArticleBrowser.Next | src/modules/admin/AdminArticles.jsx:176 | One page forward, never past the last |
| AdminArticles.ArticleBrowser.Export | src/modules/admin/AdminArticles.jsx:71-83 | The exported text reads back as the rows of the filtered articles |
| CompaniesPanel.Filtered | src/modules/admin/AdminCompanies.jsx:39-46 | A blank search keeps every company; otherwise a company stays exactly when its lower-cased name or tax id contains the search |
| CompaniesPanel.SearchKeepsOrder | src/modules/admin/AdminCompanies.jsx:39-46 | The search keeps the companies' order: filtering a concatenation is concatenating the filtered parts |
| CompaniesPanel.SearchFindsOccurrence | src/modules/admin/AdminCompanies.jsx:42-45 | A company whose name or tax id holds the search somewhere is listed |
| CompaniesPanel.NullIfBlank | src/modules/admin/AdminCompanies.jsx:65-67 | `s.trim() \|\| null` is null exactly for blank input, and otherwise the non-empty trimmed text |
| CompaniesPanel.BodyOf | src/modules/admin/AdminCompanies.jsx:63-68 | The body sends the trimmed name, and the optional fields trimmed or null |
| CompaniesPanel.Posted | src/modules/admin/AdminCompanies.jsx:56-68 | Nothing is posted exactly when the name is blank; a posted name is trimmed and non-empty |
| CompaniesPanel.WithField | src/modules/admin/AdminCompanies.jsx:48-51 | Editing an input changes only its own field |
| CompaniesPanel.BodyIgnoresPadding | src/modules/admin/AdminCompanies.jsx:63-68 | Surrounding spaces never change the body |
| CompaniesPanel.ReplaceById | src/modules/admin/AdminCompanies.jsx:93 | Rows with the id become the server's row; the others and the length stay |
| CompaniesPanel.WithoutId | src/modules/admin/AdminCompanies.jsx:108 | Exactly the rows without the id remain |
| CompaniesPanel.ReplaceProperties | src/modules/admin/AdminCompanies.jsx:93 | Replacing twice is replacing once, and an unknown id changes nothing |
| CompaniesPanel.DeleteProperties | src/modules/admin/AdminCompanies.jsx:108 | Removing keeps order, distributing over concatenation, and an unknown id changes nothing |
| CompaniesPanel.CompaniesPanel.constructor | src/modules/admin/AdminCompanies.jsx:8-19 | The panel starts loading, with no rows, an empty form and no search |
| CompaniesPanel.CompaniesPanel.Shown | src/modules/admin/AdminCompanies.jsx:39-46 | Only loaded companies are shown |
| CompaniesPanel.CompaniesPanel.Load | src/modules/admin/AdminCompanies.jsx:21-37 | A failure shows the error; otherwise the rows of an array body |
| CompaniesPanel.CompaniesPanel.Edit | src/modules/admin/AdminCompanies.jsx:48-51 | Only the edited field of the form changes |
| CompaniesPanel.CompaniesPanel.SetSearch | src/modules/admin/AdminCompanies.jsx:19 | Only the search changes |
| CompaniesPanel.CompaniesPanel.Create | src/modules/admin/AdminCompanies.jsx:56-83 | A blank name posts nothing and changes nothing; a failure shows the error; a created row goes first and the form empties |
| CompaniesPanel.CompaniesPanel.Settle | src/modules/admin/AdminCompanies.jsx:61-82 | After the request: the failure message, or the created row first and an empty form; nothing changes when nothing was posted |
| CompaniesPanel.CompaniesPanel.Toggle | src/modules/admin/AdminCompanies.jsx:85-98 | The server's row replaces the rows with the id, and a failure changes nothing |
| CompaniesPanel.CompaniesPanel.Remove | src/modules/admin/AdminCompanies.jsx:100-113 | Only a confirmed, successful delete removes the rows with the id |
| Login.CredentialsOf | src/modules/auth/Login.jsx:40-43 | The e-mail is the trimmed address lower-cased, so it has no upper-case letter; the password is the trimmed password |
| Login.LowerKeepsTrimmed | src/modules/auth/Login.jsx:41 | Lower-casing keeps a trimmed text trimmed |
| Login.CredentialsNormalised | src/modules/auth/Login.jsx:40-43 | Normalising credentials twice is normalising once |
| Login.FailureMessage | src/modules/auth/Login.jsx:58-65 | The server's error when present, else the 401 text for a 401 and the generic text otherwise |
| Login.ToBase64 | src/modules/auth/Login.jsx:17 | Same length; `-` becomes `+`, `_` becomes `/` and every other character stays (RFC 4648 sections 5 to 4) |
| Login.ToBase64Url | src/modules/auth/Login.jsx:17 | The inverse translation, character by character |
| Login.Base64RoundTrip | src/modules/auth/Login.jsx:17 | A Base64url text comes back unchanged from the translation and its inverse |
| Login.DecodeJwt | src/modules/auth/Login.jsx:12-24 | Null when the second piece is missing or empty; otherwise the decoding of its Base64 form |
| Login.DecodesMiddlePiece | src/modules/auth/Login.jsx:14-20 | A `header.payload.signature` token decodes its payload |
| Login.InferUser | src/modules/auth/Login.jsx:79-84 | The user has exactly id, name, email and role, each the first non-nullish claim or its default |
| Login.UserToStore | src/modules/auth/Login.jsx:75-86 | The reply's user when present, else the one inferred from a decodable token, else none |
| Login.BackendTokenUser | src/modules/auth/Login.jsx:75-86 | A token carrying id, nombre and email gives a user with role "user" |
| Login.MessageFor | src/modules/auth/Login.jsx:58-95 | Never empty: the error's message or the connection text, the failure message, the missing-token text, or the success text |
| Login.LoginState.constructor | src/modules/auth/Login.jsx:27-30 | The page starts with empty fields and message, not loading |
| Login.LoginState.SetEmail | src/modules/auth/Login.jsx:27 | Only the e-mail changes |
| Login.LoginState.SetPassword | src/modules/auth/Login.jsx:28 | Only the password changes |
| Login.LoginState.HandleSubmit | src/modules/auth/Login.jsx:34-99 | Sends the normalised credentials and shows the message for the reply. Only a success with a token redirects and writes the storage: the token, and the user when one is found |
| Navbar.DisplayName | src/components/Navbar.jsx:56 | The first truthy of nombre, name and email, else "" |
| Navbar.Render | src/components/Navbar.jsx:10-56 | Hidden exactly on login paths or without a token; otherwise the common links, the administrator's links exactly for an administrator, and the display name |
| Navbar.AdminLinksOnlyForAdmins | src/components/Navbar.jsx:45-51 | The administrator's links appear exactly for an administrator |
| Navbar.Logout | src/components/Navbar.jsx:29-33 | Both stored keys are removed |
| Navbar.LoggedOutHidden | src/components/Navbar.jsx:22 | Without a token the bar is hidden |
| Navbar.GuardImpliesAdminLinks | src/components/Navbar.jsx:24-27 | Whoever the server's guard admits sees the administrator's links |
| Navbar.LowerCaseRoleOnlyInBar | src/components/Navbar.jsx:25 | A lower-case "admin" role shows the links while the server refuses it |
| Navbar.TextRoleIdOnlyInBar | src/components/Navbar.jsx:26 | A role_id of "1" as text shows the links while the server refuses it |
| Navbar.InferredUserNeverAdmin | src/components/Navbar.jsx:24-27 | A user inferred at login has `role`, never `rol` or `role_id`, so it never sees the administrator's links |

## Left out

- Database access, `getCols`, `uuid_generate_v4()` and `NOW()`:
  - the rows, the column set, the generated id and the time are parameters;
  - a failed query is the boolean `dbFails`;
  - the connection pool in backend/config/db.js is not part of this model.
- SQL ordering: text compares by code point (the C collation). Rows that tie on the whole `ORDER BY` key keep their table order, where PostgreSQL leaves that order unspecified.
- PostgreSQL type errors on bad ids or bodies are not modelled. The one exception is the `int4` overflow of an article number, which is modelled.
- Insert failures part-way through the upload loop are not modelled. A failed upload is modelled as failing before any write.
- Foreign libraries are left out, and their results are parameters:
  - `pdf-parse`, `multer` and `fs`;
  - `jwt.verify` (an oracle returning the claims or nothing);
  - `atob` and `JSON.parse` (the `decode` oracle);
  - `bcrypt` and the login endpoint in backend/routes/authRoutes.js.
- `downloadPdf` in both forms and the result page is left out, along with its dated file name. It is `html2canvas` and `jsPDF` with floating-point image scaling. Only the sanitiser it uses is modelled.
- `fetch`, `FormData`, `alert`, `confirm` and `setTimeout` are left out, as are JSX rendering (option labels, previews, button styles), `Blob` and the download anchor. Each request's outcome is a parameter, and exceptions from `localStorage` are not modelled.
- Numbers are exact. JavaScript numbers are reals without NaN or Infinity. Weights are natural numbers, and the backend percentage is an integer or NaN. Float rounding, ties at .5 computed in floating point, and negative or fractional weights are not modelled.
- `Number()` is modelled on plain decimal text only. Exponents, hexadecimal, `Infinity`, and arrays in `rol` or `role_id` are not modelled.
- Case mapping covers ASCII letters only, and strings are sequences of characters. The 32000-character cut counts characters, not UTF-16 code units.
- The static GDPR and SOX catalogs (backend/data) are not part of this model. They are parameters.
- The evidence and answer-amend endpoints and companyRoutes are not part of this model. Only the client's side of them is modelled.
- JSON shapes the code does not expect are not modelled: non-object `respuestas`, non-string keys, `error` or `token`, null list elements, and truthy non-object stored users.
- `row.clave` absent in a result row is modelled as "null" (a SQL NULL). JavaScript would write the key "undefined" for it.
- app.js, the `/health` route and the UI-only pages are not part of this model: App, Home, Laws, PrivateRoute, Results, RegulacionesAdmin, ArticulosAdmin and AdminPdfImporter.
- The mount effects of the evaluation form and the article browser select the first item unconditionally. This matches the source, because the selection is empty when they run.
- The loading and busy flags are modelled only where they are observable at the end of an effect.
- FormState.Submit does not model the submit button's `disabled` guard (no company selected, or no controls loaded; src/modules/laws/EvaluacionFormulario.jsx:418). The guard lives in the rendered button, and `handleSubmit` itself posts whatever the form holds, which is what the method models.
- ArticleRow: ids are modelled as their text (the uuid columns). A numeric id would be written by JavaScript's number-to-string conversion, which is not modelled.

=== FILE: admin_articles.dfy ===
/** The administrator's article browser (src/modules/admin/AdminArticles.jsx):
    it lists the articles of one regulation, filters them by a search term,
    shows them twenty to a page and exports the filtered list as CSV. The
    page's state is the class `ArticleBrowser`. */
module AdminArticles {
  import opened Js
  import opened Text
  import opened Lists
  import opened EvaluationForm
  import PdfImport

  /** An article row as the articles endpoint returns it; the ids are uuid
      text, None when the column is null. */
  datatype Article = Article(id: Option<string>, regulationId: Option<string>, code: Option<string>, title: Option<string>,
                             sortIndex: Option<int>, createdAt: Option<string>, body: Option<string>)

  /** A regulation of the selector. */
  datatype Regulation = Regulation(id: JsValue, codigo: JsValue, code: JsValue, nombre: JsValue, name: JsValue)

  /** The regulations endpoint's body: an array, or an object whose `data`
      may be an array. */
  datatype RegulationsBody = ArrayBody(items: seq<Regulation>) | Wrapped(data: Payload<Regulation>)

  const PageSize := 20
  const RegulationsFailedMessage := "No se pudieron cargar las regulaciones."
  const ArticlesFailedMessage := "No se pudieron cargar los artículos."

  /** `Array.isArray(data) ? data : (Array.isArray(data?.data) ? data.data : [])` */
  function RegulationsOf(b: RegulationsBody): seq<Regulation> {
    match b
    case ArrayBody(items) => items
    case Wrapped(data) => ItemsOf(data)
  }

  // ---------------------------------------------------------------- search

  /** `q.trim().toLowerCase()` */
  function SearchTerm(q: string): string {
    ToLower(Trim(q))
  }

  /** `(x || "").toLowerCase()` */
  function Haystack(x: Option<string>): string {
    ToLower(TextOrEmpty(x))
  }

  /** The code, the title or the body contains the term. */
  predicate Matches(a: Article, term: string) {
    Includes(Haystack(a.code), term) || Includes(Haystack(a.title), term) || Includes(Haystack(a.body), term)
  }

  function MatchesTerm(term: string): Article -> bool {
    a => Matches(a, term)
  }

  /** `filtered`: all articles for a blank term, otherwise those that match
      it, in their order. */
  function Filtered(items: seq<Article>, q: string): (r: seq<Article>)
    ensures |r| <= |items|
    ensures SearchTerm(q) == "" ==> r == items
    ensures forall a :: a in r ==> a in items
    ensures SearchTerm(q) != "" ==> forall a :: a in items ==> (a in r <==> Matches(a, SearchTerm(q)))
  {
    var term := SearchTerm(q);
    if term == "" then items else Filter(items, MatchesTerm(term))
  }

  /** The shortcut for a blank term agrees with filtering by it: every text
      contains the empty string. */
  lemma BlankTermKeepsAll(items: seq<Article>)
    ensures Filter(items, MatchesTerm("")) == items
  {
    forall i | 0 <= i < |items| ensures MatchesTerm("")(items[i]) {
      assert StartsWith(Haystack(items[i].code), "");
    }
    FilterKeepsAll(items, MatchesTerm(""));
  }

  /** An article whose code, title or body contains the term somewhere is
      found, and the filter keeps the articles' order. */
  lemma SearchFindsOccurrence(items: seq<Article>, q: string, a: Article, i: int)
    requires a in items
    requires OccursAt(Haystack(a.code), SearchTerm(q), i) || OccursAt(Haystack(a.title), SearchTerm(q), i)
          || OccursAt(Haystack(a.body), SearchTerm(q), i)
    ensures a in Filtered(items, q)
  {
    var term := SearchTerm(q);
    IncludesIff(Haystack(a.code), term);
    IncludesIff(Haystack(a.title), term);
    IncludesIff(Haystack(a.body), term);
  }

  lemma SearchKeepsOrder(a: seq<Article>, b: seq<Article>, q: string)
    ensures Filtered(a + b, q) == Filtered(a, q) + Filtered(b, q)
  {
    if SearchTerm(q) != "" {
      FilterConcat(a, b, MatchesTerm(SearchTerm(q)));
    }
  }

  // ---------------------------------------------------------------- paging

  /** `Math.max(1, Math.ceil(n / pageSize))` */
  function TotalPages(n: nat): (t: nat)
    ensures t >= 1
    ensures n <= t * PageSize
    ensures n == 0 || (t - 1) * PageSize < n
  {
    if n == 0 then 1 else (n + PageSize - 1) / PageSize
  }

  /** `Array.prototype.slice(start, end)`: a negative bound counts from the
      end, and both bounds are clamped to the list. */
  function Slice<T>(s: seq<T>, start: int, end: int): (r: seq<T>)
    ensures |r| <= |s|
    ensures 0 <= start <= end <= |s| ==> r == s[start..end]
  {
    var a := if start < 0 then Clamp(|s| + start, |s|) else Clamp(start, |s|);
    var b := if end < 0 then Clamp(|s| + end, |s|) else Clamp(end, |s|);
    if a < b then s[a..b] else []
  }

  function Clamp(i: int, n: nat): (r: nat)
    ensures r <= n
    ensures 0 <= i <= n ==> r == i
  {
    if i < 0 then 0 else if i > n then n else i
  }

  /** `pageItems`: the articles shown on page `page`. */
  function PageItems(f: seq<Article>, page: int): (r: seq<Article>)
    ensures |r| <= PageSize
    ensures forall a :: a in r ==> a in f
    ensures 1 <= page <= TotalPages(|f|) && f != [] ==> r != []
  {
    Slice(f, (page - 1) * PageSize, page * PageSize)
  }

  /** Pages 1 to `k` one after another. */
  function PagesUpTo(f: seq<Article>, k: nat): seq<Article> {
    if k == 0 then [] else PagesUpTo(f, k - 1) + PageItems(f, k)
  }

  /** The first `k` pages hold the first `20 k` articles. */
  lemma {:induction false} PagesArePrefixes(f: seq<Article>, k: nat)
    ensures PagesUpTo(f, k) == f[..if k * PageSize < |f| then k * PageSize else |f|]
  {
    if k > 0 {
      PagesArePrefixes(f, k - 1);
      var lo := if (k - 1) * PageSize < |f| then (k - 1) * PageSize else |f|;
      var hi := if k * PageSize < |f| then k * PageSize else |f|;
      assert f[..hi] == f[..lo] + f[lo..hi];
    }
  }

  /** Paging through every page shows every filtered article exactly once,
      in order. */
  lemma AllPagesShowAll(f: seq<Article>)
    ensures PagesUpTo(f, TotalPages(|f|)) == f
  {
    PagesArePrefixes(f, TotalPages(|f|));
  }

  // ------------------------------------------------------------------- CSV

  /** A character that makes the export quote the field. */
  predicate Special(c: char) {
    c == '"' || c == ',' || c == '\n' || c == ';'
  }

  predicate NeedsQuotes(s: string) {
    exists i :: 0 <= i < |s| && Special(s[i])
  }

  /** `s.replace(/"/g, '""')` */
  function DoubleQuotes(s: string): (r: string)
    ensures |r| >= |s|
  {
    if s == [] then [] else (if s[0] == '"' then "\"\"" else [s[0]]) + DoubleQuotes(s[1..])
  }

  /** A text without quotes is left as it is. */
  lemma {:induction false} DoubleQuotesNoQuotes(s: string)
    requires '"' !in s
    ensures DoubleQuotes(s) == s
  {
    if s != [] {
      assert forall c | c in s[1..] :: c in s;
      DoubleQuotesNoQuotes(s[1..]);
    }
  }

  /** Quotes are doubled one character at a time: the replacement
      distributes over concatenation, and a quote becomes two. */
  lemma {:induction false} DoubleQuotesConcat(a: string, b: string)
    ensures DoubleQuotes(a + b) == DoubleQuotes(a) + DoubleQuotes(b)
  {
    if a == [] {
      assert a + b == b;
    } else {
      assert (a + b)[0] == a[0] && (a + b)[1..] == a[1..] + b;
      DoubleQuotesConcat(a[1..], b);
    }
  }

  lemma DoubleQuotesQuote()
    ensures DoubleQuotes("\"") == "\"\""
  {
    assert "\""[1..] == [];
  }

  /** One field of the export: quoted, with its quotes doubled, when it
      holds a quote, a comma, a line feed or a semicolon; as it is otherwise. */
  function Quote(s: string): (r: string)
    ensures NeedsQuotes(s) ==> |r| >= 2 && r[0] == '"' && r[|r| - 1] == '"'
    ensures !NeedsQuotes(s) ==> r == s
  {
    if NeedsQuotes(s) then "\"" + DoubleQuotes(s) + "\"" else s
  }

  function QuoteAll(fields: seq<string>): (r: seq<string>)
    ensures |r| == |fields|
  {
    if fields == [] then [] else [Quote(fields[0])] + QuoteAll(fields[1..])
  }

  /** One line of the export: its quoted fields joined with commas. */
  function Line(fields: seq<string>): string {
    Join(QuoteAll(fields), ",")
  }

  function Lines(rows: seq<seq<string>>): (r: seq<string>)
    ensures |r| == |rows|
  {
    if rows == [] then [] else [Line(rows[0])] + Lines(rows[1..])
  }

  /** Every field is quoted on its own, in place. */
  lemma {:induction false} QuoteAllFields(fields: seq<string>)
    ensures forall i :: 0 <= i < |fields| ==> QuoteAll(fields)[i] == Quote(fields[i])
  {
    if fields != [] {
      QuoteAllFields(fields[1..]);
    }
  }

  /** Every row becomes its own line, in place. */
  lemma {:induction false} LinesOfRows(rows: seq<seq<string>>)
    ensures forall i :: 0 <= i < |rows| ==> Lines(rows)[i] == Line(rows[i])
  {
    if rows != [] {
      LinesOfRows(rows[1..]);
    }
  }

  /** The whole export: its lines joined with line feeds. */
  function Csv(rows: seq<seq<string>>): string {
    Join(Lines(rows), "\n")
  }

  /** `(a.body ?? "").replace(/\r?\n/g, " ")` */
  function FlattenLines(s: string): (r: string)
    ensures |r| <= |s|
    ensures '\n' !in r
  {
    if s == [] then []
    else if |s| >= 2 && s[0] == '\r' && s[1] == '\n' then " " + FlattenLines(s[2..])
    else if s[0] == '\n' then " " + FlattenLines(s[1..])
    else [s[0]] + FlattenLines(s[1..])
  }

  /** In a text without carriage returns every line feed becomes a space and
      every other character stays where it is. */
  lemma {:induction false} FlattenLineFeeds(s: string)
    requires '\r' !in s
    ensures |FlattenLines(s)| == |s|
    ensures forall i :: 0 <= i < |s| ==> FlattenLines(s)[i] == (if s[i] == '\n' then ' ' else s[i])
  {
    if s != [] {
      assert forall c | c in s[1..] :: c in s;
      FlattenLineFeeds(s[1..]);
    }
  }

  /** The replacement works piece by piece, provided the cut does not fall
      between a carriage return and its line feed. */
  lemma {:induction false} FlattenConcat(a: string, b: string)
    requires a == [] || a[|a| - 1] != '\r'
    ensures FlattenLines(a + b) == FlattenLines(a) + FlattenLines(b)
    decreases |a|
  {
    if a == [] {
      assert a + b == b;
    } else if |a| >= 2 && a[0] == '\r' && a[1] == '\n' {
      var u := a[2..];
      assert a == "\r\n" + u && a + b == "\r\n" + (u + b);
      FlattenCrLfCons(u);
      FlattenCrLfCons(u + b);
      FlattenConcat(u, b);
      SameHead(" ", FlattenLines(u), FlattenLines(b));
    } else {
      var u := a[1..];
      assert a == [a[0]] + u && a + b == [a[0]] + (u + b);
      assert a[0] == '\r' ==> u != [] && u[0] != '\n' && (u + b)[0] == u[0];
      FlattenCharCons(a[0], u);
      FlattenCharCons(a[0], u + b);
      FlattenConcat(u, b);
      SameHead(if a[0] == '\n' then " " else [a[0]], FlattenLines(u), FlattenLines(b));
    }
  }

  /** Concatenation regroups. */
  lemma SameHead(h: string, x: string, y: string)
    ensures h + (x + y) == (h + x) + y
  {
  }

  /** A leading CRLF becomes one space. */
  lemma FlattenCrLfCons(t: string)
    ensures FlattenLines("\r\n" + t) == " " + FlattenLines(t)
  {
    assert ("\r\n" + t)[2..] == t;
  }

  /** A leading character that does not start a CRLF is replaced on its own. */
  lemma FlattenCharCons(c: char, t: string)
    requires c != '\r' || t == [] || t[0] != '\n'
    ensures FlattenLines([c] + t) == (if c == '\n' then " " else [c]) + FlattenLines(t)
  {
    assert ([c] + t)[1..] == t;
  }

  /** A carriage return followed by a line feed becomes one space. */
  lemma FlattenCrLf()
    ensures FlattenLines("\r\n") == " "
  {
    assert "\r\n"[2..] == [];
  }

  /** A text without line feeds is left as it is. */
  lemma {:induction false} FlattenKeepsSingleLine(s: string)
    requires '\n' !in s
    ensures FlattenLines(s) == s
  {
    if s != [] {
      assert forall c | c in s[1..] :: c in s;
      FlattenKeepsSingleLine(s[1..]);
    }
  }

  /** The body column: one line of at most 32000 characters. */
  function BodyField(body: Option<string>): (r: string)
    ensures |r| <= 32000 && '\n' !in r
    ensures var flat := FlattenLines(TextOrEmpty(body));
      |r| == (if |flat| < 32000 then |flat| else 32000) && r == flat[..|r|]
  {
    var flat := FlattenLines(TextOrEmpty(body));
    var r := PdfImport.Take(flat, 32000);
    assert forall c | c in r :: c in flat;
    r
  }

  const Header: seq<string> := ["id", "regulation_id", "code", "title", "sort_index", "created_at", "body"]

  /** The exported columns of one article, each as `String(v ?? "")`. */
  function ArticleRow(a: Article): (r: seq<string>)
    ensures |r| == |Header|
    ensures r[0] == TextOrEmpty(a.id) && r[1] == TextOrEmpty(a.regulationId)
    ensures r[2] == TextOrEmpty(a.code) && r[3] == TextOrEmpty(a.title) && r[5] == TextOrEmpty(a.createdAt)
    ensures r[4] == (if a.sortIndex.Some? then IntToString(a.sortIndex.value) else "")
    ensures r[6] == BodyField(a.body)
  {
    [TextOrEmpty(a.id), TextOrEmpty(a.regulationId), TextOrEmpty(a.code), TextOrEmpty(a.title),
     if a.sortIndex.Some? then IntToString(a.sortIndex.value) else "", TextOrEmpty(a.createdAt), BodyField(a.body)]
  }

  /** The header and one row per filtered article, in order. */
  function CsvRows(f: seq<Article>): (rows: seq<seq<string>>)
    ensures |rows| == |f| + 1 && rows[0] == Header
    ensures forall i :: 0 <= i < |f| ==> rows[i + 1] == ArticleRow(f[i])
    ensures forall i :: 0 <= i < |rows| ==> |rows[i]| == |Header|
  {
    [Header] + seq(|f|, i requires 0 <= i < |f| => ArticleRow(f[i]))
  }

  /** `exportCSV`: the text of the downloaded file. */
  function ExportCsv(f: seq<Article>): string {
    Csv(CsvRows(f))
  }

  // -------------------------------------------------- reading the CSV back

  /** A field read from the front of a text, and what follows it. */
  datatype Read = Read(field: string, rest: string)

  /** An unquoted field: everything up to the next comma or line feed. */
  function ReadPlain(s: string): (r: Read)
    ensures |r.rest| <= |s|
    ensures r.rest == [] || r.rest[0] == ',' || r.rest[0] == '\n'
  {
    if s == [] || s[0] == ',' || s[0] == '\n' then Read([], s)
    else
      var t := ReadPlain(s[1..]);
      Read([s[0]] + t.field, t.rest)
  }

  /** The inside of a quoted field, after its opening quote: a doubled quote
      stands for one quote and a single quote closes the field. None when
      the closing quote is missing. */
  function ReadQuoted(s: string): (r: Option<Read>)
    ensures r.Some? ==> |r.value.rest| < |s|
  {
    if s == [] then None
    else if s[0] == '"' then
      if |s| >= 2 && s[1] == '"' then
        match ReadQuoted(s[2..])
        case None => None
        case Some(t) => Some(Read(['"'] + t.field, t.rest))
      else Some(Read([], s[1..]))
    else
      match ReadQuoted(s[1..])
      case None => None
      case Some(t) => Some(Read([s[0]] + t.field, t.rest))
  }

  /** One field, quoted or not; None when a quoted field is unterminated or
      is followed by something other than a separator. */
  function ReadField(s: string): (r: Option<Read>)
    ensures r.Some? ==> |r.value.rest| <= |s|
    ensures r.Some? ==> r.value.rest == [] || r.value.rest[0] == ',' || r.value.rest[0] == '\n'
  {
    if s != [] && s[0] == '"' then
      match ReadQuoted(s[1..])
      case None => None
      case Some(t) => if t.rest == [] || t.rest[0] == ',' || t.rest[0] == '\n' then Some(t) else None
    else Some(ReadPlain(s))
  }

  /** The records of a CSV text, `record` holding the fields already read of
      the current one. */
  function ParseFrom(s: string, record: seq<string>): (r: Option<seq<seq<string>>>)
    decreases |s|
  {
    match ReadField(s)
    case None => None
    case Some(t) =>
      if t.rest == [] then Some([record + [t.field]])
      else if t.rest[0] == ',' then ParseFrom(t.rest[1..], record + [t.field])
      else
        match ParseFrom(t.rest[1..], [])
        case None => None
        case Some(rs) => Some([record + [t.field]] + rs)
  }

  /** A CSV reader: the records of a text, each a list of fields. */
  function Parse(s: string): Option<seq<seq<string>>> {
    ParseFrom(s, [])
  }

  lemma {:induction false} ReadQuotedBody(s: string, t: string)
    requires t == [] || t[0] != '"'
    ensures ReadQuoted(DoubleQuotes(s) + "\"" + t) == Some(Read(s, t))
  {
    if s == [] {
      assert DoubleQuotes(s) + "\"" + t == "\"" + t;
      ClosingQuoteStep(t);
    } else {
      ReadQuotedBody(s[1..], t);
      ReadQuotedCons(s, t);
    }
  }

  /** The step of the induction: the first character of the field, then the rest. */
  lemma ReadQuotedCons(s: string, t: string)
    requires s != []
    requires ReadQuoted(DoubleQuotes(s[1..]) + "\"" + t) == Some(Read(s[1..], t))
    ensures ReadQuoted(DoubleQuotes(s) + "\"" + t) == Some(Read(s, t))
  {
    var rest := DoubleQuotes(s[1..]) + "\"" + t;
    if s[0] == '"' {
      QuoteCons(s[1..], rest, t);
    } else {
      CharCons(s[0], s[1..], rest, t);
    }
    assert [s[0]] + s[1..] == s;
  }

  lemma QuoteCons(u: string, rest: string, t: string)
    requires rest == DoubleQuotes(u) + "\"" + t
    requires ReadQuoted(rest) == Some(Read(u, t))
    ensures ReadQuoted(DoubleQuotes(['"'] + u) + "\"" + t) == Some(Read(['"'] + u, t))
  {
    assert (['"'] + u)[1..] == u;
    assert DoubleQuotes(['"'] + u) + "\"" + t == "\"\"" + rest;
    EscapedQuoteStep(rest, Read(u, t));
  }

  lemma CharCons(c: char, u: string, rest: string, t: string)
    requires c != '"'
    requires rest == DoubleQuotes(u) + "\"" + t
    requires ReadQuoted(rest) == Some(Read(u, t))
    ensures ReadQuoted(DoubleQuotes([c] + u) + "\"" + t) == Some(Read([c] + u, t))
  {
    assert ([c] + u)[1..] == u;
    assert DoubleQuotes([c] + u) + "\"" + t == [c] + rest;
    PlainCharStep(c, rest, Read(u, t));
  }

  /** The closing quote ends the field when no quote follows it. */
  lemma ClosingQuoteStep(t: string)
    requires t == [] || t[0] != '"'
    ensures ReadQuoted("\"" + t) == Some(Read([], t))
  {
    assert ("\"" + t)[1..] == t;
  }

  /** A doubled quote inside a quoted field reads as one quote. */
  lemma EscapedQuoteStep(rest: string, r: Read)
    requires ReadQuoted(rest) == Some(r)
    ensures ReadQuoted("\"\"" + rest) == Some(Read(['"'] + r.field, r.rest))
  {
    var input := "\"\"" + rest;
    assert input[0] == '"' && input[1] == '"' && input[2..] == rest;
  }

  /** Any other character inside a quoted field reads as itself. */
  lemma PlainCharStep(c: char, rest: string, r: Read)
    requires c != '"' && ReadQuoted(rest) == Some(r)
    ensures ReadQuoted([c] + rest) == Some(Read([c] + r.field, r.rest))
  {
    var input := [c] + rest;
    assert input[0] == c && input[1..] == rest;
  }

  lemma {:induction false} ReadPlainWord(s: string, t: string)
    requires ',' !in s && '\n' !in s
    requires t == [] || t[0] == ',' || t[0] == '\n'
    ensures ReadPlain(s + t) == Read(s, t)
  {
    if s == [] {
      assert s + t == t;
    } else {
      assert forall c | c in s[1..] :: c in s;
      ReadPlainWord(s[1..], t);
      assert (s + t)[0] == s[0] && (s + t)[1..] == s[1..] + t;
      assert [s[0]] + s[1..] == s;
    }
  }

  /** A quoted field reads back as the field, up to the separator after it. */
  lemma QuotedFieldReadsBack(s: string, t: string)
    requires t == [] || t[0] == ',' || t[0] == '\n'
    ensures ReadField(Quote(s) + t) == Some(Read(s, t))
  {
    if NeedsQuotes(s) {
      ReadQuotedBody(s, t);
      assert Quote(s) + t == "\"" + (DoubleQuotes(s) + "\"" + t);
    } else {
      assert forall i :: 0 <= i < |s| ==> !Special(s[i]);
      ReadPlainWord(s, t);
      if s == [] {
        assert s + t == t;
      } else {
        assert (s + t)[0] == s[0];
      }
    }
  }

  /** One line of fields reads back as one record, up to the line feed or
      the end after it. */
  lemma {:induction false} LineReadsBack(fields: seq<string>, t: string, record: seq<string>)
    requires fields != []
    requires t == [] || t[0] == '\n'
    ensures ParseFrom(Line(fields) + t, record) ==
      if t == [] then Some([record + fields])
      else match ParseFrom(t[1..], [])
        case None => None
        case Some(rs) => Some([record + fields] + rs)
    decreases |fields|
  {
    var q := QuoteAll(fields);
    assert q[0] == Quote(fields[0]) && q[1..] == QuoteAll(fields[1..]);
    if |fields| == 1 {
      assert Line(fields) == Quote(fields[0]);
      QuotedFieldReadsBack(fields[0], t);
      assert record + [fields[0]] == record + fields;
    } else {
      var more := Line(fields[1..]) + t;
      assert Line(fields) == Quote(fields[0]) + "," + Line(fields[1..]);
      assert Line(fields) + t == Quote(fields[0]) + "," + more;
      FieldThenComma(fields[0], more, record);
      LineReadsBack(fields[1..], t, record + [fields[0]]);
      assert record + [fields[0]] + fields[1..] == record + fields;
    }
  }

  /** A field followed by a comma adds the field to the record and goes on
      with what follows the comma. */
  lemma FieldThenComma(f: string, more: string, record: seq<string>)
    ensures ParseFrom(Quote(f) + "," + more, record) == ParseFrom(more, record + [f])
  {
    assert Quote(f) + "," + more == Quote(f) + ("," + more);
    QuotedFieldReadsBack(f, "," + more);
    assert ("," + more)[1..] == more;
  }

  /** Reading a CSV text back gives the records it was written from. */
  lemma {:induction false} CsvReadsBack(rows: seq<seq<string>>)
    requires rows != []
    requires forall i :: 0 <= i < |rows| ==> rows[i] != []
    ensures Parse(Csv(rows)) == Some(rows)
  {
    var ls := Lines(rows);
    assert ls[0] == Line(rows[0]) && ls[1..] == Lines(rows[1..]);
    if |rows| == 1 {
      assert Csv(rows) == Line(rows[0]) + [];
      LineReadsBack(rows[0], [], []);
      assert [] + rows[0] == rows[0];
      assert rows == [rows[0]];
    } else {
      var tail := "\n" + Csv(rows[1..]);
      assert Csv(rows) == Line(rows[0]) + tail;
      assert tail[1..] == Csv(rows[1..]);
      CsvReadsBack(rows[1..]);
      LineReadsBack(rows[0], tail, []);
      assert [] + rows[0] == rows[0];
      assert [rows[0]] + rows[1..] == rows;
    }
  }

  /** The exported file reads back as the header followed by one seven-field
      row per filtered article, whatever the articles' texts hold. */
  lemma ExportReadsBack(f: seq<Article>)
    ensures Parse(ExportCsv(f)) == Some(CsvRows(f))
  {
    CsvReadsBack(CsvRows(f));
  }

  // ------------------------------------------------------------ page state

  /** The page's state. */
  class ArticleBrowser {
    var regs: seq<Regulation>
    var regId: JsValue
    var items: seq<Article>
    var busy: bool
    var err: string
    var q: string
    var page: int

    /** The page shown is always one of the filtered list's pages. */
    predicate Valid()
      reads this
    {
      1 <= page <= TotalPages(|Filtered(items, q)|)
    }

    constructor()
      ensures Valid()
      ensures regs == [] && regId == Str("") && items == [] && !busy && err == "" && q == "" && page == 1
    {
      regs := [];
      regId := Str("");
      items := [];
      busy := false;
      err := "";
      q := "";
      page := 1;
    }

    /** The articles shown now. */
    function Shown(): (r: seq<Article>)
      reads this
      ensures |r| <= PageSize
      ensures forall a :: a in r ==> a in items
      ensures Valid() && Filtered(items, q) != [] ==> r != []
    {
      PageItems(Filtered(items, q), page)
    }

    /** The mount effect. `response` is the body, None when the request or
        its body fails. The effect reads the selection made at mount, which
        is still empty, so a non-empty list always selects its first
        regulation. */
    method LoadRegulations(response: Option<RegulationsBody>)
      modifies this
      requires Valid()
      ensures Valid()
      ensures response.None? ==> err == RegulationsFailedMessage && regs == old(regs) && regId == old(regId)
      ensures response.Some? ==> err == "" && regs == RegulationsOf(response.value)
      ensures response.Some? && regs != [] ==> regId == regs[0].id
      ensures response.Some? && regs == [] ==> regId == old(regId)
      ensures items == old(items) && busy == old(busy) && q == old(q) && page == old(page)
    {
      err := "";
      if response.None? {
        err := RegulationsFailedMessage;
        return;
      }
      var arr := RegulationsOf(response.value);
      regs := arr;
      if |arr| > 0 {
        regId := arr[0].id;
      }
    }

    /** Choosing a regulation in the selector. */
    method SelectRegulation(id: JsValue)
      modifies this
      requires Valid()
      ensures Valid()
      ensures regId == id
      ensures regs == old(regs) && items == old(items) && busy == old(busy) && err == old(err)
      ensures q == old(q) && page == old(page)
    {
      regId := id;
    }

    /** The articles effect, run when the selection changes: nothing without
        a selection; otherwise the list empties, the page goes back to the
        first, and the answer (None when the request fails) fills the list. */
    method LoadArticles(response: Option<Payload<Article>>)
      modifies this
      requires Valid()
      ensures Valid()
      ensures !Truthy(old(regId)) ==> unchanged(this)
      ensures Truthy(old(regId)) ==> page == 1 && !busy
      ensures Truthy(old(regId)) && response.None? ==> items == [] && err == ArticlesFailedMessage
      ensures Truthy(old(regId)) && response.Some? ==> items == ItemsOf(response.value) && err == ""
      ensures regs == old(regs) && regId == old(regId) && q == old(q)
    {
      if !Truthy(regId) {
        return;
      }
      busy := true;
      err := "";
      items := [];
      page := 1;
      if response.None? {
        err := ArticlesFailedMessage;
      } else {
        items := ItemsOf(response.value);
      }
      busy := false;
    }

    /** Typing in the search box goes back to the first page. */
    method SetQuery(text: string)
      modifies this
      requires Valid()
      ensures Valid()
      ensures q == text && page == 1
      ensures regs == old(regs) && regId == old(regId) && items == old(items) && busy == old(busy)
      ensures err == old(err)
    {
      q := text;
      page := 1;
    }

    /** "Anterior": one page back, never before the first. */
    method Prev()
      modifies this
      requires Valid()
      ensures Valid()
      ensures page == if old(page) > 1 then old(page) - 1 else 1
      ensures regs == old(regs) && regId == old(regId) && items == old(items) && busy == old(busy)
      ensures err == old(err) && q == old(q)
    {
      page := if page - 1 > 1 then page - 1 else 1;
    }

    /** "Siguiente": one page on, never past the last. */
    method Next()
      modifies this
      requires Valid()
      ensures Valid()
      ensures var last := TotalPages(|Filtered(items, q)|);
        page == if old(page) < last then old(page) + 1 else last
      ensures regs == old(regs) && regId == old(regId) && items == old(items) && busy == old(busy)
      ensures err == old(err) && q == old(q)
    {
      var last := TotalPages(|Filtered(items, q)|);
      page := if page + 1 < last then page + 1 else last;
    }

    /** The text `exportCSV` downloads: the filtered list, not just the page. */
    function Export(): (csv: string)
      reads this
      ensures Parse(csv) == Some(CsvRows(Filtered(items, q)))
    {
      ExportReadsBack(Filtered(items, q));
      ExportCsv(Filtered(items, q))
    }
  }
}

=== FILE: admin_regulations.dfy ===
/** The administrators' editor of the regulation catalog: regulations, their
    articles and the controls attached to them, each created from a JSON
    body after a required-field check, and listed in a fixed order. */
module AdminRegulations {
  import opened Js
  import opened Sorting

  /** A JSON request body; a key that is absent reads as `undefined`. */
  type Body = map<string, JsValue>

  function Field(body: Body, k: string): JsValue {
    if k in body then body[k] else Undefined
  }

  /** `v || null` */
  function OrNull(v: JsValue): (r: JsValue)
    ensures Truthy(v) ==> r == v
    ensures !Truthy(v) ==> r == Null
  {
    Or(v, Null)
  }

  /** A route's answer: a JSON body, or an error status with its message. */
  datatype Reply<T> = Json(body: T) | Fail(status: nat, error: string)

  datatype Regulacion = Regulacion(id: string, codigo: JsValue, nombre: JsValue, version: JsValue, sourceUrl: JsValue, activo: bool, creadoEn: int)

  datatype Articulo = Articulo(id: string, regulacionId: JsValue, codigo: JsValue, titulo: JsValue, cuerpo: JsValue, indiceOrden: Option<int>, creadoEn: int)

  datatype Control = Control(id: string, regulacionId: JsValue, articuloId: JsValue, clave: JsValue, pregunta: JsValue, recomendacion: JsValue, peso: real, activo: bool)

  const RegulacionRequired := "codigo y nombre son requeridos"
  const ArticuloRequired := "regulacion_id y cuerpo son requeridos"
  const ControlRequired := "regulacion_id, articulo_id y pregunta son requeridos"

  /** The body of `POST /regulaciones` is accepted. */
  predicate RegulacionValid(body: Body) {
    Truthy(Field(body, "codigo")) && Truthy(Field(body, "nombre"))
  }

  /** The row `POST /regulaciones` inserts; `id` and `now` are what the database generates. */
  function NewRegulacion(body: Body, id: string, now: int): (r: Regulacion)
    ensures r.activo && r.id == id && r.creadoEn == now
    ensures r.codigo == Field(body, "codigo") && r.nombre == Field(body, "nombre")
    ensures Truthy(Field(body, "version")) ==> r.version == Field(body, "version")
    ensures !Truthy(Field(body, "version")) ==> r.version == Null
    ensures Truthy(Field(body, "source_url")) ==> r.sourceUrl == Field(body, "source_url")
    ensures !Truthy(Field(body, "source_url")) ==> r.sourceUrl == Null
  {
    Regulacion(id, Field(body, "codigo"), Field(body, "nombre"), OrNull(Field(body, "version")), OrNull(Field(body, "source_url")), true, now)
  }

  /** The body of `POST /articulos` is accepted. */
  predicate ArticuloValid(body: Body) {
    Truthy(Field(body, "regulacion_id")) && Truthy(Field(body, "cuerpo"))
  }

  /** `Number.isInteger(v) ? v : null` */
  function IntegerOrNull(v: JsValue): (r: Option<int>)
    ensures r.Some? <==> IsInteger(v)
    ensures r.Some? ==> v == Num(r.value as real)
  {
    if IsInteger(v) then Some(v.r.Floor) else None
  }

  /** The row `POST /articulos` inserts: a position is stored only when it is
      an integral number, and then as that number. */
  function NewArticulo(body: Body, id: string, now: int): (a: Articulo)
    ensures a.id == id && a.creadoEn == now
    ensures a.regulacionId == Field(body, "regulacion_id") && a.cuerpo == Field(body, "cuerpo")
    ensures Truthy(Field(body, "codigo")) ==> a.codigo == Field(body, "codigo")
    ensures !Truthy(Field(body, "codigo")) ==> a.codigo == Null
    ensures Truthy(Field(body, "titulo")) ==> a.titulo == Field(body, "titulo")
    ensures !Truthy(Field(body, "titulo")) ==> a.titulo == Null
    ensures a.indiceOrden.Some? <==> IsInteger(Field(body, "indice_orden"))
    ensures a.indiceOrden.Some? ==> Field(body, "indice_orden") == Num(a.indiceOrden.value as real)
  {
    Articulo(id, Field(body, "regulacion_id"), OrNull(Field(body, "codigo")), OrNull(Field(body, "titulo")),
             Field(body, "cuerpo"), IntegerOrNull(Field(body, "indice_orden")), now)
  }

  /** The body of `POST /controles` is accepted. */
  predicate ControlValid(body: Body) {
    Truthy(Field(body, "regulacion_id")) && Truthy(Field(body, "articulo_id")) && Truthy(Field(body, "pregunta"))
  }

  /** `typeof peso === 'number' ? peso : 1` */
  function PesoOrOne(v: JsValue): (w: real)
    ensures v.Num? ==> w == v.r
    ensures !v.Num? ==> w == 1.0
  {
    if v.Num? then v.r else 1.0
  }

  /** The row `POST /controles` inserts: a weight that is not a number
      becomes 1. */
  function NewControl(body: Body, id: string): (c: Control)
    ensures c.activo && c.id == id
    ensures c.regulacionId == Field(body, "regulacion_id") && c.articuloId == Field(body, "articulo_id")
    ensures c.pregunta == Field(body, "pregunta")
    ensures Truthy(Field(body, "clave")) ==> c.clave == Field(body, "clave")
    ensures !Truthy(Field(body, "clave")) ==> c.clave == Null
    ensures Truthy(Field(body, "recomendacion")) ==> c.recomendacion == Field(body, "recomendacion")
    ensures !Truthy(Field(body, "recomendacion")) ==> c.recomendacion == Null
    ensures Field(body, "peso").Num? ==> c.peso == Field(body, "peso").r
    ensures !Field(body, "peso").Num? ==> c.peso == 1.0
  {
    Control(id, Field(body, "regulacion_id"), Field(body, "articulo_id"), OrNull(Field(body, "clave")),
            Field(body, "pregunta"), OrNull(Field(body, "recomendacion")), PesoOrOne(Field(body, "peso")), true)
  }

  /** `ORDER BY creado_en DESC` */
  function RegulacionOrder(): (Regulacion, Regulacion) -> bool {
    ByKey((r: Regulacion) => r.creadoEn, Desc(IntLt()))
  }

  /** `ORDER BY indice_orden NULLS LAST, creado_en ASC` */
  function ArticuloOrder(): (Articulo, Articulo) -> bool {
    ByKey((a: Articulo) => (a.indiceOrden, a.creadoEn), Lex(NullsLast(IntLt()), IntLt()))
  }

  lemma RegulacionOrderIsPreorder()
    ensures TotalPreorder(RegulacionOrder())
  {
    IntLtStrictTotal();
    DescStrictTotal(IntLt());
    ByKeyPreorder((r: Regulacion) => r.creadoEn, Desc(IntLt()));
  }

  lemma ArticuloOrderIsPreorder()
    ensures TotalPreorder(ArticuloOrder())
  {
    IntLtStrictTotal();
    NullsLastStrictTotal(IntLt());
    LexStrictTotal(NullsLast(IntLt()), IntLt());
    ByKeyPreorder((a: Articulo) => (a.indiceOrden, a.creadoEn), Lex(NullsLast(IntLt()), IntLt()));
  }

  /** The articles of one regulation, in table order. */
  function ArticulosOf(articulos: seq<Articulo>, regulacionId: string): (r: seq<Articulo>)
    ensures forall a :: a in r <==> a in articulos && a.regulacionId == Str(regulacionId)
  {
    if articulos == [] then []
    else
      var rest := ArticulosOf(articulos[1..], regulacionId);
      assert forall a :: a in articulos <==> a == articulos[0] || a in articulos[1..];
      if articulos[0].regulacionId == Str(regulacionId) then [articulos[0]] + rest else rest
  }

  /** The selection keeps the table's order and each row once: consecutive
      stretches of articles give consecutive stretches of the result, and one
      article is kept exactly when it belongs to the regulation. */
  lemma {:induction false} ArticulosOfConcat(a: seq<Articulo>, b: seq<Articulo>, regulacionId: string)
    ensures ArticulosOf(a + b, regulacionId) == ArticulosOf(a, regulacionId) + ArticulosOf(b, regulacionId)
  {
    if a == [] {
      assert a + b == b;
    } else {
      assert (a + b)[0] == a[0] && (a + b)[1..] == a[1..] + b;
      ArticulosOfConcat(a[1..], b, regulacionId);
    }
  }

  lemma ArticulosOfSingle(x: Articulo, regulacionId: string)
    ensures ArticulosOf([x], regulacionId) == if x.regulacionId == Str(regulacionId) then [x] else []
  {
    assert [x][1..] == [];
  }

  /** In a listing of articles, ones with a position come first, in increasing
      position, and equal positions are in creation order. */
  lemma ArticulosListedInPosition(s: seq<Articulo>, i: int, j: int)
    requires SortedBy(s, ArticuloOrder()) && 0 <= i < j < |s|
    ensures s[j].indiceOrden.Some? ==> s[i].indiceOrden.Some? && s[i].indiceOrden.value <= s[j].indiceOrden.value
    ensures s[i].indiceOrden == s[j].indiceOrden ==> s[i].creadoEn <= s[j].creadoEn
  {
    assert ArticuloOrder()(s[i], s[j]);
  }

  /** The `regulaciones`, `articulos` and `controles` tables. Each request may
      find the database failing (`dbFails`); the failing statement then changes
      nothing. */
  class RegulationCatalog {
    var regulaciones: seq<Regulacion>
    var articulos: seq<Articulo>
    var controles: seq<Control>

    constructor()
      ensures regulaciones == [] && articulos == [] && controles == []
    {
      regulaciones := [];
      articulos := [];
      controles := [];
    }

    /** `GET /regulaciones`: newest first. */
    method ListRegulaciones(dbFails: bool) returns (res: Reply<seq<Regulacion>>)
      ensures dbFails <==> res == Fail(500, "Error listando regulaciones")
      ensures res.Json? ==> multiset(res.body) == multiset(regulaciones) && SortedBy(res.body, RegulacionOrder())
    {
      if dbFails {
        return Fail(500, "Error listando regulaciones");
      }
      RegulacionOrderIsPreorder();
      SortSorted(regulaciones, RegulacionOrder());
      return Json(Sort(regulaciones, RegulacionOrder()));
    }

    /** `POST /regulaciones` */
    method CrearRegulacion(body: Body, id: string, now: int, dbFails: bool) returns (res: Reply<Regulacion>)
      modifies this
      ensures !RegulacionValid(body) ==> res == Fail(400, RegulacionRequired)
      ensures RegulacionValid(body) && dbFails ==> res == Fail(500, "Error creando regulación")
      ensures res.Fail? ==> unchanged(this)
      ensures RegulacionValid(body) && !dbFails ==>
        && res == Json(NewRegulacion(body, id, now))
        && regulaciones == old(regulaciones) + [res.body]
        && articulos == old(articulos) && controles == old(controles)
    {
      if !RegulacionValid(body) {
        return Fail(400, RegulacionRequired);
      }
      if dbFails {
        return Fail(500, "Error creando regulación");
      }
      var row := NewRegulacion(body, id, now);
      regulaciones := regulaciones + [row];
      return Json(row);
    }

    /** `GET /regulaciones/:id/articulos`: by position, unpositioned last, then oldest first. */
    method ListArticulos(regulacionId: string, dbFails: bool) returns (res: Reply<seq<Articulo>>)
      ensures dbFails <==> res == Fail(500, "Error listando artículos")
      ensures res.Json? ==>
        && multiset(res.body) == multiset(ArticulosOf(articulos, regulacionId))
        && SortedBy(res.body, ArticuloOrder())
    {
      if dbFails {
        return Fail(500, "Error listando artículos");
      }
      var mine := ArticulosOf(articulos, regulacionId);
      ArticuloOrderIsPreorder();
      SortSorted(mine, ArticuloOrder());
      return Json(Sort(mine, ArticuloOrder()));
    }

    /** `POST /articulos` */
    method CrearArticulo(body: Body, id: string, now: int, dbFails: bool) returns (res: Reply<Articulo>)
      modifies this
      ensures !ArticuloValid(body) ==> res == Fail(400, ArticuloRequired)
      ensures ArticuloValid(body) && dbFails ==> res == Fail(500, "Error creando artículo")
      ensures res.Fail? ==> unchanged(this)
      ensures ArticuloValid(body) && !dbFails ==>
        && res == Json(NewArticulo(body, id, now))
        && articulos == old(articulos) + [res.body]
        && regulaciones == old(regulaciones) && controles == old(controles)
    {
      if !ArticuloValid(body) {
        return Fail(400, ArticuloRequired);
      }
      if dbFails {
        return Fail(500, "Error creando artículo");
      }
      var row := NewArticulo(body, id, now);
      articulos := articulos + [row];
      return Json(row);
    }

    /** `POST /controles` */
    method CrearControl(body: Body, id: string, dbFails: bool) returns (res: Reply<Control>)
      modifies this
      ensures !ControlValid(body) ==> res == Fail(400, ControlRequired)
      ensures ControlValid(body) && dbFails ==> res == Fail(500, "Error creando control")
      ensures res.Fail? ==> unchanged(this)
      ensures ControlValid(body) && !dbFails ==>
        && res == Json(NewControl(body, id))
        && controles == old(controles) + [res.body]
        && regulaciones == old(regulaciones) && articulos == old(articulos)
    {
      if !ControlValid(body) {
        return Fail(400, ControlRequired);
      }
      if dbFails {
        return Fail(500, "Error creando control");
      }
      var row := NewControl(body, id);
      controles := controles + [row];
      return Json(row);
    }
  }

  /** A created regulation with only its required fields has null version and URL. */
  lemma MinimalRegulacion(codigo: string, nombre: string, id: string, now: int)
    requires codigo != "" && nombre != ""
    ensures var body := map["codigo" := Str(codigo), "nombre" := Str(nombre)];
      && RegulacionValid(body)
      && NewRegulacion(body, id, now) == Regulacion(id, Str(codigo), Str(nombre), Null, Null, true, now)
  {
  }

  /** A position sent as a string or a fraction is dropped, an integral number is kept. */
  lemma IndiceOrdenOnlyIntegers(body: Body, id: string, now: int)
    ensures Field(body, "indice_orden").Str? ==> NewArticulo(body, id, now).indiceOrden.None?
    ensures Field(body, "indice_orden") == Num(2.5) ==> NewArticulo(body, id, now).indiceOrden.None?
    ensures Field(body, "indice_orden") == Num(3.0) ==> NewArticulo(body, id, now).indiceOrden == Some(3)
  {
  }

  /** A weight sent as a string is replaced by 1, a number is kept as sent. */
  lemma PesoDefaults(body: Body, id: string)
    ensures Field(body, "peso").Str? ==> NewControl(body, id).peso == 1.0
    ensures Field(body, "peso") == Undefined ==> NewControl(body, id).peso == 1.0
    ensures Field(body, "peso") == Num(0.0) ==> NewControl(body, id).peso == 0.0
  {
  }
}

=== FILE: auth.dfy ===
/** The authentication middleware: a request passes with a `Bearer` token
    that the token verifier accepts, and the verified payload becomes the
    request's user. */
module Auth {
  import opened Js
  import opened Text

  /** The claims of a verified token that the application reads. */
  datatype User = User(rol: JsValue, roleId: JsValue, nombre: JsValue, name: JsValue, email: JsValue)

  /** What a middleware does: answer with an error, or pass the request on. */
  datatype Outcome = Deny(status: nat, error: string) | Next(user: User)

  /** `[scheme, token] = header.split(' ')`: the first two pieces; a missing second piece is `undefined` (None). */
  function SchemeAndToken(header: string): (st: (string, Option<string>))
    ensures var parts := Split(header, ' ');
      st.0 == parts[0] && (st.1.None? <==> |parts| < 2) && (st.1.Some? ==> st.1.value == parts[1])
  {
    var parts := Split(header, ' ');
    (parts[0], if |parts| >= 2 then Some(parts[1]) else None)
  }

  /** `auth(req, res, next)`. `header` is the Authorization header, None when
      absent; `verify` is the signature check, None when it throws. */
  function Authenticate(header: Option<string>, verify: string -> Option<User>): (o: Outcome)
    ensures var (scheme, token) := SchemeAndToken(TextOrEmpty(header));
      && (o == Deny(401, "Token requerido") <==> scheme != "Bearer" || token.None? || token.value == "")
      && (o == Deny(401, "Token inválido") <==> scheme == "Bearer" && token.Some? && token.value != "" && verify(token.value).None?)
      && (o.Next? <==> scheme == "Bearer" && token.Some? && token.value != "" && verify(token.value).Some?)
      && (o.Next? ==> o.user == verify(token.value).value)
  {
    var (scheme, token) := SchemeAndToken(TextOrEmpty(header));
    if scheme != "Bearer" || token.None? || token.value == "" then Deny(401, "Token requerido")
    else
      match verify(token.value)
      case None => Deny(401, "Token inválido")
      case Some(u) => Next(u)
  }

  /** `"Bearer " + t` with a token free of spaces carries exactly `t`, and so
      does it with further space-separated words after the token. */
  lemma BearerToken(t: string, rest: string)
    requires t != [] && ' ' !in t
    ensures SchemeAndToken("Bearer " + t) == ("Bearer", Some(t))
    ensures SchemeAndToken("Bearer " + t + " " + rest) == ("Bearer", Some(t))
  {
    BearerAlone(t);
    BearerThenWords(t, rest);
  }

  lemma BearerAlone(t: string)
    requires t != [] && ' ' !in t
    ensures Split("Bearer " + t, ' ') == ["Bearer", t]
  {
    assert "Bearer " + t == "Bearer" + [' '] + t;
    SplitAfter("Bearer", ' ', t);
    assert Split(t, ' ') == [t];
  }

  lemma BearerThenWords(t: string, rest: string)
    requires t != [] && ' ' !in t
    ensures Split("Bearer " + t + " " + rest, ' ') == ["Bearer", t] + Split(rest, ' ')
  {
    var u := t + [' '] + rest;
    assert "Bearer " + t + " " + rest == "Bearer" + [' '] + u;
    SplitAfter("Bearer", ' ', u);
    SplitAfter(t, ' ', rest);
  }

  /** Two spaces after the scheme leave an empty token, which is refused. */
  lemma DoubleSpaceRefused(t: string, verify: string -> Option<User>)
    ensures Authenticate(Some("Bearer  " + t), verify) == Deny(401, "Token requerido")
  {
    var h := "Bearer  " + t;
    assert h[..6] == "Bearer";
    SplitAtFirst(h, ' ', 6);
    var r := h[7..];
    assert r[..0] == [];
    SplitAtFirst(r, ' ', 0);
  }

  /** The scheme is case-sensitive and the header is required. */
  lemma SchemeRequired(verify: string -> Option<User>)
    ensures Authenticate(None, verify) == Deny(401, "Token requerido")
    ensures Authenticate(Some("bearer abc"), verify) == Deny(401, "Token requerido")
  {
    assert Split("", ' ') == [""];
    assert "bearer abc" == "bearer" + [' '] + "abc";
    SplitAfter("bearer", ' ', "abc");
  }
}

=== FILE: catalog.dfy ===
/** The control catalog of a regulation as the evaluation form loads it:
    the controls of the regulation that are active and whose article is
    enabled, ordered by the article's number, then by key and question,
    with the static GDPR and SOX catalogs as a fallback when the database
    holds none. */
module ControlCatalog {
  import opened Js
  import opened Text
  import opened Sorting
  import Scoring

  /** A row of `articles`. */
  datatype ArticleRecord = ArticleRecord(code: Option<string>, title: Option<string>, isEnabled: Option<bool>)

  /** A row of `controls`. */
  datatype ControlRecord = ControlRecord(
    id: string, regulationId: string, articleId: Option<string>, isActive: Option<bool>,
    clave: Option<string>, pregunta: Option<string>, recomendacion: Option<string>, peso: Option<int>)

  /** The three tables read by the queries; regulations and articles are
      keyed by their primary key, regulations map to their code. */
  datatype Db = Db(regulations: map<string, Option<string>>, articles: map<string, ArticleRecord>, controls: seq<ControlRecord>)

  /** A row of the query's result. */
  datatype CatalogRow = CatalogRow(
    id: string, clave: Option<string>, pregunta: Option<string>, recomendacion: Option<string>,
    peso: Option<int>, articuloCodigo: Option<string>, articuloTitulo: Option<string>)

  /** The largest `int4`, the key given to controls whose article has no number. */
  const Unnumbered: int := 2147483647

  /** The route parameter as it is looked up: trimmed and upper-cased. */
  function NormalizeCode(s: string): (r: string)
    ensures |r| <= |s| && IsTrimmed(r)
    ensures forall i :: 0 <= i < |r| ==> !('a' <= r[i] <= 'z')
    ensures |r| == |Trim(s)| && forall i :: 0 <= i < |r| ==> r[i] == UpperChar(Trim(s)[i])
  {
    var t := Trim(s);
    var r := ToUpper(t);
    assert r != [] ==> r[0] == UpperChar(t[0]) && r[|r| - 1] == UpperChar(t[|t| - 1]);
    r
  }

  /** Normalising a normalised code changes nothing. */
  lemma NormalizeIdempotent(s: string)
    ensures NormalizeCode(NormalizeCode(s)) == NormalizeCode(s)
  {
    var r := NormalizeCode(s);
    TrimOfTrimmed(r);
    assert ToUpper(r) == r;
  }

  /** `LEFT JOIN articles`: the control's article, None when it has none or
      the id matches no article. */
  function ArticleOf(db: Db, c: ControlRecord): Option<ArticleRecord> {
    if c.articleId.Some? && c.articleId.value in db.articles then Some(db.articles[c.articleId.value]) else None
  }

  /** `COALESCE(c.is_active, true) = true AND (a.id IS NULL OR COALESCE(a.is_enabled, true) = true)` */
  predicate Eligible(db: Db, c: ControlRecord) {
    c.isActive != Some(false) && (ArticleOf(db, c).None? || ArticleOf(db, c).value.isEnabled != Some(false))
  }

  /** The selected columns of one control. */
  function Project(db: Db, c: ControlRecord): CatalogRow {
    var a := ArticleOf(db, c);
    CatalogRow(c.id, c.clave, c.pregunta, c.recomendacion, c.peso,
               if a.Some? then a.value.code else None, if a.Some? then a.value.title else None)
  }

  /** `JOIN regulations ... WHERE r.code = $1` */
  predicate OfCode(db: Db, c: ControlRecord, code: string) {
    c.regulationId in db.regulations && db.regulations[c.regulationId] == Some(code)
  }

  /** The eligible controls of the regulation with code `code`, projected, in table order. */
  function SelectByCode(db: Db, cs: seq<ControlRecord>, code: string): (rows: seq<CatalogRow>)
    ensures |rows| <= |cs|
    ensures forall r :: r in rows <==> exists c :: c in cs && OfCode(db, c, code) && Eligible(db, c) && r == Project(db, c)
  {
    if cs == [] then []
    else
      var rest := SelectByCode(db, cs[1..], code);
      assert forall c :: c in cs <==> c == cs[0] || c in cs[1..];
      if OfCode(db, cs[0], code) && Eligible(db, cs[0]) then [Project(db, cs[0])] + rest else rest
  }

  /** The eligible controls whose `regulation_id` is `id`, projected, in table order. */
  function SelectById(db: Db, cs: seq<ControlRecord>, id: string): (rows: seq<CatalogRow>)
    ensures |rows| <= |cs|
    ensures forall r :: r in rows <==> exists c :: c in cs && c.regulationId == id && Eligible(db, c) && r == Project(db, c)
  {
    if cs == [] then []
    else
      var rest := SelectById(db, cs[1..], id);
      assert forall c :: c in cs <==> c == cs[0] || c in cs[1..];
      if cs[0].regulationId == id && Eligible(db, cs[0]) then [Project(db, cs[0])] + rest else rest
  }

  /** The selection keeps the table's order and each row once: consecutive
      stretches of controls give consecutive stretches of the result, and one
      control gives its projection exactly when it qualifies. */
  lemma {:induction false} SelectByCodeConcat(db: Db, a: seq<ControlRecord>, b: seq<ControlRecord>, code: string)
    ensures SelectByCode(db, a + b, code) == SelectByCode(db, a, code) + SelectByCode(db, b, code)
  {
    if a == [] {
      assert a + b == b;
    } else {
      assert (a + b)[0] == a[0] && (a + b)[1..] == a[1..] + b;
      SelectByCodeConcat(db, a[1..], b, code);
    }
  }

  lemma SelectByCodeSingle(db: Db, c: ControlRecord, code: string)
    ensures SelectByCode(db, [c], code) == if OfCode(db, c, code) && Eligible(db, c) then [Project(db, c)] else []
  {
    assert [c][1..] == [];
  }

  /** The same for the selection by regulation id. */
  lemma {:induction false} SelectByIdConcat(db: Db, a: seq<ControlRecord>, b: seq<ControlRecord>, id: string)
    ensures SelectById(db, a + b, id) == SelectById(db, a, id) + SelectById(db, b, id)
  {
    if a == [] {
      assert a + b == b;
    } else {
      assert (a + b)[0] == a[0] && (a + b)[1..] == a[1..] + b;
      SelectByIdConcat(db, a[1..], b, id);
    }
  }

  lemma SelectByIdSingle(db: Db, c: ControlRecord, id: string)
    ensures SelectById(db, [c], id) == if c.regulationId == id && Eligible(db, c) then [Project(db, c)] else []
  {
    assert [c][1..] == [];
  }

  /** Looking up by code is looking up by id when exactly one regulation has that code. */
  lemma {:induction false} ByCodeIsById(db: Db, cs: seq<ControlRecord>, code: string, id: string)
    requires id in db.regulations && db.regulations[id] == Some(code)
    requires forall other :: other in db.regulations && db.regulations[other] == Some(code) ==> other == id
    ensures SelectByCode(db, cs, code) == SelectById(db, cs, id)
  {
    if cs != [] {
      ByCodeIsById(db, cs[1..], code, id);
      assert OfCode(db, cs[0], code) <==> cs[0].regulationId == id;
    }
  }

  /** The digits at the start of `s`, as many as there are. */
  function LeadingDigits(s: string): (d: string)
    ensures |d| <= |s| && d == s[..|d|] && AllDigits(d)
    ensures |d| == |s| || !IsDigit(s[|d|])
  {
    if s != [] && IsDigit(s[0]) then
      var d := [s[0]] + LeadingDigits(s[1..]);
      assert s == [s[0]] + s[1..];
      d
    else []
  }

  /** `(regexp_match(s, '([0-9]+)'))[1]`: the leftmost maximal run of digits, None when there is no digit. */
  function FirstDigitRun(s: string): (r: Option<string>)
    ensures r.Some? ==> r.value != [] && AllDigits(r.value)
  {
    if s == [] then None
    else if IsDigit(s[0]) then Some(LeadingDigits(s))
    else FirstDigitRun(s[1..])
  }

  /** `run` occurs in `s` at `i`, no digit comes before it and none right after it. */
  predicate FirstRunAt(s: string, run: string, i: int) {
    && 0 <= i <= |s| - |run| && s[i..i + |run|] == run
    && (forall j :: 0 <= j < i ==> !IsDigit(s[j]))
    && (i + |run| == |s| || !IsDigit(s[i + |run|]))
  }

  /** The run found is a maximal run of digits with no digit before it, and
      there is none only when `s` holds no digit. */
  lemma {:induction false} FirstDigitRunIsLeftmost(s: string)
    ensures FirstDigitRun(s).None? <==> forall i :: 0 <= i < |s| ==> !IsDigit(s[i])
    ensures FirstDigitRun(s).Some? ==> exists i :: FirstRunAt(s, FirstDigitRun(s).value, i)
  {
    if s == [] {
    } else if IsDigit(s[0]) {
      var d := LeadingDigits(s);
      assert s[0..|d|] == d;
      assert FirstRunAt(s, d, 0);
    } else {
      FirstDigitRunIsLeftmost(s[1..]);
      var r := FirstDigitRun(s[1..]);
      if r.Some? {
        var t := s[1..];
        var i :| FirstRunAt(t, r.value, i);
        assert s[i + 1..i + 1 + |r.value|] == r.value;
        forall j | 0 <= j < i + 1 ensures !IsDigit(s[j]) {
          if j > 0 { assert s[j] == t[j - 1]; }
        }
        assert FirstRunAt(s, r.value, i + 1);
      } else {
        forall i | 0 <= i < |s| ensures !IsDigit(s[i]) {
          if i > 0 { assert s[i] == s[1..][i - 1]; }
        }
      }
    }
  }

  /** The article number: the first digit run of the article code read as an
      integer, None (SQL NULL) when there is no code or no digit. */
  function ArticleNumber(code: Option<string>): Option<nat> {
    if code.None? then None
    else
      var run := FirstDigitRun(code.value);
      if run.None? then None else Some(DigitsValue(run.value))
  }

  /** The `::int` cast fails: the number does not fit an `int4`. */
  predicate NumberOverflows(r: CatalogRow) {
    var n := ArticleNumber(r.articuloCodigo);
    n.Some? && n.value > Unnumbered
  }

  /** `COALESCE(<article number>::int, 2147483647)` */
  function SortKey(r: CatalogRow): (k: int)
    requires !NumberOverflows(r)
    ensures 0 <= k <= Unnumbered
    ensures ArticleNumber(r.articuloCodigo).None? ==> k == Unnumbered
    ensures ArticleNumber(r.articuloCodigo).Some? ==> k == ArticleNumber(r.articuloCodigo).value
  {
    match ArticleNumber(r.articuloCodigo)
    case None => Unnumbered
    case Some(n) => n
  }

  /** The whole `ORDER BY` key: article number, then `clave`, then `pregunta`,
      each ascending with NULL last. */
  function RowKey(r: CatalogRow): (int, (Option<string>, Option<string>)) {
    (if NumberOverflows(r) then Unnumbered else SortKey(r), (r.clave, r.pregunta))
  }

  function KeyLt(): ((int, (Option<string>, Option<string>)), (int, (Option<string>, Option<string>))) -> bool {
    Lex(IntLt(), Lex(NullsLast(StrLt()), NullsLast(StrLt())))
  }

  function CatalogOrder(): (CatalogRow, CatalogRow) -> bool {
    ByKey(RowKey, KeyLt())
  }

  /** The catalog order compares every pair of rows and is transitive. */
  lemma CatalogOrderIsPreorder()
    ensures TotalPreorder(CatalogOrder())
  {
    IntLtStrictTotal();
    StrLtStrictTotal();
    NullsLastStrictTotal(StrLt());
    LexStrictTotal(NullsLast(StrLt()), NullsLast(StrLt()));
    LexStrictTotal(IntLt(), Lex(NullsLast(StrLt()), NullsLast(StrLt())));
    ByKeyPreorder(RowKey, KeyLt());
  }

  /** `rows` sorted by the catalog order. */
  function Ordered(rows: seq<CatalogRow>): (r: seq<CatalogRow>)
    ensures multiset(r) == multiset(rows)
    ensures SortedBy(r, CatalogOrder())
  {
    CatalogOrderIsPreorder();
    SortSorted(rows, CatalogOrder());
    Sort(rows, CatalogOrder())
  }

  /** In an ordered catalog article numbers never decrease, so controls whose
      article has no number come after every control numbered below 2147483647;
      among equal numbers `clave` never decreases, NULL last. (A row whose
      number overflows makes the whole query fail, see `QueryFails`.) */
  lemma OrderedByArticleNumber(rows: seq<CatalogRow>, i: int, j: int)
    requires 0 <= i < j < |Ordered(rows)|
    ensures RowKey(Ordered(rows)[i]).0 <= RowKey(Ordered(rows)[j]).0
    ensures RowKey(Ordered(rows)[i]).0 == RowKey(Ordered(rows)[j]).0 ==>
      !NullsLast(StrLt())(Ordered(rows)[j].clave, Ordered(rows)[i].clave)
  {
    var o := Ordered(rows);
    assert CatalogOrder()(o[i], o[j]);
  }

  /** What the `/controles/:normativa` and `/controles/por-regulacion/:id` routes answer. */
  datatype CatalogResponse =
    | Rows(rows: seq<CatalogRow>)
    | StaticCatalog(catalog: Scoring.Catalog)
    | NotFound(error: string)
    | ServerError(error: string)

  /** The query failed: the database did, or an article number overflowed the `int4` cast. */
  predicate QueryFails(rows: seq<CatalogRow>, dbFails: bool) {
    dbFails || exists r :: r in rows && NumberOverflows(r)
  }

  /** `GET /controles/:normativa`; `dbFails` stands for a failed database call. */
  function ControlesPorNormativa(db: Db, normativa: string, dbFails: bool): (res: CatalogResponse)
    ensures var sel := SelectByCode(db, db.controls, NormalizeCode(normativa));
      && (res.ServerError? <==> QueryFails(sel, dbFails))
      && (res.ServerError? ==> res.error == "Error de servidor")
      && (res.Rows? <==> !QueryFails(sel, dbFails) && sel != [])
      && (res.Rows? ==> multiset(res.rows) == multiset(sel) && SortedBy(res.rows, CatalogOrder()))
  {
    var code := NormalizeCode(normativa);
    var sel := SelectByCode(db, db.controls, code);
    if QueryFails(sel, dbFails) then ServerError("Error de servidor")
    else if |sel| > 0 then Rows(Ordered(sel))
    else if code == "GDPR" then StaticCatalog(Scoring.Gdpr)
    else if code == "SOX" then StaticCatalog(Scoring.Sox)
    else NotFound("Normativa no encontrada")
  }

  /** The static catalogs are served only when the database holds no eligible
      control for the code, and only for the codes GDPR and SOX, in any case
      and with any surrounding white space; any other code then gets 404. */
  lemma FallbackCases(db: Db, normativa: string, dbFails: bool)
    ensures var res := ControlesPorNormativa(db, normativa, dbFails);
      var code := NormalizeCode(normativa);
      var empty := !dbFails && SelectByCode(db, db.controls, code) == [];
      && (res == StaticCatalog(Scoring.Gdpr) <==> empty && code == "GDPR")
      && (res == StaticCatalog(Scoring.Sox) <==> empty && code == "SOX")
      && (res == NotFound("Normativa no encontrada") <==> empty && code != "GDPR" && code != "SOX")
  {
  }

  /** Changing the case or the surrounding white space of the parameter changes nothing. */
  lemma CodeNormalised(db: Db, normativa: string, dbFails: bool)
    ensures ControlesPorNormativa(db, NormalizeCode(normativa), dbFails) == ControlesPorNormativa(db, normativa, dbFails)
  {
    NormalizeIdempotent(normativa);
  }

  /** `GET /controles/por-regulacion/:id`: no fallback, always an array unless the query fails. */
  function ControlesPorRegulacion(db: Db, regulacionId: string, dbFails: bool): (res: CatalogResponse)
    ensures var sel := SelectById(db, db.controls, regulacionId);
      && (res.ServerError? <==> QueryFails(sel, dbFails))
      && (!res.ServerError? ==> res.Rows? && multiset(res.rows) == multiset(sel) && SortedBy(res.rows, CatalogOrder()))
  {
    var sel := SelectById(db, db.controls, regulacionId);
    if QueryFails(sel, dbFails) then ServerError("Error de servidor") else Rows(Ordered(sel))
  }

  /** For a regulation whose code is unique both routes return the same rows,
      as long as the database holds some. */
  lemma RoutesAgree(db: Db, normativa: string, id: string, dbFails: bool)
    requires id in db.regulations && db.regulations[id] == Some(NormalizeCode(normativa))
    requires forall other :: other in db.regulations && db.regulations[other] == Some(NormalizeCode(normativa)) ==> other == id
    requires SelectById(db, db.controls, id) != []
    ensures ControlesPorNormativa(db, normativa, dbFails) == ControlesPorRegulacion(db, id, dbFails)
  {
    ByCodeIsById(db, db.controls, NormalizeCode(normativa), id);
  }
}

=== FILE: companies_api.dfy ===
/** The administrators' companies table: list, create, switch a company
    on or off, and delete. */
module CompaniesApi {
  import opened Js
  import opened Sorting

  /** A row of `companies`. `isActive` is None for SQL NULL, which `NOT` leaves NULL. */
  datatype Company = Company(id: string, name: JsValue, taxId: JsValue, address: JsValue, phone: JsValue, isActive: Option<bool>, createdAt: int)

  /** A JSON request body; an absent key reads as `undefined`. */
  type Body = map<string, JsValue>

  function Field(body: Body, k: string): JsValue {
    if k in body then body[k] else Undefined
  }

  /** `v ?? null` */
  function NullIfMissing(v: JsValue): (r: JsValue)
    ensures Nullish(v) ==> r == Null
    ensures !Nullish(v) ==> r == v
  {
    Coalesce(v, Null)
  }

  datatype Reply =
    | Listed(rows: seq<Company>)
    | Created(status: nat, row: Company)
    | Updated(row: Company)
    | Deleted(ok: bool)
    | Failed(status: nat, error: string)

  /** The row `POST /admin/empresas` inserts; `id` and `now` are generated by the database. */
  function NewCompany(body: Body, id: string, now: int): (c: Company)
    ensures c.id == id && c.createdAt == now && c.isActive == Some(true)
    ensures c.name == Field(body, "name")
    ensures c.taxId == NullIfMissing(Field(body, "tax_id"))
    ensures c.address == NullIfMissing(Field(body, "address"))
    ensures c.phone == NullIfMissing(Field(body, "phone"))
  {
    Company(id, Field(body, "name"), NullIfMissing(Field(body, "tax_id")), NullIfMissing(Field(body, "address")),
            NullIfMissing(Field(body, "phone")), Some(true), now)
  }

  /** SQL `NOT` on a nullable boolean. */
  function Not(b: Option<bool>): (r: Option<bool>)
    ensures r.None? <==> b.None?
    ensures b.Some? ==> r == Some(!b.value)
  {
    if b.None? then None else Some(!b.value)
  }

  /** `SET is_active = NOT is_active WHERE id = $1` */
  function Flip(c: Company, id: string): Company {
    if c.id == id then c.(isActive := Not(c.isActive)) else c
  }

  function Toggled(rows: seq<Company>, id: string): (r: seq<Company>)
    ensures |r| == |rows|
    ensures forall i :: 0 <= i < |rows| && rows[i].id != id ==> r[i] == rows[i]
    ensures forall i :: 0 <= i < |rows| && rows[i].id == id ==> r[i] == rows[i].(isActive := Not(rows[i].isActive))
  {
    seq(|rows|, i requires 0 <= i < |rows| => Flip(rows[i], id))
  }

  /** `DELETE ... WHERE id = $1` */
  function Without(rows: seq<Company>, id: string): (r: seq<Company>)
    ensures forall c :: c in r <==> c in rows && c.id != id
    ensures |r| <= |rows|
  {
    if rows == [] then []
    else
      var rest := Without(rows[1..], id);
      assert forall c :: c in rows <==> c == rows[0] || c in rows[1..];
      if rows[0].id == id then rest else [rows[0]] + rest
  }

  /** The deletion keeps the other rows in order and each once: consecutive
      stretches of the table give consecutive stretches of the result, and
      one row stays exactly when its id differs. */
  lemma {:induction false} WithoutConcat(a: seq<Company>, b: seq<Company>, id: string)
    ensures Without(a + b, id) == Without(a, id) + Without(b, id)
  {
    if a == [] {
      assert a + b == b;
    } else {
      assert (a + b)[0] == a[0] && (a + b)[1..] == a[1..] + b;
      WithoutConcat(a[1..], b, id);
    }
  }

  lemma WithoutSingle(c: Company, id: string)
    ensures Without([c], id) == if c.id == id then [] else [c]
  {
    assert [c][1..] == [];
  }

  /** The first row with the id, as `RETURNING` reports it after the update. */
  function FirstWithId(rows: seq<Company>, id: string): (r: Option<Company>)
    ensures r.None? <==> forall c :: c in rows ==> c.id != id
    ensures r.Some? ==> r.value in rows && r.value.id == id
  {
    if rows == [] then None
    else if rows[0].id == id then Some(rows[0])
    else
      assert forall c :: c in rows <==> c == rows[0] || c in rows[1..];
      FirstWithId(rows[1..], id)
  }

  /** Switching a company twice restores the table. */
  lemma ToggleTwice(rows: seq<Company>, id: string)
    ensures Toggled(Toggled(rows, id), id) == rows
  {
  }

  /** Switching an unknown id leaves the table as it was. */
  lemma ToggleUnknown(rows: seq<Company>, id: string)
    requires forall c :: c in rows ==> c.id != id
    ensures Toggled(rows, id) == rows
  {
    var t := Toggled(rows, id);
    forall i | 0 <= i < |rows| ensures t[i] == rows[i] {
      assert rows[i] in rows;
    }
  }

  /** Deleting twice is deleting once. */
  lemma {:induction false} DeleteIdempotent(rows: seq<Company>, id: string)
    ensures Without(Without(rows, id), id) == Without(rows, id)
  {
    if rows != [] {
      DeleteIdempotent(rows[1..], id);
    }
  }

  /** `ORDER BY created_at DESC` */
  function NewestFirst(): (Company, Company) -> bool {
    ByKey((c: Company) => c.createdAt, Desc(IntLt()))
  }

  /** The `companies` table; each request may find the database failing (`dbFails`). */
  class CompanyTable {
    var rows: seq<Company>

    constructor(rows0: seq<Company>)
      ensures rows == rows0
    {
      rows := rows0;
    }

    /** `GET /admin/empresas` */
    method List(dbFails: bool) returns (res: Reply)
      ensures dbFails <==> res == Failed(500, "Error listando empresas")
      ensures res.Listed? ==> multiset(res.rows) == multiset(rows) && SortedBy(res.rows, NewestFirst())
    {
      if dbFails {
        return Failed(500, "Error listando empresas");
      }
      IntLtStrictTotal();
      DescStrictTotal(IntLt());
      ByKeyPreorder((c: Company) => c.createdAt, Desc(IntLt()));
      SortSorted(rows, NewestFirst());
      return Listed(Sort(rows, NewestFirst()));
    }

    /** `POST /admin/empresas` */
    method Create(body: Body, id: string, now: int, dbFails: bool) returns (res: Reply)
      modifies this
      ensures !Truthy(Field(body, "name")) ==> res == Failed(400, "El nombre es requerido")
      ensures Truthy(Field(body, "name")) && dbFails ==> res == Failed(500, "Error creando empresa")
      ensures res.Failed? ==> rows == old(rows)
      ensures Truthy(Field(body, "name")) && !dbFails ==>
        res == Created(201, NewCompany(body, id, now)) && rows == old(rows) + [res.row]
    {
      if !Truthy(Field(body, "name")) {
        return Failed(400, "El nombre es requerido");
      }
      if dbFails {
        return Failed(500, "Error creando empresa");
      }
      var row := NewCompany(body, id, now);
      rows := rows + [row];
      return Created(201, row);
    }

    /** `PATCH /admin/empresas/:id/toggle` */
    method Toggle(id: string, dbFails: bool) returns (res: Reply)
      modifies this
      ensures dbFails ==> res == Failed(500, "Error actualizando empresa") && rows == old(rows)
      ensures !dbFails ==> rows == Toggled(old(rows), id)
      ensures !dbFails ==> (res == Failed(404, "Empresa no encontrada") <==> forall c :: c in old(rows) ==> c.id != id)
      ensures res.Updated? ==>
        && FirstWithId(old(rows), id).Some?
        && res.row == Flip(FirstWithId(old(rows), id).value, id) && res.row in rows
    {
      if dbFails {
        return Failed(500, "Error actualizando empresa");
      }
      var first := FirstWithId(rows, id);
      rows := Toggled(rows, id);
      if first.None? {
        return Failed(404, "Empresa no encontrada");
      }
      ghost var k :| 0 <= k < |old(rows)| && old(rows)[k] == first.value;
      assert rows[k] == Flip(first.value, id);
      return Updated(Flip(first.value, id));
    }

    /** `DELETE /admin/empresas/:id`: answers ok whether or not the id exists. */
    method Delete(id: string, dbFails: bool) returns (res: Reply)
      modifies this
      ensures dbFails ==> res == Failed(500, "Error eliminando empresa") && rows == old(rows)
      ensures !dbFails ==> res == Deleted(true) && rows == Without(old(rows), id)
    {
      if dbFails {
        return Failed(500, "Error eliminando empresa");
      }
      rows := Without(rows, id);
      return Deleted(true);
    }
  }
}

=== FILE: companies_panel.dfy ===
/** The administrator's companies panel (src/modules/admin/AdminCompanies.jsx):
    it lists the companies, filters them by name or tax id, creates a
    company from a four-field form, switches a company on or off and
    deletes one. The panel's state is the class `CompaniesPanel`. */
module CompaniesPanel {
  import opened Js
  import opened Text
  import opened Lists
  import opened EvaluationForm

  /** A company as the companies endpoints return it. */
  datatype Row = Row(id: JsValue, name: Option<string>, taxId: Option<string>,
                     address: Option<string>, phone: Option<string>, isActive: JsValue)

  /** The creation form's inputs. */
  datatype Form = Form(name: string, taxId: string, address: string, phone: string)

  /** The input an edit comes from (its `name` attribute). */
  datatype FormField = NameField | TaxIdField | AddressField | PhoneField

  /** The body `create` posts; an absent optional field is `null` (None). */
  datatype CreateBody = CreateBody(name: string, taxId: Option<string>, address: Option<string>, phone: Option<string>)

  const EmptyForm := Form("", "", "", "")
  const LoadFailedMessage := "No se pudieron cargar las empresas."
  const CreateFailedMessage := "Error creando empresa."

  // ---------------------------------------------------------------- search

  function Lowered(x: Option<string>): string {
    ToLower(TextOrEmpty(x))
  }

  /** The name or the tax id contains the term. */
  predicate Matches(c: Row, term: string) {
    Includes(Lowered(c.name), term) || Includes(Lowered(c.taxId), term)
  }

  function MatchesTerm(term: string): Row -> bool {
    c => Matches(c, term)
  }

  /** `filtered`: every company for a blank search, otherwise those whose
      name or tax id contains the lower-cased, trimmed search, in order. */
  function Filtered(rows: seq<Row>, search: string): (r: seq<Row>)
    ensures |r| <= |rows|
    ensures ToLower(Trim(search)) == "" ==> r == rows
    ensures forall c :: c in r ==> c in rows
    ensures ToLower(Trim(search)) != "" ==> forall c :: c in rows ==> (c in r <==> Matches(c, ToLower(Trim(search))))
  {
    var term := ToLower(Trim(search));
    if term == "" then rows else Filter(rows, MatchesTerm(term))
  }

  /** A company whose name or tax id contains the search somewhere is listed. */
  lemma SearchFindsOccurrence(rows: seq<Row>, search: string, c: Row, i: int)
    requires c in rows
    requires OccursAt(Lowered(c.name), ToLower(Trim(search)), i) || OccursAt(Lowered(c.taxId), ToLower(Trim(search)), i)
    ensures c in Filtered(rows, search)
  {
    IncludesIff(Lowered(c.name), ToLower(Trim(search)));
    IncludesIff(Lowered(c.taxId), ToLower(Trim(search)));
  }

  /** The search keeps the list's order: consecutive stretches of companies
      give consecutive stretches of the result. */
  lemma SearchKeepsOrder(a: seq<Row>, b: seq<Row>, search: string)
    ensures Filtered(a + b, search) == Filtered(a, search) + Filtered(b, search)
  {
    var term := ToLower(Trim(search));
    if term != "" {
      FilterConcat(a, b, MatchesTerm(term));
    }
  }

  // -------------------------------------------------------------- creation

  /** `s.trim() || null` */
  function NullIfBlank(s: string): (r: Option<string>)
    ensures r.None? <==> Trim(s) == ""
    ensures r.Some? ==> r.value == Trim(s) && r.value != "" && IsTrimmed(r.value)
  {
    var t := Trim(s);
    if t == "" then None else Some(t)
  }

  /** The body `create` posts for a form. */
  function BodyOf(f: Form): (b: CreateBody)
    ensures b.name == Trim(f.name) && IsTrimmed(b.name)
    ensures b.taxId == NullIfBlank(f.taxId) && b.address == NullIfBlank(f.address) && b.phone == NullIfBlank(f.phone)
  {
    CreateBody(Trim(f.name), NullIfBlank(f.taxId), NullIfBlank(f.address), NullIfBlank(f.phone))
  }

  /** The name is required: a blank one stops the creation. */
  predicate NameMissing(f: Form) {
    Trim(f.name) == ""
  }

  /** What `create` posts for a form: nothing when the name is blank. */
  function Posted(f: Form): (b: Option<CreateBody>)
    ensures b.None? <==> NameMissing(f)
    ensures b.Some? ==> b.value.name != "" && IsTrimmed(b.value.name)
  {
    if NameMissing(f) then None else Some(BodyOf(f))
  }

  /** The form after editing one input: only that field changes. */
  function WithField(f: Form, field: FormField, value: string): (g: Form)
    ensures field == NameField ==> g == f.(name := value)
    ensures field == TaxIdField ==> g == f.(taxId := value)
    ensures field == AddressField ==> g == f.(address := value)
    ensures field == PhoneField ==> g == f.(phone := value)
  {
    match field
    case NameField => f.(name := value)
    case TaxIdField => f.(taxId := value)
    case AddressField => f.(address := value)
    case PhoneField => f.(phone := value)
  }

  /** Posting a form twice with surrounding spaces or without them sends the
      same body: the body depends only on the trimmed inputs. */
  lemma BodyIgnoresPadding(f: Form)
    ensures BodyOf(Form(Trim(f.name), Trim(f.taxId), Trim(f.address), Trim(f.phone))) == BodyOf(f)
  {
    TrimIdempotent(f.name);
    NullIfBlankOfTrim(f.taxId);
    NullIfBlankOfTrim(f.address);
    NullIfBlankOfTrim(f.phone);
  }

  lemma NullIfBlankOfTrim(s: string)
    ensures NullIfBlank(Trim(s)) == NullIfBlank(s)
  {
    TrimIdempotent(s);
  }

  // ------------------------------------------------------- toggle and delete

  /** `prev.map(x => x.id === id ? upd : x)` */
  function ReplaceById(rows: seq<Row>, id: JsValue, upd: Row): (r: seq<Row>)
    ensures |r| == |rows|
    ensures forall i :: 0 <= i < |rows| && StrictEquals(rows[i].id, id) ==> r[i] == upd
    ensures forall i :: 0 <= i < |rows| && !StrictEquals(rows[i].id, id) ==> r[i] == rows[i]
  {
    seq(|rows|, i requires 0 <= i < |rows| => if StrictEquals(rows[i].id, id) then upd else rows[i])
  }

  function HasOtherId(id: JsValue): Row -> bool {
    (x: Row) => !StrictEquals(x.id, id)
  }

  /** `prev.filter(x => x.id !== id)` */
  function WithoutId(rows: seq<Row>, id: JsValue): (r: seq<Row>)
    ensures |r| <= |rows|
    ensures forall c :: c in r ==> c in rows && !StrictEquals(c.id, id)
    ensures forall c :: c in rows && !StrictEquals(c.id, id) ==> c in r
  {
    Filter(rows, HasOtherId(id))
  }

  /** A toggle whose answer keeps the id changes only the rows with that id,
      and doing it again with the same answer changes nothing more. */
  lemma ReplaceProperties(rows: seq<Row>, id: JsValue, upd: Row)
    requires StrictEquals(upd.id, id)
    ensures ReplaceById(ReplaceById(rows, id, upd), id, upd) == ReplaceById(rows, id, upd)
    ensures (forall c :: c in rows ==> !StrictEquals(c.id, id)) ==> ReplaceById(rows, id, upd) == rows
  {
  }

  /** Deleting removes every row with the id and keeps the others in order;
      deleting an id no row has changes nothing. */
  lemma DeleteProperties(a: seq<Row>, b: seq<Row>, id: JsValue)
    ensures WithoutId(a + b, id) == WithoutId(a, id) + WithoutId(b, id)
    ensures (forall i :: 0 <= i < |a| ==> !StrictEquals(a[i].id, id)) ==> WithoutId(a, id) == a
  {
    FilterConcat(a, b, HasOtherId(id));
    if forall i :: 0 <= i < |a| ==> !StrictEquals(a[i].id, id) {
      FilterKeepsAll(a, HasOtherId(id));
    }
  }

  // ----------------------------------------------------------- panel state

  /** The panel's state. */
  class CompaniesPanel {
    var rows: seq<Row>
    var loading: bool
    var err: string
    var form: Form
    var search: string

    constructor()
      ensures rows == [] && loading && err == "" && form == EmptyForm && search == ""
    {
      rows := [];
      loading := true;
      err := "";
      form := EmptyForm;
      search := "";
    }

    /** The companies shown. */
    function Shown(): (r: seq<Row>)
      reads this
      ensures forall c :: c in r ==> c in rows
      ensures |r| <= |rows|
    {
      Filtered(rows, search)
    }

    /** The mount effect. `response` is the body, None when the request
        fails; a body that is not an array gives no rows. */
    method Load(response: Option<Payload<Row>>)
      modifies this
      ensures !loading
      ensures response.None? ==> err == LoadFailedMessage && rows == old(rows)
      ensures response.Some? ==> err == "" && rows == ItemsOf(response.value)
      ensures form == old(form) && search == old(search)
    {
      loading := true;
      err := "";
      if response.None? {
        err := LoadFailedMessage;
      } else {
        rows := ItemsOf(response.value);
      }
      loading := false;
    }

    /** `onChange` of an input. */
    method Edit(field: FormField, value: string)
      modifies this
      ensures form == WithField(old(form), field, value)
      ensures rows == old(rows) && loading == old(loading) && err == old(err) && search == old(search)
    {
      form := WithField(form, field, value);
    }

    /** Typing in the search box. */
    method SetSearch(text: string)
      modifies this
      ensures search == text
      ensures rows == old(rows) && loading == old(loading) && err == old(err) && form == old(form)
    {
      search := text;
    }

    /** `create`. A blank name posts nothing and changes nothing. Otherwise
        the body is posted; `created` is the new row, None when the request
        fails. A created row goes first and the form empties. */
    method Create(created: Option<Row>) returns (sent: Option<CreateBody>)
      modifies this
      ensures sent == Posted(old(form))
      ensures sent.None? ==> rows == old(rows) && err == old(err) && form == old(form)
      ensures sent.Some? && created.None? ==> err == CreateFailedMessage && rows == old(rows) && form == old(form)
      ensures sent.Some? && created.Some? ==> err == "" && rows == [created.value] + old(rows) && form == EmptyForm
      ensures loading == old(loading) && search == old(search)
    {
      sent := Posted(form);
      Settle(sent.Some?, created);
    }

    /** The panel after the creation request: unchanged when nothing was
        posted, the failure message when the request failed, otherwise the
        new row first and an empty form. */
    method Settle(posted: bool, created: Option<Row>)
      modifies this
      ensures !posted ==> rows == old(rows) && err == old(err) && form == old(form)
      ensures posted && created.None? ==> err == CreateFailedMessage && rows == old(rows) && form == old(form)
      ensures posted && created.Some? ==> err == "" && rows == [created.value] + old(rows) && form == EmptyForm
      ensures loading == old(loading) && search == old(search)
    {
      if !posted {
        return;
      }
      if created.None? {
        err := CreateFailedMessage;
      } else {
        err, rows, form := "", [created.value] + rows, EmptyForm;
      }
    }

    /** `toggle(id)`. `updated` is the server's row, None when the request
        fails, which changes nothing. */
    method Toggle(id: JsValue, updated: Option<Row>)
      modifies this
      ensures updated.Some? ==> rows == ReplaceById(old(rows), id, updated.value)
      ensures updated.None? ==> rows == old(rows)
      ensures loading == old(loading) && err == old(err) && form == old(form) && search == old(search)
    {
      if updated.Some? {
        rows := ReplaceById(rows, id, updated.value);
      }
    }

    /** `removeOne(id)`. `confirmed` is the user's answer to the dialog and
        `deleted` whether the request succeeded; only both remove the rows. */
    method Remove(id: JsValue, confirmed: bool, deleted: bool)
      modifies this
      ensures confirmed && deleted ==> rows == WithoutId(old(rows), id)
      ensures !(confirmed && deleted) ==> rows == old(rows)
      ensures loading == old(loading) && err == old(err) && form == old(form) && search == old(search)
    {
      if !confirmed {
        return;
      }
      if deleted {
        rows := WithoutId(rows, id);
      }
    }
  }
}

=== FILE: evaluation_form.dfy ===
/** The evaluation form of the regulations module
    (src/modules/laws/EvaluacionFormulario.jsx): it loads the companies and
    the control catalog of the chosen regulation, keeps one answer, one
    comment and one evidence entry per control, and derives the values the
    result card shows. The component's state is the class `FormState`; each
    asynchronous effect is one method that takes the server's answer as a
    parameter. */
module EvaluationForm {
  import opened Js
  import opened Text
  import opened Lists
  import Scoring

  /** A parsed JSON body: an array, or anything else. */
  datatype Payload<T> = NotArray | Array(items: seq<T>)

  /** The items of a body read as `Array.isArray(data) ? data : []`. */
  function ItemsOf<T>(p: Payload<T>): seq<T> {
    match p
    case NotArray => []
    case Array(items) => items
  }

  /* ---------------------------------------------------------------- companies */

  /** A company as one of the two companies endpoints returns it; a missing
      property is `Undefined`. */
  datatype RawCompany = RawCompany(id: JsValue, uuid: JsValue, companyId: JsValue,
                                   name: JsValue, nombre: JsValue, razonSocial: JsValue)

  /** A company in the selector. */
  datatype Company = Company(id: JsValue, name: JsValue)

  /** `{ id: x.id || x.uuid || x.company_id || "", name: x.name ?? x.nombre ?? x.razon_social ?? "" }` */
  function NormalizeOne(x: RawCompany): Company {
    Company(Or(Or(Or(x.id, x.uuid), x.companyId), Str("")),
            Coalesce(Coalesce(Coalesce(x.name, x.nombre), x.razonSocial), Str("")))
  }

  /** `.filter(x => x.id && x.name)` */
  predicate Selectable(c: Company) {
    Truthy(c.id) && Truthy(c.name)
  }

  /** `normalizeCompanies(raw)`: anything but an array gives no company;
      an array gives, in order, the normalised entries that have both an
      identifier and a name. */
  function NormalizeCompanies(raw: Payload<RawCompany>): (r: seq<Company>)
    ensures raw.NotArray? ==> r == []
    ensures |r| <= |ItemsOf(raw)|
    ensures forall i :: 0 <= i < |r| ==> Selectable(r[i])
    ensures forall x :: x in ItemsOf(raw) && Selectable(NormalizeOne(x)) ==> NormalizeOne(x) in r
  {
    var r := FilterMap(ItemsOf(raw), x => Selectable(NormalizeOne(x)), NormalizeOne);
    FilterMapImages(ItemsOf(raw), x => Selectable(NormalizeOne(x)), NormalizeOne);
    assert forall i :: 0 <= i < |r| ==> r[i] in r;
    r
  }

  /** The normalisation keeps the order of the companies: it maps pieces of
      the array to pieces of the result, and one entry to itself normalised
      exactly when it is selectable. */
  lemma NormalizeConcat(a: seq<RawCompany>, b: seq<RawCompany>)
    ensures NormalizeCompanies(Array(a + b)) == NormalizeCompanies(Array(a)) + NormalizeCompanies(Array(b))
    ensures |a| == 1 ==> NormalizeCompanies(Array(a)) == if Selectable(NormalizeOne(a[0])) then [NormalizeOne(a[0])] else []
  {
    FilterMapConcat(a, b, x => Selectable(NormalizeOne(x)), NormalizeOne);
    if |a| == 1 {
      assert a == [a[0]];
      FilterMapSingle(a[0], x => Selectable(NormalizeOne(x)), NormalizeOne);
    }
  }

  /** The identifier is the first truthy of `id`, `uuid` and `company_id`;
      the name is the first of `name`, `nombre` and `razon_social` that is
      not null or undefined, so an empty `name` hides a `nombre` and the
      company is dropped. */
  lemma NormalizeFallbacks(x: RawCompany)
    ensures !Truthy(x.id) && Truthy(x.uuid) ==> NormalizeOne(x).id == x.uuid
    ensures !Truthy(x.id) && !Truthy(x.uuid) && Truthy(x.companyId) ==> NormalizeOne(x).id == x.companyId
    ensures Nullish(x.name) && !Nullish(x.nombre) ==> NormalizeOne(x).name == x.nombre
    ensures x.name == Str("") ==> NormalizeCompanies(Array([x])) == []
  {
    NormalizeConcat([x], []);
  }

  /** The index of the first company with `c.id === id`, or -1. */
  function FindCompany(cs: seq<Company>, id: JsValue): (k: int)
    ensures -1 <= k < |cs|
    ensures k >= 0 ==> StrictEquals(cs[k].id, id) && forall j :: 0 <= j < k ==> !StrictEquals(cs[j].id, id)
    ensures k == -1 <==> forall j :: 0 <= j < |cs| ==> !StrictEquals(cs[j].id, id)
  {
    if cs == [] then -1
    else if StrictEquals(cs[0].id, id) then 0
    else
      var k := FindCompany(cs[1..], id);
      if k == -1 then -1 else k + 1
  }

  /** `selectedCompanyName`: `companies.find(c => c.id === companyId)?.name || ""`. */
  function SelectedCompanyName(cs: seq<Company>, companyId: JsValue): (r: JsValue)
    ensures Truthy(r) || r == Str("")
    ensures FindCompany(cs, companyId) == -1 ==> r == Str("")
    ensures var k := FindCompany(cs, companyId);
      k >= 0 && Truthy(cs[k].name) ==> r == cs[k].name
  {
    var k := FindCompany(cs, companyId);
    if k == -1 then Str("") else Or(cs[k].name, Str(""))
  }

  /** After a successful load the first company is selected, and its name is
      the one the form submits. */
  lemma FirstCompanySelected(raw: Payload<RawCompany>)
    requires NormalizeCompanies(raw) != []
    ensures var cs := NormalizeCompanies(raw);
      cs[0].id != Composite ==> SelectedCompanyName(cs, cs[0].id) == cs[0].name
  {
    var cs := NormalizeCompanies(raw);
    if cs[0].id != Composite {
      assert StrictEquals(cs[0].id, cs[0].id);
      assert FindCompany(cs, cs[0].id) == 0;
    }
  }

  /* ----------------------------------------------------------------- controls */

  /** A control of the catalog as the form reads it; `clave` is None when the
      column is NULL. */
  datatype Control = Control(clave: Option<string>, pregunta: JsValue)

  /** The property name `obj[c.clave]` uses: a NULL clave becomes `"null"`. */
  function Key(c: Control): string {
    match c.clave
    case None => "null"
    case Some(s) => s
  }

  function Keys(cs: seq<Control>): set<string> {
    set c | c in cs :: Key(c)
  }

  /** An entry of `evidencias`; a property absent from the object is None. */
  datatype Evidence = Evidence(filesToSend: Option<seq<string>>, uploaded: Option<seq<string>>,
                               uploading: Option<bool>, err: Option<string>)

  /** `{ filesToSend: [], uploaded: [], uploading: false, err: '' }` */
  const FreshEvidence := Evidence(Some([]), Some([]), Some(false), Some(""))

  /** `prev[clave] || {}` */
  function EntryOf(m: map<string, Evidence>, clave: string): Evidence {
    if clave in m then m[clave] else Evidence(None, None, None, None)
  }

  const NoFilesMessage := "Selecciona archivo(s) primero."
  const UploadFailedMessage := "Error subiendo evidencias."
  const CompaniesFailedMessage := "No se pudieron cargar las empresas."

  /** `onPickFiles(clave, files)`: the chosen files replace the pending ones
      and the entry's error is cleared; the rest of the entry and every
      other entry are kept. */
  function PickFiles(m: map<string, Evidence>, clave: string, files: seq<string>): (r: map<string, Evidence>)
    ensures clave in r && r[clave].filesToSend == Some(files) && r[clave].err == Some("")
    ensures r[clave].uploaded == EntryOf(m, clave).uploaded && r[clave].uploading == EntryOf(m, clave).uploading
    ensures forall k :: k != clave ==> (k in r <==> k in m) && (k in m ==> r[k] == m[k])
  {
    m[clave := EntryOf(m, clave).(filesToSend := Some(files), err := Some(""))]
  }

  /** `evidencias[clave] || { filesToSend: [] }`, read before the upload starts. */
  function Pending(m: map<string, Evidence>, clave: string): Evidence {
    if clave in m then m[clave] else Evidence(Some([]), None, None, None)
  }

  /** `uploadEvidence(clave)`: the new entries and whether a request was
      sent. `server` is the upload's outcome: None when it fails, otherwise
      `data.files` (None when absent). With no pending files nothing is sent;
      an entry without a `filesToSend` property makes the length test throw,
      which ends in the upload error. Every path ends with `uploading` false,
      and a path that sends nothing leaves an error. */
  function AfterUpload(m: map<string, Evidence>, clave: string, server: Option<Option<seq<string>>>): (r: (map<string, Evidence>, bool))
    ensures r.1 <==> Pending(m, clave).filesToSend.Some? && Pending(m, clave).filesToSend.value != []
    ensures forall k :: k != clave ==> (k in r.0 <==> k in m) && (k in m ==> r.0[k] == m[k])
    ensures clave in r.0 && r.0[clave].uploading == Some(false)
    ensures !r.1 ==> r.0[clave].err != Some("")
    ensures Pending(m, clave).filesToSend == Some([]) ==>
      r.0[clave] == EntryOf(m, clave).(uploading := Some(false), err := Some(NoFilesMessage))
    ensures Pending(m, clave).filesToSend.None? || (r.1 && server.None?) ==>
      r.0[clave] == EntryOf(m, clave).(uploading := Some(false), err := Some(UploadFailedMessage))
    ensures r.1 && server.Some? ==>
      r.0[clave] == Evidence(Some([]), Some(if server.value.Some? then server.value.value else []), Some(false), Some(""))
  {
    var item := Pending(m, clave);
    var stopped := EntryOf(m, clave).(uploading := Some(false));
    if item.filesToSend.None? then (m[clave := stopped.(err := Some(UploadFailedMessage))], false)
    else if item.filesToSend.value == [] then (m[clave := stopped.(err := Some(NoFilesMessage))], false)
    else if server.None? then (m[clave := stopped.(err := Some(UploadFailedMessage))], true)
    else
      var uploaded := if server.value.Some? then server.value.value else [];
      (m[clave := Evidence(Some([]), Some(uploaded), Some(false), Some(""))], true)
  }

  /** Every key of `cs` mapped to the empty string. */
  function Blank(cs: seq<Control>): map<string, string> {
    map k | k in Keys(cs) :: ""
  }

  function FreshEvidences(cs: seq<Control>): map<string, Evidence> {
    map k | k in Keys(cs) :: FreshEvidence
  }

  lemma KeysStep(cs: seq<Control>, i: nat)
    requires i < |cs|
    ensures Keys(cs[..i + 1]) == Keys(cs[..i]) + {Key(cs[i])}
  {
    assert cs[..i + 1] == cs[..i] + [cs[i]];
  }

  /** Every control has a blank answer after loading, and every blank answer
      belongs to a control. */
  lemma BlankCoversControls(cs: seq<Control>)
    ensures forall c :: c in cs ==> Key(c) in Blank(cs) && Blank(cs)[Key(c)] == ""
    ensures forall k :: k in Blank(cs) ==> exists c :: c in cs && Key(c) == k
  {
  }

  /** The `forEach` that fills the three initial objects, one key per control. */
  method InitialEntries(arr: seq<Control>) returns (inicialResp: map<string, string>, inicialCom: map<string, string>, ev: map<string, Evidence>)
    ensures inicialResp == Blank(arr) && inicialCom == Blank(arr) && ev == FreshEvidences(arr)
  {
    inicialResp, inicialCom, ev := map[], map[], map[];
    for i := 0 to |arr|
      invariant inicialResp == Blank(arr[..i]) && inicialCom == Blank(arr[..i])
      invariant ev == FreshEvidences(arr[..i])
    {
      KeysStep(arr, i);
      inicialResp := inicialResp[Key(arr[i]) := ""];
      inicialCom := inicialCom[Key(arr[i]) := ""];
      ev := ev[Key(arr[i]) := FreshEvidence];
    }
    assert arr[..|arr|] == arr;
  }

  /** The answers as the JSON body carries them. */
  function AsJson(m: map<string, string>): map<string, JsValue> {
    map k | k in m :: Str(m[k])
  }

  /** Submitting blank answers, as a freshly loaded form holds
      (`Blank`), scores nothing: the scoring engine finds every control
      unanswered and no satisfied weight. */
  lemma {:induction false} BlankFormScoresNothing(cs: seq<Scoring.Control>, respuestas: map<string, string>)
    requires forall k :: k in respuestas ==> respuestas[k] == ""
    ensures Scoring.Unsatisfied(cs, AsJson(respuestas)) == cs
    ensures Scoring.SatisfiedWeight(cs, AsJson(respuestas)) == 0
    decreases |cs|
  {
    if cs != [] {
      var m := AsJson(respuestas);
      BlankFormScoresNothing(Scoring.Init(cs), respuestas);
      var c := Scoring.Last(cs);
      assert Scoring.Answer(m, c.clave) == Undefined || Scoring.Answer(m, c.clave) == Str("");
      assert cs == Scoring.Init(cs) + [c];
    }
  }

  /** The submitted request. */
  datatype Submission = Submission(empresa: JsValue, companyId: JsValue, normativa: JsValue,
                                   respuestas: map<string, string>, comentarios: map<string, string>)

  /** The state of the form component. */
  class FormState {
    var companies: seq<Company>
    var companyId: JsValue
    var compErr: string
    var controles: seq<Control>
    var respuestas: map<string, string>
    var comentarios: map<string, string>
    var evidencias: map<string, Evidence>
    var resultado: Option<JsValue>

    constructor()
      ensures companies == [] && companyId == Str("") && compErr == ""
      ensures controles == [] && respuestas == map[] && comentarios == map[]
      ensures evidencias == map[] && resultado.None?
    {
      companies := [];
      companyId := Str("");
      compErr := "";
      controles := [];
      respuestas := map[];
      comentarios := map[];
      evidencias := map[];
      resultado := None;
    }

    /** The companies effect, run once when the form mounts. `response` is
        None when both endpoints fail. The `!companyId` test reads the value
        captured at mount, which is the initial `""`, so a non-empty list
        always selects its first company. */
    method LoadCompanies(response: Option<Payload<RawCompany>>)
      modifies this
      ensures response.None? ==> companies == [] && compErr == CompaniesFailedMessage && companyId == old(companyId)
      ensures response.Some? ==> companies == NormalizeCompanies(response.value) && compErr == ""
      ensures response.Some? && companies != [] ==> companyId == companies[0].id
      ensures response.Some? && companies == [] ==> companyId == old(companyId)
      ensures controles == old(controles) && respuestas == old(respuestas) && comentarios == old(comentarios)
      ensures evidencias == old(evidencias) && resultado == old(resultado)
    {
      compErr := "";
      if response.None? {
        companies := [];
        compErr := CompaniesFailedMessage;
        return;
      }
      var arr := NormalizeCompanies(response.value);
      companies := arr;
      var mountCompanyId := Str("");
      if |arr| > 0 && !Truthy(mountCompanyId) {
        companyId := arr[0].id;
      }
    }

    /** The catalog effect for the regulation `normativa`. `response` is None
        when the request or its body fails. */
    method LoadControls(normativa: JsValue, response: Option<Payload<Control>>)
      modifies this
      ensures !Truthy(normativa) ==> unchanged(this)
      ensures Truthy(normativa) && response.None? ==>
        && controles == [] && respuestas == map[] && comentarios == map[]
        && evidencias == map[] && resultado.None?
      ensures Truthy(normativa) && response.Some? ==>
        var arr := ItemsOf(response.value);
        && controles == arr && respuestas == Blank(arr) && comentarios == Blank(arr)
        && evidencias == FreshEvidences(arr) && resultado.None?
      ensures companies == old(companies) && companyId == old(companyId) && compErr == old(compErr)
    {
      if !Truthy(normativa) {
        return;
      }
      controles := [];
      respuestas := map[];
      comentarios := map[];
      resultado := None;
      evidencias := map[];
      if response.None? {
        return;
      }
      var arr := ItemsOf(response.value);
      controles := arr;
      respuestas, comentarios, evidencias := InitialEntries(arr);
    }

    /** `handleRespuesta`: only the answer of `clave` changes. */
    method HandleRespuesta(clave: string, valor: string)
      modifies this
      ensures clave in respuestas && respuestas[clave] == valor
      ensures forall k :: k != clave ==> (k in respuestas <==> k in old(respuestas))
      ensures forall k :: k != clave && k in respuestas ==> respuestas[k] == old(respuestas)[k]
      ensures companies == old(companies) && companyId == old(companyId) && compErr == old(compErr)
      ensures controles == old(controles) && comentarios == old(comentarios)
      ensures evidencias == old(evidencias) && resultado == old(resultado)
    {
      respuestas := respuestas[clave := valor];
    }

    /** `handleComentario`: only the comment of `clave` changes. */
    method HandleComentario(clave: string, valor: string)
      modifies this
      ensures clave in comentarios && comentarios[clave] == valor
      ensures forall k :: k != clave ==> (k in comentarios <==> k in old(comentarios))
      ensures forall k :: k != clave && k in comentarios ==> comentarios[k] == old(comentarios)[k]
      ensures companies == old(companies) && companyId == old(companyId) && compErr == old(compErr)
      ensures controles == old(controles) && respuestas == old(respuestas)
      ensures evidencias == old(evidencias) && resultado == old(resultado)
    {
      comentarios := comentarios[clave := valor];
    }

    /** `onPickFiles` */
    method OnPickFiles(clave: string, files: seq<string>)
      modifies this
      ensures evidencias == PickFiles(old(evidencias), clave, files)
      ensures companies == old(companies) && companyId == old(companyId) && compErr == old(compErr)
      ensures controles == old(controles) && respuestas == old(respuestas) && comentarios == old(comentarios)
      ensures resultado == old(resultado)
    {
      evidencias := PickFiles(evidencias, clave, files);
    }

    /** `uploadEvidence(clave)`; `sent` says whether a request went out. */
    method UploadEvidence(clave: string, server: Option<Option<seq<string>>>) returns (sent: bool)
      modifies this
      ensures (evidencias, sent) == AfterUpload(old(evidencias), clave, server)
      ensures companies == old(companies) && companyId == old(companyId) && compErr == old(compErr)
      ensures controles == old(controles) && respuestas == old(respuestas) && comentarios == old(comentarios)
      ensures resultado == old(resultado)
    {
      var outcome := AfterUpload(evidencias, clave, server);
      evidencias := outcome.0;
      sent := outcome.1;
    }

    /** The body `handleSubmit` posts: the selected company's name (or `""`),
        the company id or null, the regulation and the answers and comments. */
    function Payload(normativa: JsValue): (p: Submission)
      reads this
      ensures p.empresa == Str("") || Truthy(p.empresa)
      ensures p.companyId == Null <==> !Truthy(companyId)
      ensures Truthy(companyId) ==> p.companyId == companyId
      ensures p.normativa == normativa && p.respuestas == respuestas && p.comentarios == comentarios
    {
      Submission(Or(SelectedCompanyName(companies, companyId), Str("")), Or(companyId, Null),
                 normativa, respuestas, comentarios)
    }

    /** `handleSubmit`: the server's answer, when there is one, becomes the result. */
    method Submit(normativa: JsValue, reply: Option<JsValue>) returns (p: Submission)
      modifies this
      ensures p == old(Payload(normativa))
      ensures reply.Some? ==> resultado == reply
      ensures reply.None? ==> resultado == old(resultado)
      ensures companies == old(companies) && companyId == old(companyId) && compErr == old(compErr)
      ensures controles == old(controles) && respuestas == old(respuestas) && comentarios == old(comentarios)
      ensures evidencias == old(evidencias)
    {
      p := Payload(normativa);
      if reply.Some? {
        resultado := reply;
      }
    }
  }

  /** Right after loading, the answer of every control is blank, so the
      evidence block of every control is hidden. */
  lemma LoadedFormHidesEvidence(cs: seq<Control>, c: Control)
    requires c in cs
    ensures Key(c) in Blank(cs) && !ShowEvidenceBlock(Blank(cs)[Key(c)])
  {
  }

  /* ---------------------------------------------------------- derived values */

  const Green := "#2e7d32"
  const Yellow := "#f9a825"
  const Orange := "#ef6c00"
  const Red := "#c62828"

  /** `colorNivel(pct)`: thresholds 80, 60 and 40, each inclusive; a value
      that is not a number fails every comparison. */
  function ColorNivel(pct: JsValue): (color: string)
    ensures color == Green <==> AtLeast(pct, 80.0)
    ensures color == Yellow <==> AtLeast(pct, 60.0) && !AtLeast(pct, 80.0)
    ensures color == Orange <==> AtLeast(pct, 40.0) && !AtLeast(pct, 60.0)
    ensures color == Red <==> !AtLeast(pct, 40.0)
  {
    if AtLeast(pct, 80.0) then Green
    else if AtLeast(pct, 60.0) then Yellow
    else if AtLeast(pct, 40.0) then Orange
    else Red
  }

  /** The colours from the lowest band to the highest. */
  function ColorRank(color: string): nat {
    if color == Green then 3 else if color == Yellow then 2 else if color == Orange then 1 else 0
  }

  /** A higher percentage never shows a lower band. */
  lemma ColorMonotone(p: real, q: real)
    requires p <= q
    ensures ColorRank(ColorNivel(Num(p))) <= ColorRank(ColorNivel(Num(q)))
  {
  }

  /** `showEvidenceBlock(valor)` */
  predicate ShowEvidenceBlock(valor: string) {
    valor == "true" || valor == "partial"
  }

  /** The evidence block is offered only for answers that the scoring engine
      counts as satisfied; the answer `"false"` is counted but gets no block. */
  lemma EvidenceOnlyForSatisfied(valor: string)
    ensures ShowEvidenceBlock(valor) ==> Truthy(Str(valor))
    ensures Truthy(Str("false")) && !ShowEvidenceBlock("false")
  {
  }

  /** The characters `[\w\-]`. */
  predicate IsWordChar(c: char) {
    ('A' <= c <= 'Z') || ('a' <= c <= 'z') || IsDigit(c) || c == '_' || c == '-'
  }

  predicate AllWordChars(s: string) {
    forall i :: 0 <= i < |s| ==> IsWordChar(s[i])
  }

  /** `s` without its leading characters outside `[\w\-]`. */
  function SkipOthers(s: string): (r: string)
    ensures |r| <= |s| && r == s[|s| - |r|..]
    ensures r == [] || IsWordChar(r[0])
    ensures forall i :: 0 <= i < |s| - |r| ==> !IsWordChar(s[i])
  {
    if s != [] && !IsWordChar(s[0]) then
      var r := SkipOthers(s[1..]);
      assert forall i :: 1 <= i < |s| - |r| ==> s[i] == s[1..][i - 1];
      r
    else s
  }

  /** `safe(s)`: `s.replace(/[^\w\-]+/g, '_')`. */
  function Safe(s: string): (r: string)
    ensures |r| <= |s|
    ensures AllWordChars(r)
    decreases |s|
  {
    if s == [] then []
    else if IsWordChar(s[0]) then [s[0]] + Safe(s[1..])
    else "_" + Safe(SkipOthers(s[1..]))
  }

  /** A string of allowed characters is left as it is. */
  lemma {:induction false} SafeKeepsWordChars(s: string)
    requires AllWordChars(s)
    ensures Safe(s) == s
  {
    if s != [] {
      SafeKeepsWordChars(s[1..]);
    }
  }

  /** Sanitising twice is sanitising once. */
  lemma SafeIdempotent(s: string)
    ensures Safe(Safe(s)) == Safe(s)
  {
    SafeKeepsWordChars(Safe(s));
  }

  /** A leading run of allowed characters is copied. */
  lemma {:induction false} SafeCopiesWord(w: string, s: string)
    requires AllWordChars(w)
    ensures Safe(w + s) == w + Safe(s)
  {
    if w == [] {
      assert w + s == s;
    } else {
      assert (w + s)[0] == w[0] && (w + s)[1..] == w[1..] + s;
      SafeCopiesWord(w[1..], s);
    }
  }

  /** A maximal run of other characters becomes one `_`. */
  lemma SafeCollapsesRun(u: string, s: string)
    requires u != [] && forall i :: 0 <= i < |u| ==> !IsWordChar(u[i])
    requires s == [] || IsWordChar(s[0])
    ensures Safe(u + s) == "_" + Safe(s)
  {
    SkipRun(u[1..], s);
    assert (u + s)[1..] == u[1..] + s;
  }

  lemma {:induction false} SkipRun(u: string, s: string)
    requires forall i :: 0 <= i < |u| ==> !IsWordChar(u[i])
    requires s == [] || IsWordChar(s[0])
    ensures SkipOthers(u + s) == s
  {
    if u != [] {
      assert (u + s)[1..] == u[1..] + s;
      SkipRun(u[1..], s);
    }
  }

  /** One line of the result card's comment list. */
  datatype CommentLine = CommentLine(clave: Option<string>, pregunta: JsValue, comentario: string)

  /** `(m[clave] || '')` for an object of strings. */
  function TextAt(m: map<string, string>, clave: string): string {
    if clave in m then m[clave] else ""
  }

  function LineOf(c: Control, comentarios: map<string, string>): CommentLine {
    CommentLine(c.clave, c.pregunta, Trim(TextAt(comentarios, Key(c))))
  }

  /** `(comentarios[c.clave] || '').trim().length > 0` */
  predicate HasComment(c: Control, comentarios: map<string, string>) {
    Trim(TextAt(comentarios, Key(c))) != ""
  }

  function Commented(comentarios: map<string, string>): Control -> bool {
    c => HasComment(c, comentarios)
  }

  function Lines(comentarios: map<string, string>): Control -> CommentLine {
    c => LineOf(c, comentarios)
  }

  /** `comentariosNoVacios`: the controls with a comment that is not blank,
      in catalog order, each with its comment trimmed. */
  function ComentariosNoVacios(controles: seq<Control>, comentarios: map<string, string>): (r: seq<CommentLine>)
    ensures |r| <= |controles|
    ensures forall i :: 0 <= i < |r| ==> r[i].comentario != "" && IsTrimmed(r[i].comentario)
    ensures forall c :: c in controles && HasComment(c, comentarios) ==> LineOf(c, comentarios) in r
  {
    var r := FilterMap(controles, Commented(comentarios), Lines(comentarios));
    LinesAreComments(controles, comentarios, r);
    r
  }

  lemma LinesAreComments(controles: seq<Control>, comentarios: map<string, string>, r: seq<CommentLine>)
    requires r == FilterMap(controles, Commented(comentarios), Lines(comentarios))
    ensures forall i :: 0 <= i < |r| ==> r[i].comentario != "" && IsTrimmed(r[i].comentario)
  {
    FilterMapImages(controles, Commented(comentarios), Lines(comentarios));
    forall i | 0 <= i < |r|
      ensures r[i].comentario != "" && IsTrimmed(r[i].comentario)
    {
      assert r[i] in r;
      var c :| c in controles && Commented(comentarios)(c) && Lines(comentarios)(c) == r[i];
      assert r[i].comentario == Trim(TextAt(comentarios, Key(c)));
    }
  }

  /** The list follows the catalog: it maps pieces of the catalog to pieces
      of the list. */
  lemma ComentariosConcat(a: seq<Control>, b: seq<Control>, comentarios: map<string, string>)
    ensures ComentariosNoVacios(a + b, comentarios) == ComentariosNoVacios(a, comentarios) + ComentariosNoVacios(b, comentarios)
  {
    FilterMapConcat(a, b, Commented(comentarios), Lines(comentarios));
  }

  /** A single control gives its line exactly when its comment is not blank. */
  lemma ComentariosSingle(c: Control, comentarios: map<string, string>)
    ensures ComentariosNoVacios([c], comentarios) == if HasComment(c, comentarios) then [LineOf(c, comentarios)] else []
  {
    FilterMapSingle(c, Commented(comentarios), Lines(comentarios));
  }
}

=== FILE: evaluation_queries.dfy ===
/** The schema-tolerant evaluation listing: each output column is built from
    the candidate column names that exist in the live schema, so the queries
    keep working whichever of the historical column names a deployment has. */
module EvaluationQueries {
  import opened Js
  import opened Text
  import opened Sorting

  /** What `buildExpr` returns: `base` for `ORDER BY`, `select` for the select list. */
  datatype ColumnExpr = ColumnExpr(base: string, select: string)

  /** The candidates that exist in the schema, in priority order. */
  function Kept(cols: set<string>, candidates: seq<string>): (k: seq<string>)
    ensures |k| <= |candidates|
    ensures forall c :: c in k <==> c in candidates && c in cols
    ensures k == [] <==> forall c :: c in candidates ==> c !in cols
  {
    if candidates == [] then []
    else
      var rest := Kept(cols, candidates[1..]);
      assert forall c :: c in candidates <==> c == candidates[0] || c in candidates[1..];
      if candidates[0] in cols then [candidates[0]] + rest else rest
  }

  /** The kept candidates follow the candidate list: a list of candidates
      keeps, in order, what each of its parts keeps. */
  lemma {:induction false} KeptConcat(cols: set<string>, a: seq<string>, b: seq<string>)
    ensures Kept(cols, a + b) == Kept(cols, a) + Kept(cols, b)
  {
    if a == [] {
      assert a + b == b;
    } else {
      assert (a + b)[0] == a[0] && (a + b)[1..] == a[1..] + b;
      KeptConcat(cols, a[1..], b);
    }
  }

  /** One candidate is kept exactly when the schema has it. */
  lemma KeptSingle(cols: set<string>, c: string)
    ensures Kept(cols, [c]) == if c in cols then [c] else []
  {
    assert [c][1..] == [];
  }

  /** `alias."col"` */
  function Ref(alias: string, c: string): string {
    alias + ".\"" + c + "\""
  }

  /** The quoted references to the kept candidates. */
  function Refs(alias: string, kept: seq<string>): (refs: seq<string>)
    ensures |refs| == |kept| && forall i :: 0 <= i < |kept| ==> refs[i] == Ref(alias, kept[i])
  {
    if kept == [] then [] else [Ref(alias, kept[0])] + Refs(alias, kept[1..])
  }

  /** `buildExpr(colsSet, alias, candidates, outAlias, cast)`; a cast is applied
      only when it is a non-empty string, as `if (cast)` does. */
  function BuildExpr(cols: set<string>, alias: string, candidates: seq<string>, outAlias: string, cast: Option<string>): (e: ColumnExpr)
    ensures StartsWith(e.select, e.base) && e.select[|e.base|..] == " AS " + outAlias
  {
    var base := CastTo(Plain(Refs(alias, Kept(cols, candidates))), cast);
    assert (base + " AS " + outAlias)[..|base|] == base;
    ColumnExpr(base, base + " AS " + outAlias)
  }

  /** `NULL`, the one reference, or `COALESCE` of all of them. */
  function Plain(present: seq<string>): string {
    if |present| == 0 then "NULL"
    else if |present| == 1 then present[0]
    else "COALESCE(" + Join(present, ", ") + ")"
  }

  /** `(base)::cast` when the cast is a non-empty string. */
  function CastTo(base: string, cast: Option<string>): string {
    if cast.Some? && cast.value != "" then "(" + base + ")::" + cast.value else base
  }

  /** Two or more existing candidates are combined with `COALESCE`, in priority order. */
  lemma ManyCandidatesCoalesce(cols: set<string>, alias: string, candidates: seq<string>, outAlias: string)
    requires |Kept(cols, candidates)| >= 2
    ensures BuildExpr(cols, alias, candidates, outAlias, None).base
      == "COALESCE(" + Join(Refs(alias, Kept(cols, candidates)), ", ") + ")"
  {
  }

  /** A cast wraps the uncast expression in parentheses; without one the expression is unchanged. */
  lemma CastWraps(cols: set<string>, alias: string, candidates: seq<string>, outAlias: string, cast: string)
    ensures BuildExpr(cols, alias, candidates, outAlias, Some(cast)).base
      == if cast == "" then BuildExpr(cols, alias, candidates, outAlias, None).base
         else "(" + BuildExpr(cols, alias, candidates, outAlias, None).base + ")::" + cast
  {
  }

  /** When the top-priority candidate exists it heads the kept list. */
  lemma FirstCandidateWins(cols: set<string>, candidates: seq<string>)
    requires candidates != [] && candidates[0] in cols
    ensures Kept(cols, candidates)[0] == candidates[0]
  {
  }

  /** Columns that are not candidates never change which candidates are kept. */
  lemma {:induction false} KeptIgnoresOtherColumns(cols: set<string>, extra: set<string>, candidates: seq<string>)
    requires forall c :: c in extra ==> c !in candidates
    ensures Kept(cols + extra, candidates) == Kept(cols, candidates)
  {
    if candidates != [] {
      assert forall c :: c in candidates[1..] ==> c in candidates;
      KeptIgnoresOtherColumns(cols, extra, candidates[1..]);
    }
  }

  /** Hence adding non-candidate columns to the schema never changes the expression. */
  lemma BuildExprIgnoresOtherColumns(cols: set<string>, extra: set<string>, alias: string, candidates: seq<string>, outAlias: string, cast: Option<string>)
    requires forall c :: c in extra ==> c !in candidates
    ensures BuildExpr(cols + extra, alias, candidates, outAlias, cast) == BuildExpr(cols, alias, candidates, outAlias, cast)
  {
    KeptIgnoresOtherColumns(cols, extra, candidates);
  }

  /** With no candidate in the schema the column is the literal `NULL`. */
  lemma NoCandidateIsNull(cols: set<string>, alias: string, candidates: seq<string>, outAlias: string)
    requires forall c :: c in candidates ==> c !in cols
    ensures BuildExpr(cols, alias, candidates, outAlias, None).base == "NULL"
    ensures BuildExpr(cols, alias, candidates, outAlias, None).select == "NULL AS " + outAlias
  {
    var e := BuildExpr(cols, alias, candidates, outAlias, None);
    assert e.select == e.base + e.select[|e.base|..];
  }

  /** With exactly one candidate in the schema the column is that reference, unwrapped. */
  lemma OneCandidateIsItsReference(cols: set<string>, alias: string, candidates: seq<string>, outAlias: string, c: string)
    requires Kept(cols, candidates) == [c]
    ensures BuildExpr(cols, alias, candidates, outAlias, None).base == alias + ".\"" + c + "\""
  {
  }

  /** Every column reference an expression holds names a candidate that exists. */
  lemma RefsNameKeptCandidates(cols: set<string>, alias: string, candidates: seq<string>, r: string)
    requires r in Refs(alias, Kept(cols, candidates))
    ensures exists c :: c in candidates && c in cols && r == Ref(alias, c)
  {
    var kept := Kept(cols, candidates);
    var i :| 0 <= i < |kept| && Refs(alias, kept)[i] == r;
    assert kept[i] in kept;
  }

  // The candidate lists of the two evaluation routes.
  const NormativaCandidates: seq<string> := ["normativa", "regulation", "law", "law_code", "codigo_ley"]
  const PctCandidates: seq<string> := ["cumplimiento", "pct", "percentage", "porcentaje"]
  const LevelCandidates: seq<string> := ["nivel", "level", "rango"]
  const StartedCandidates: seq<string> := ["started_at", "created_at", "fecha_inicio"]
  const DueCandidates: seq<string> := ["due_at", "deadline_at", "vence", "fecha_limite"]
  const CompanyNameCandidates: seq<string> := ["name", "nombre", "razon_social"]

  /** The output names of the six computed columns, in select-list order. */
  const ProjectionAliases: seq<string> := ["normativa", "pct", "level", "started_at", "due_at", "company_name"]

  /** The six computed columns of both routes, in select-list order. Each is
      selected under its output name (`ProjectionSelects`); the percentage, and only it, is cast to
      `float` (even when it is `NULL`); the first five read the evaluation's
      columns and the company name reads the company's. */
  function Projection(evalCols: set<string>, compCols: set<string>): (p: seq<ColumnExpr>)
    ensures |p| == |ProjectionAliases|
    ensures p[0].base == Plain(Refs("e", Kept(evalCols, NormativaCandidates)))
    ensures p[1].base == "(" + Plain(Refs("e", Kept(evalCols, PctCandidates))) + ")::float"
    ensures p[2].base == Plain(Refs("e", Kept(evalCols, LevelCandidates)))
    ensures p[3].base == Plain(Refs("e", Kept(evalCols, StartedCandidates)))
    ensures p[4].base == Plain(Refs("e", Kept(evalCols, DueCandidates)))
    ensures p[5].base == Plain(Refs("c", Kept(compCols, CompanyNameCandidates)))
  {
    var normativa := UncastColumn(evalCols, "e", NormativaCandidates, "normativa");
    var pct := PctColumn(evalCols);
    var level := UncastColumn(evalCols, "e", LevelCandidates, "level");
    var started := UncastColumn(evalCols, "e", StartedCandidates, "started_at");
    var due := UncastColumn(evalCols, "e", DueCandidates, "due_at");
    var company := UncastColumn(compCols, "c", CompanyNameCandidates, "company_name");
    SixInOrder(normativa, pct, level, started, due, company);
    [normativa, pct, level, started, due, company]
  }

  /** Every column is selected under its output name, in the order of the aliases. */
  lemma ProjectionSelects(evalCols: set<string>, compCols: set<string>)
    ensures var p := Projection(evalCols, compCols);
      forall i :: 0 <= i < |p| ==> p[i].select == p[i].base + " AS " + ProjectionAliases[i]
  {
    var p := Projection(evalCols, compCols);
    assert p[0].select == p[0].base + " AS " + ProjectionAliases[0];
    assert p[1].select == p[1].base + " AS " + ProjectionAliases[1];
    assert p[2].select == p[2].base + " AS " + ProjectionAliases[2];
    assert p[3].select == p[3].base + " AS " + ProjectionAliases[3];
    assert p[4].select == p[4].base + " AS " + ProjectionAliases[4];
    assert p[5].select == p[5].base + " AS " + ProjectionAliases[5];
  }

  /** The entries of a six-element list, by position. */
  lemma SixInOrder<T>(a: T, b: T, c: T, d: T, e: T, f: T)
    ensures var p := [a, b, c, d, e, f];
      |p| == 6 && p[0] == a && p[1] == b && p[2] == c && p[3] == d && p[4] == e && p[5] == f
  {
  }

  /** A column without a cast. */
  function UncastColumn(cols: set<string>, alias: string, candidates: seq<string>, outAlias: string): (e: ColumnExpr)
    ensures e.base == Plain(Refs(alias, Kept(cols, candidates)))
    ensures e.select == e.base + " AS " + outAlias
  {
    var e := BuildExpr(cols, alias, candidates, outAlias, None);
    SelectIsBaseAs(e, outAlias);
    e
  }

  /** The percentage column, the one cast to `float`. */
  function PctColumn(evalCols: set<string>): (e: ColumnExpr)
    ensures e.base == "(" + Plain(Refs("e", Kept(evalCols, PctCandidates))) + ")::float"
    ensures e.select == e.base + " AS pct"
  {
    var x := Plain(Refs("e", Kept(evalCols, PctCandidates)));
    var e := BuildExpr(evalCols, "e", PctCandidates, "pct", Some("float"));
    FloatCast(x);
    SelectIsBaseAs(e, "pct");
    e
  }

  /** The `float` cast of an expression. */
  lemma FloatCast(x: string)
    ensures CastTo(x, Some("float")) == "(" + x + ")::float"
  {
    var f := "float";
    assert f != "";
    assert ")::" + f == ")::float";
  }

  /** A select entry is its expression followed by ` AS ` and the output name. */
  lemma SelectIsBaseAs(e: ColumnExpr, outAlias: string)
    requires StartsWith(e.select, e.base) && e.select[|e.base|..] == " AS " + outAlias
    ensures e.select == e.base + " AS " + outAlias
  {
    assert e.select == e.select[..|e.base|] + e.select[|e.base|..];
  }

  /** An `evaluations` row: its id and the values of its date columns, as
      instants; a column missing from `dates` reads as NULL. */
  datatype EvaluationRecord = EvaluationRecord(id: string, dates: map<string, Option<int>>)

  /** The value of a column in a row: NULL when the row has no such value. */
  function Column(r: EvaluationRecord, c: string): Option<int> {
    if c in r.dates then r.dates[c] else None
  }

  /** The value `COALESCE(e."c1", e."c2", ...)` takes on a row: the first
      non-NULL kept column. */
  function FirstNonNull(r: EvaluationRecord, kept: seq<string>): (v: Option<int>)
    ensures v.Some? ==> exists c :: c in kept && Column(r, c) == v
    ensures v.None? <==> forall c :: c in kept ==> Column(r, c).None?
  {
    if kept == [] then None
    else if Column(r, kept[0]).Some? then Column(r, kept[0])
    else
      assert forall c :: c in kept <==> c == kept[0] || c in kept[1..];
      FirstNonNull(r, kept[1..])
  }

  /** The value `COALESCE` picks is the first kept column that is not NULL:
      every column before it is NULL. */
  lemma {:induction false} FirstNonNullIsFirst(r: EvaluationRecord, kept: seq<string>)
    ensures FirstNonNull(r, kept).Some? ==> exists i :: (0 <= i < |kept| && Column(r, kept[i]) == FirstNonNull(r, kept)
      && forall j :: 0 <= j < i ==> Column(r, kept[j]).None?)
  {
    if kept != [] && Column(r, kept[0]).None? && FirstNonNull(r, kept).Some? {
      var t := kept[1..];
      FirstNonNullIsFirst(r, t);
      var i :| 0 <= i < |t| && Column(r, t[i]) == FirstNonNull(r, t) && forall j :: 0 <= j < i ==> Column(r, t[j]).None?;
      assert Column(r, kept[i + 1]) == FirstNonNull(r, kept);
      forall j | 0 <= j < i + 1 ensures Column(r, kept[j]).None? {
        if j > 0 { assert kept[j] == t[j - 1]; }
      }
    }
  }

  /** The row's `started_at` column value under a given schema. */
  function Started(evalCols: set<string>, r: EvaluationRecord): Option<int> {
    FirstNonNull(r, Kept(evalCols, StartedCandidates))
  }

  /** `ORDER BY <started> DESC NULLS LAST, e.id DESC` */
  function ListOrder(evalCols: set<string>): (EvaluationRecord, EvaluationRecord) -> bool {
    ByKey((r: EvaluationRecord) => (Started(evalCols, r), r.id), Lex(NullsLast(Desc(IntLt())), Desc(StrLt())))
  }

  lemma ListOrderIsPreorder(evalCols: set<string>)
    ensures TotalPreorder(ListOrder(evalCols))
  {
    IntLtStrictTotal();
    DescStrictTotal(IntLt());
    NullsLastStrictTotal(Desc(IntLt()));
    StrLtStrictTotal();
    DescStrictTotal(StrLt());
    LexStrictTotal(NullsLast(Desc(IntLt())), Desc(StrLt()));
    ByKeyPreorder((r: EvaluationRecord) => (Started(evalCols, r), r.id), Lex(NullsLast(Desc(IntLt())), Desc(StrLt())));
  }

  datatype ListResponse = Items(items: seq<EvaluationRecord>) | ListError(error: string)

  /** `GET /evaluaciones`: every evaluation, most recently started first;
      `dbFails` stands for a failed database call. */
  function ListEvaluaciones(evalCols: set<string>, rows: seq<EvaluationRecord>, dbFails: bool): (res: ListResponse)
    ensures dbFails <==> res == ListError("Error listando evaluaciones")
    ensures res.Items? ==> multiset(res.items) == multiset(rows) && SortedBy(res.items, ListOrder(evalCols))
  {
    if dbFails then ListError("Error listando evaluaciones")
    else
      ListOrderIsPreorder(evalCols);
      SortSorted(rows, ListOrder(evalCols));
      Items(Sort(rows, ListOrder(evalCols)))
  }

  /** In the listing a row with a start date never follows one without, later
      starts come first, and rows starting together are in descending id order. */
  lemma ListNewestFirst(evalCols: set<string>, rows: seq<EvaluationRecord>, i: int, j: int)
    requires ListEvaluaciones(evalCols, rows, false).Items?
    requires 0 <= i < j < |ListEvaluaciones(evalCols, rows, false).items|
    ensures var s := ListEvaluaciones(evalCols, rows, false).items;
      var a := Started(evalCols, s[i]);
      var b := Started(evalCols, s[j]);
      && (b.Some? ==> a.Some? && a.value >= b.value)
      && (a == b ==> !StrLess(s[i].id, s[j].id))
  {
    var s := ListEvaluaciones(evalCols, rows, false).items;
    assert ListOrder(evalCols)(s[i], s[j]);
  }

  datatype DetailResponse = Found(row: EvaluationRecord) | NotFound(error: string) | DetailError(error: string)

  /** `GET /evaluaciones/:id`: the first row with that id, 404 when there is none. */
  function DetalleEvaluacion(rows: seq<EvaluationRecord>, id: string, dbFails: bool): (res: DetailResponse)
    ensures dbFails <==> res == DetailError("Error obteniendo evaluación")
    ensures !dbFails ==> (res == NotFound("No existe") <==> forall r :: r in rows ==> r.id != id)
    ensures res.Found? ==> res.row in rows && res.row.id == id
  {
    if dbFails then DetailError("Error obteniendo evaluación")
    else if rows == [] then NotFound("No existe")
    else if rows[0].id == id then Found(rows[0])
    else
      var r := DetalleEvaluacion(rows[1..], id, dbFails);
      assert forall x :: x in rows <==> x == rows[0] || x in rows[1..];
      r
  }
}

=== FILE: js.dfy ===
/** JavaScript value semantics shared by the back end and the front end:
    JSON-like values, truthiness (`!!x`), `||`, `??`, and the numeric
    conversion behind `Number(x)` and the relational operators. */
module Js {
  import opened Text

  datatype Option<+T> = None | Some(value: T)

  /** A JSON-like JavaScript value. Numbers are finite (JSON carries no NaN or
      Infinity); arrays and objects are not looked into and are `Composite`. */
  datatype JsValue = Undefined | Null | Bool(b: bool) | Num(r: real) | Str(s: string) | Composite

  /** ToBoolean: `false`, `0`, `""`, `null` and `undefined` are falsy. */
  predicate Truthy(v: JsValue) {
    match v
    case Undefined => false
    case Null => false
    case Bool(b) => b
    case Num(r) => r != 0.0
    case Str(s) => s != ""
    case Composite => true
  }

  predicate Nullish(v: JsValue) {
    v.Undefined? || v.Null?
  }

  /** `a === b`. Objects and arrays compare by identity, which the model
      does not track, so a `Composite` is never strictly equal to anything. */
  predicate StrictEquals(a: JsValue, b: JsValue) {
    match a
    case Undefined => b.Undefined?
    case Null => b.Null?
    case Bool(x) => b == Bool(x)
    case Num(x) => b == Num(x)
    case Str(x) => b == Str(x)
    case Composite => false
  }

  /** `a || b` */
  function Or(a: JsValue, b: JsValue): JsValue {
    if Truthy(a) then a else b
  }

  /** `a ?? b` */
  function Coalesce(a: JsValue, b: JsValue): JsValue {
    if Nullish(a) then b else a
  }

  /** A nullable text column or property read as a JavaScript value. */
  function FromText(t: Option<string>): JsValue {
    match t
    case None => Null
    case Some(s) => Str(s)
  }

  /** `(t || "")` for a nullable text value. */
  function TextOrEmpty(t: Option<string>): string {
    match t
    case None => ""
    case Some(s) => s
  }

  function DigitValue(c: char): nat
    requires IsDigit(c)
  {
    (c as int - '0' as int) as nat
  }

  /** The value of a run of decimal digits. */
  function DigitsValue(ds: string): nat
    requires forall i :: 0 <= i < |ds| ==> IsDigit(ds[i])
  {
    if ds == [] then 0 else 10 * DigitsValue(ds[..|ds| - 1]) + DigitValue(ds[|ds| - 1])
  }

  function Pow10(k: nat): (p: nat)
    ensures p >= 1
  {
    if k == 0 then 1 else 10 * Pow10(k - 1)
  }

  predicate AllDigits(s: string) {
    forall i :: 0 <= i < |s| ==> IsDigit(s[i])
  }

  /** An unsigned decimal literal `digits`, `digits.digits?` or `.digits`; None when `s` is not one. */
  function UnsignedDecimal(s: string): Option<real> {
    if AllDigits(s) && s != [] then Some(DigitsValue(s) as real)
    else
      var k := IndexOf(s, '.');
      if k == -1 then None
      else
        var ip := s[..k];
        var fp := s[k + 1..];
        if AllDigits(ip) && AllDigits(fp) && (ip != [] || fp != []) then
          Some(DigitsValue(ip) as real + (DigitsValue(fp) as real) / (Pow10(|fp|) as real))
        else None
  }

  /** `Number(s)` for a string, None standing for NaN. Whitespace around the
      literal is ignored and the empty string converts to 0. */
  function StringToNumber(s: string): Option<real> {
    var t := Trim(s);
    if t == "" then Some(0.0)
    else if t[0] == '-' then
      match UnsignedDecimal(t[1..]) case None => None case Some(r) => Some(-r)
    else if t[0] == '+' then UnsignedDecimal(t[1..])
    else UnsignedDecimal(t)
  }

  /** `Number(v)`, None standing for NaN. */
  function ToNumber(v: JsValue): Option<real> {
    match v
    case Undefined => None
    case Null => Some(0.0)
    case Bool(b) => Some(if b then 1.0 else 0.0)
    case Num(r) => Some(r)
    case Str(s) => StringToNumber(s)
    case Composite => None
  }

  /** `v >= k` for a numeric literal `k`: false whenever `v` converts to NaN. */
  predicate AtLeast(v: JsValue, k: real) {
    var n := ToNumber(v);
    n.Some? && n.value >= k
  }

  /** `Number.isInteger(v)` */
  predicate IsInteger(v: JsValue) {
    v.Num? && v.r.Floor as real == v.r
  }
}

=== FILE: legacy_form.dfy ===
/** The older evaluation form (src/components/EvaluacionFormulario.jsx): one
    answer per control of the chosen regulation, submitted on behalf of a
    fixed company. Its colour bands and its file-name sanitiser are the same
    expressions as the newer form's, `EvaluationForm.ColorNivel` and
    `EvaluationForm.Safe`. */
module LegacyForm {
  import opened Js
  import opened EvaluationForm

  /** The company every submission names. */
  const FixedCompany := "Farmacia Vida"

  /** The posted body `{ empresa, normativa, respuestas }`. */
  datatype LegacySubmission = LegacySubmission(empresa: string, normativa: JsValue, respuestas: map<string, string>)

  /** The `forEach` that sets `inicial[c.clave] = ''` for each control. */
  method InitialAnswers(arr: seq<Control>) returns (inicial: map<string, string>)
    ensures inicial == Blank(arr)
  {
    inicial := map[];
    for i := 0 to |arr|
      invariant inicial == Blank(arr[..i])
    {
      KeysStep(arr, i);
      inicial := inicial[Key(arr[i]) := ""];
    }
    assert arr[..|arr|] == arr;
  }

  /** The state of the older form. */
  class LegacyFormState {
    var controles: seq<Control>
    var respuestas: map<string, string>
    var resultado: Option<JsValue>

    constructor()
      ensures controles == [] && respuestas == map[] && resultado.None?
    {
      controles := [];
      respuestas := map[];
      resultado := None;
    }

    /** The catalog effect: nothing happens without a regulation; a failed
        request leaves no controls and no answers; otherwise every control's
        key starts with the blank answer. */
    method LoadControls(normativa: JsValue, response: Option<Payload<Control>>)
      modifies this
      ensures !Truthy(normativa) ==> unchanged(this)
      ensures Truthy(normativa) && response.None? ==> controles == [] && respuestas == map[] && resultado.None?
      ensures Truthy(normativa) && response.Some? ==>
        && controles == ItemsOf(response.value) && respuestas == Blank(ItemsOf(response.value))
        && resultado.None?
    {
      if !Truthy(normativa) {
        return;
      }
      controles := [];
      respuestas := map[];
      resultado := None;
      if response.None? {
        return;
      }
      var arr := ItemsOf(response.value);
      controles := arr;
      respuestas := InitialAnswers(arr);
    }

    /** `handleRespuesta`: only the answer of `clave` changes. */
    method HandleRespuesta(clave: string, valor: string)
      modifies this
      ensures clave in respuestas && respuestas[clave] == valor
      ensures forall k :: k != clave ==> (k in respuestas <==> k in old(respuestas))
      ensures forall k :: k != clave && k in respuestas ==> respuestas[k] == old(respuestas)[k]
      ensures controles == old(controles) && resultado == old(resultado)
    {
      respuestas := respuestas[clave := valor];
    }

    /** The body `handleSubmit` posts: always the fixed company, the chosen
        regulation and the current answers. */
    function Payload(normativa: JsValue): (p: LegacySubmission)
      reads this
      ensures p.empresa == FixedCompany && p.normativa == normativa && p.respuestas == respuestas
    {
      LegacySubmission(FixedCompany, normativa, respuestas)
    }

    /** `handleSubmit`. The status of the response is not checked, so any
        JSON answer, an error body included, becomes the result; `reply` is
        None when the request or its body fails, which leaves the state as
        it was. */
    method Submit(normativa: JsValue, reply: Option<JsValue>) returns (p: LegacySubmission)
      modifies this
      ensures p == old(Payload(normativa))
      ensures reply.Some? ==> resultado == reply
      ensures reply.None? ==> resultado == old(resultado)
      ensures controles == old(controles) && respuestas == old(respuestas)
    {
      p := Payload(normativa);
      if reply.Some? {
        resultado := reply;
      }
    }
  }
}

=== FILE: lists.dfy ===
/** `array.filter(keep).map(f)`, the list pipeline the front end uses to
    derive what it shows from what it loaded. */
module Lists {

  function FilterMap<A, B>(s: seq<A>, keep: A -> bool, f: A -> B): (r: seq<B>)
    ensures |r| <= |s|
    ensures forall x :: x in s && keep(x) ==> f(x) in r
  {
    if s == [] then []
    else
      var rest := FilterMap(s[1..], keep, f);
      assert forall x | x in s :: x == s[0] || x in s[1..];
      (if keep(s[0]) then [f(s[0])] else []) + rest
  }

  /** The pipeline keeps the order: pieces of the input give pieces of the
      output, and one element gives its image exactly when it is kept. */
  lemma {:induction false} FilterMapConcat<A, B>(a: seq<A>, b: seq<A>, keep: A -> bool, f: A -> B)
    ensures FilterMap(a + b, keep, f) == FilterMap(a, keep, f) + FilterMap(b, keep, f)
  {
    if a == [] {
      assert a + b == b;
    } else {
      var head := if keep(a[0]) then [f(a[0])] else [];
      assert (a + b)[0] == a[0] && (a + b)[1..] == a[1..] + b;
      assert FilterMap(a + b, keep, f) == head + FilterMap(a[1..] + b, keep, f);
      assert FilterMap(a, keep, f) == head + FilterMap(a[1..], keep, f);
      FilterMapConcat(a[1..], b, keep, f);
    }
  }

  /** Every element of the output is the image of a kept element. */
  lemma {:induction false} FilterMapImages<A, B>(s: seq<A>, keep: A -> bool, f: A -> B)
    ensures forall y :: y in FilterMap(s, keep, f) ==> exists x :: x in s && keep(x) && f(x) == y
  {
    if s != [] {
      FilterMapImages(s[1..], keep, f);
      assert forall x :: x in s[1..] ==> x in s;
    }
  }

  lemma FilterMapSingle<A, B>(x: A, keep: A -> bool, f: A -> B)
    ensures FilterMap([x], keep, f) == if keep(x) then [f(x)] else []
  {
    assert [x][1..] == [];
  }

  /** `array.filter(keep)` */
  function Filter<A>(s: seq<A>, keep: A -> bool): (r: seq<A>)
    ensures |r| <= |s|
    ensures forall x :: x in r ==> x in s && keep(x)
    ensures forall x :: x in s && keep(x) ==> x in r
  {
    if s == [] then []
    else
      var rest := Filter(s[1..], keep);
      assert forall x | x in s :: x == s[0] || x in s[1..];
      (if keep(s[0]) then [s[0]] else []) + rest
  }

  /** The filter keeps the order: pieces of the input give pieces of the
      output. */
  lemma {:induction false} FilterConcat<A>(a: seq<A>, b: seq<A>, keep: A -> bool)
    ensures Filter(a + b, keep) == Filter(a, keep) + Filter(b, keep)
  {
    if a == [] {
      assert a + b == b;
    } else {
      var head := if keep(a[0]) then [a[0]] else [];
      assert (a + b)[0] == a[0] && (a + b)[1..] == a[1..] + b;
      assert Filter(a + b, keep) == head + Filter(a[1..] + b, keep);
      assert Filter(a, keep) == head + Filter(a[1..], keep);
      FilterConcat(a[1..], b, keep);
    }
  }

  lemma FilterSingle<A>(x: A, keep: A -> bool)
    ensures Filter([x], keep) == if keep(x) then [x] else []
  {
    assert [x][1..] == [];
  }

  /** The filter keeps the order: two kept elements come from positions in
      the same order. */
  lemma {:induction false} FilterPositions<A>(s: seq<A>, keep: A -> bool, i: nat, j: nat)
    requires i < j < |Filter(s, keep)|
    ensures exists pi, pj :: 0 <= pi < pj < |s| && s[pi] == Filter(s, keep)[i] && s[pj] == Filter(s, keep)[j]
  {
    var pi, pj := FilterPositionsOf(s, keep, i, j);
  }

  /** Where two kept elements come from. */
  lemma {:induction false} FilterPositionsOf<A>(s: seq<A>, keep: A -> bool, i: nat, j: nat) returns (pi: nat, pj: nat)
    requires i < j < |Filter(s, keep)|
    ensures pi < pj < |s| && s[pi] == Filter(s, keep)[i] && s[pj] == Filter(s, keep)[j]
  {
    var rest := Filter(s[1..], keep);
    if keep(s[0]) {
      assert Filter(s, keep) == [s[0]] + rest;
      if i == 0 {
        var q := FilterPosition(s[1..], keep, j - 1);
        pi, pj := 0, q + 1;
      } else {
        var qi, qj := FilterPositionsOf(s[1..], keep, i - 1, j - 1);
        pi, pj := qi + 1, qj + 1;
      }
    } else {
      var qi, qj := FilterPositionsOf(s[1..], keep, i, j);
      pi, pj := qi + 1, qj + 1;
    }
  }

  /** Where one kept element comes from. */
  lemma {:induction false} FilterPosition<A>(s: seq<A>, keep: A -> bool, j: nat) returns (p: nat)
    requires j < |Filter(s, keep)|
    ensures p < |s| && s[p] == Filter(s, keep)[j]
  {
    var rest := Filter(s[1..], keep);
    if keep(s[0]) {
      assert Filter(s, keep) == [s[0]] + rest;
      if j == 0 {
        p := 0;
      } else {
        var q := FilterPosition(s[1..], keep, j - 1);
        p := q + 1;
      }
    } else {
      var q := FilterPosition(s[1..], keep, j);
      p := q + 1;
    }
  }

  /** A filter that keeps every element returns the list itself. */
  lemma {:induction false} FilterKeepsAll<A>(s: seq<A>, keep: A -> bool)
    requires forall i :: 0 <= i < |s| ==> keep(s[i])
    ensures Filter(s, keep) == s
  {
    if s != [] {
      FilterKeepsAll(s[1..], keep);
    }
  }

  /** An object or `Map` filled by a `forEach` that sets `m[key(x)] = val(x)`
      for each element in turn. */
  function Index<T, K, V>(s: seq<T>, key: T -> K, val: T -> V): (m: map<K, V>)
    ensures forall x :: x in s ==> key(x) in m
    ensures forall k :: k in m ==> exists i :: 0 <= i < |s| && key(s[i]) == k
  {
    if s == [] then map[]
    else
      var init := s[..|s| - 1];
      var m := Index(init, key, val);
      assert forall x | x in s :: x == s[|s| - 1] || x in init;
      assert forall i :: 0 <= i < |init| ==> init[i] == s[i];
      m[key(s[|s| - 1]) := val(s[|s| - 1])]
  }

  /** The last element with a given key decides that key's value: later
      duplicates overwrite earlier ones. */
  lemma {:induction false} IndexLastWins<T, K, V>(s: seq<T>, key: T -> K, val: T -> V, i: int)
    requires 0 <= i < |s|
    requires forall j :: i < j < |s| ==> key(s[j]) != key(s[i])
    ensures key(s[i]) in Index(s, key, val) && Index(s, key, val)[key(s[i])] == val(s[i])
  {
    if i < |s| - 1 {
      var init := s[..|s| - 1];
      assert init[i] == s[i];
      IndexLastWins(init, key, val, i);
    }
  }

  /** Adding one element to the end sets its key and nothing else. */
  lemma IndexSnoc<T, K, V>(s: seq<T>, x: T, key: T -> K, val: T -> V)
    ensures Index(s + [x], key, val) == Index(s, key, val)[key(x) := val(x)]
  {
    assert (s + [x])[..|s + [x]| - 1] == s;
  }
}

=== FILE: login.dfy ===
/** The login page (src/modules/auth/Login.jsx) and the browser storage it
    writes: it normalises the credentials, posts them, picks the message to
    show, stores the token and the user (taken from the reply, or read from
    the token's payload when the reply has none) and redirects home. */
module Login {
  import opened Js
  import opened Text

  /** A JSON object: its properties; a missing one reads as `undefined`. */
  type Object = map<string, JsValue>

  function Prop(o: Object, k: string): JsValue {
    if k in o then o[k] else Undefined
  }

  /** The two keys the application keeps in `localStorage`; None is an
      absent key. */
  class Storage {
    var token: Option<string>
    var user: Option<Object>

    constructor()
      ensures token.None? && user.None?
    {
      token := None;
      user := None;
    }
  }

  /** The body posted to the login endpoint. */
  datatype Credentials = Credentials(email: string, password: string)

  /** The parsed reply body. A body that fails to parse or is not an object
      reads as `{}`, so all three are None. */
  datatype LoginData = LoginData(error: Option<string>, token: Option<string>, user: Option<Object>)

  /** How the request ended: `fetch` threw (with the error's message), or a
      response came back with its status. */
  datatype Reply = NetworkFailure(message: string) | Response(ok: bool, status: int, data: LoginData)

  const ConnectionMessage := "Error de conexión al servidor"
  const WrongCredentialsMessage := "Usuario o contraseña incorrectos"
  const LoginFailedMessage := "No se pudo iniciar sesión"
  const MissingTokenMessage := "Respuesta inválida del servidor (falta token)"
  const SuccessMessage := "Login exitoso. Redirigiendo…"

  /** `{ email: email.trim().toLowerCase(), password: password.trim() }` */
  function CredentialsOf(email: string, password: string): (c: Credentials)
    ensures c.email == ToLower(Trim(email)) && |c.email| <= |email| && |c.password| <= |password|
    ensures IsTrimmed(c.password) && c.password == Trim(password)
    ensures forall i :: 0 <= i < |c.email| ==> !('A' <= c.email[i] <= 'Z')
  {
    Credentials(ToLower(Trim(email)), Trim(password))
  }

  /** Lower-casing keeps white space where it is. */
  lemma LowerKeepsTrimmed(s: string)
    requires IsTrimmed(s)
    ensures IsTrimmed(ToLower(s))
  {
  }

  /** Normalising what was already normalised changes nothing: the address
      typed with capitals or surrounding blanks logs in as the plain one. */
  lemma CredentialsNormalised(email: string, password: string)
    ensures var c := CredentialsOf(email, password);
      CredentialsOf(c.email, c.password) == c
  {
    var c := CredentialsOf(email, password);
    LowerKeepsTrimmed(Trim(email));
    TrimOfTrimmed(c.email);
    TrimIdempotent(password);
    assert ToLower(c.email) == c.email;
  }

  /** The message of a refused login: the server's `error` when it has one,
      otherwise a fixed text chosen by the status. */
  function FailureMessage(status: int, error: Option<string>): (m: string)
    ensures m != ""
    ensures error.Some? && error.value != "" ==> m == error.value
    ensures (error.None? || error.value == "") && status == 401 ==> m == WrongCredentialsMessage
    ensures (error.None? || error.value == "") && status != 401 ==> m == LoginFailedMessage
  {
    if error.Some? && error.value != "" then error.value
    else if status == 401 then WrongCredentialsMessage
    else LoginFailedMessage
  }

  /** The Base64url alphabet's two extra characters mapped to Base64's. */
  function StdChar(c: char): char {
    if c == '-' then '+' else if c == '_' then '/' else c
  }

  function UrlChar(c: char): char {
    if c == '+' then '-' else if c == '/' then '_' else c
  }

  /** `payload.replace(/-/g, "+").replace(/_/g, "/")` */
  function ToBase64(s: string): (r: string)
    ensures |r| == |s|
    ensures forall i :: 0 <= i < |s| ==> r[i] == StdChar(s[i])
    ensures '-' !in r && '_' !in r
  {
    if s == [] then [] else [StdChar(s[0])] + ToBase64(s[1..])
  }

  function ToBase64Url(s: string): (r: string)
    ensures |r| == |s|
    ensures forall i :: 0 <= i < |s| ==> r[i] == UrlChar(s[i])
  {
    if s == [] then [] else [UrlChar(s[0])] + ToBase64Url(s[1..])
  }

  /** A Base64url text, which has no `+` or `/`, comes back unchanged from
      the conversion and its inverse. */
  lemma Base64RoundTrip(s: string)
    requires '+' !in s && '/' !in s
    ensures ToBase64Url(ToBase64(s)) == s
  {
    var r := ToBase64Url(ToBase64(s));
    assert forall i :: 0 <= i < |s| ==> r[i] == s[i];
  }

  /** `decodeJwt(token)`: the second dot-separated piece, converted to
      Base64 and given to `decode`, which stands for `atob` followed by
      `JSON.parse` and is None when either throws or the result is falsy.
      A missing or empty piece gives null (None) without decoding. */
  function DecodeJwt(token: string, decode: string -> Option<Object>): (p: Option<Object>)
    ensures var parts := Split(token, '.');
      && (|parts| < 2 || parts[1] == "" ==> p.None?)
      && (|parts| >= 2 && parts[1] != "" ==> p == decode(ToBase64(parts[1])))
  {
    var parts := Split(token, '.');
    if |parts| < 2 || parts[1] == "" then None else decode(ToBase64(parts[1]))
  }

  /** A token `header.payload.signature` decodes its middle piece. */
  lemma DecodesMiddlePiece(h: string, p: string, sig: string, decode: string -> Option<Object>)
    requires '.' !in h && '.' !in p && p != ""
    ensures DecodeJwt(h + "." + p + "." + sig, decode) == decode(ToBase64(p))
  {
    var rest := p + "." + sig;
    var token := h + "." + rest;
    assert token == h + "." + p + "." + sig;
    SplitAfter(h, '.', rest);
    SplitAfter(p, '.', sig);
    assert Split(token, '.')[1] == p;
  }

  /** The user built from the token's claims. */
  function InferUser(claims: Object): (u: Object)
    ensures u.Keys == {"id", "name", "email", "role"}
    ensures u["id"] == (if !Nullish(Prop(claims, "id")) then Prop(claims, "id")
                        else if !Nullish(Prop(claims, "sub")) then Prop(claims, "sub") else Null)
    ensures u["name"] == (if !Nullish(Prop(claims, "name")) then Prop(claims, "name")
                          else if !Nullish(Prop(claims, "nombre")) then Prop(claims, "nombre") else Str(""))
    ensures u["email"] == (if !Nullish(Prop(claims, "email")) then Prop(claims, "email") else Str(""))
    ensures u["role"] == (if !Nullish(Prop(claims, "role")) then Prop(claims, "role")
                          else if !Nullish(Prop(claims, "rol")) then Prop(claims, "rol") else Str("user"))
    ensures !Nullish(u["name"]) && !Nullish(u["email"]) && !Nullish(u["role"])
  {
    map["id" := Coalesce(Coalesce(Prop(claims, "id"), Prop(claims, "sub")), Null),
        "name" := Coalesce(Coalesce(Prop(claims, "name"), Prop(claims, "nombre")), Str("")),
        "email" := Coalesce(Prop(claims, "email"), Str("")),
        "role" := Coalesce(Coalesce(Prop(claims, "role"), Prop(claims, "rol")), Str("user"))]
  }

  /** The user to store after a successful login: the reply's, or the one
      inferred from the token, or none. */
  function UserToStore(data: LoginData, token: string, decode: string -> Option<Object>): (u: Option<Object>)
    ensures data.user.Some? ==> u == data.user
    ensures data.user.None? && DecodeJwt(token, decode).None? ==> u.None?
    ensures data.user.None? && DecodeJwt(token, decode).Some? ==> u == Some(InferUser(DecodeJwt(token, decode).value))
  {
    if data.user.Some? then data.user
    else
      match DecodeJwt(token, decode)
      case None => None
      case Some(p) => Some(InferUser(p))
  }

  /** The login endpoint signs `{ id, nombre, email }` and answers without a
      `user`; the user stored is then named after `nombre` and has the role
      "user", whatever the account's role. */
  lemma BackendTokenUser(id: JsValue, nombre: string, email: string)
    requires !Nullish(id)
    ensures var u := InferUser(map["id" := id, "nombre" := Str(nombre), "email" := Str(email)]);
      u == map["id" := id, "name" := Str(nombre), "email" := Str(email), "role" := Str("user")]
  {
  }

  /** The login went through: an accepted response carrying a token. */
  predicate Succeeded(reply: Reply) {
    reply.Response? && reply.ok && reply.data.token.Some? && reply.data.token.value != ""
  }

  /** The message shown after a submission. */
  function MessageFor(reply: Reply): (m: string)
    ensures m != ""
    ensures reply.NetworkFailure? ==> m == (if reply.message != "" then reply.message else ConnectionMessage)
    ensures reply.Response? && !reply.ok ==> m == FailureMessage(reply.status, reply.data.error)
    ensures reply.Response? && reply.ok && !Succeeded(reply) ==> m == MissingTokenMessage
    ensures Succeeded(reply) ==> m == SuccessMessage
  {
    match reply
    case NetworkFailure(message) => if message != "" then message else ConnectionMessage
    case Response(ok, status, data) =>
      if !ok then FailureMessage(status, data.error)
      else if data.token.None? || data.token.value == "" then MissingTokenMessage
      else SuccessMessage
  }

  /** The login page's state; `storage` is the browser's storage. */
  class LoginState {
    var email: string
    var password: string
    var msg: string
    var loading: bool
    const storage: Storage

    constructor(s: Storage)
      ensures email == "" && password == "" && msg == "" && !loading && storage == s
    {
      email := "";
      password := "";
      msg := "";
      loading := false;
      storage := s;
    }

    method SetEmail(value: string)
      modifies this
      ensures email == value && password == old(password) && msg == old(msg) && loading == old(loading)
    {
      email := value;
    }

    method SetPassword(value: string)
      modifies this
      ensures password == value && email == old(email) && msg == old(msg) && loading == old(loading)
    {
      password := value;
    }

    /** `handleSubmit`. Returns the posted credentials and whether the page
        goes on to the home page. The storage changes only on success; a
        success whose user cannot be found leaves the stored user as it was. */
    method HandleSubmit(reply: Reply, decode: string -> Option<Object>) returns (sent: Credentials, redirect: bool)
      modifies this, storage
      ensures sent == CredentialsOf(old(email), old(password))
      ensures !loading && email == old(email) && password == old(password)
      ensures msg == MessageFor(reply) && redirect == Succeeded(reply)
      ensures !redirect ==> storage.token == old(storage.token) && storage.user == old(storage.user)
      ensures redirect ==>
        var t := reply.data.token.value;
        var u := UserToStore(reply.data, t, decode);
        storage.token == Some(t) && storage.user == (if u.Some? then u else old(storage.user))
    {
      msg := "";
      loading := true;
      sent := CredentialsOf(email, password);
      redirect := Succeeded(reply);
      if redirect {
        var t := reply.data.token.value;
        storage.token := Some(t);
        var u := UserToStore(reply.data, t, decode);
        if u.Some? {
          storage.user := u;
        }
      }
      msg := MessageFor(reply);
      loading := false;
    }
  }
}

=== FILE: navbar.dfy ===
/** The navigation bar (src/components/Navbar.jsx): hidden on the login pages
    and without a stored token; otherwise the common links, the
    administrator's links when the stored user looks like an administrator,
    the user's display name and a logout button. */
module Navbar {
  import opened Js
  import opened Text
  import opened Login
  import Auth
  import RequireAdmin

  /** What the bar shows: nothing, or its links and the user's name. */
  datatype View = Hidden | Bar(links: seq<string>, displayName: JsValue)

  const CommonLinks: seq<string> := ["/home", "/laws", "/results"]
  const AdminLinks: seq<string> := ["/admin", "/admin/controles", "/admin/regulaciones"]

  /** `String(user?.rol || "").toUpperCase() === "ADMIN"`, for a `rol` that is
      a string: "ADMIN" in any letter case. A `rol` holding an array is not
      modelled; any other value is taken never to read "ADMIN". */
  predicate RolIsAdmin(rol: JsValue) {
    rol.Str? && ToUpper(rol.s) == "ADMIN"
  }

  /** `isAdmin`: a stored user whose `rol` reads "ADMIN" ignoring case, or
      whose `role_id` converts to the number 1. */
  predicate IsAdmin(user: Option<Object>) {
    user.Some? && (RolIsAdmin(Prop(user.value, "rol")) || ToNumber(Prop(user.value, "role_id")) == Some(1.0))
  }

  /** `user?.nombre || user?.name || user?.email || ""` */
  function DisplayName(user: Option<Object>): (n: JsValue)
    ensures Truthy(n) || n == Str("")
    ensures user.None? ==> n == Str("")
    ensures user.Some? && Truthy(Prop(user.value, "nombre")) ==> n == Prop(user.value, "nombre")
    ensures user.Some? && !Truthy(Prop(user.value, "nombre")) && Truthy(Prop(user.value, "name")) ==> n == Prop(user.value, "name")
  {
    match user
    case None => Str("")
    case Some(u) => Or(Or(Or(Prop(u, "nombre"), Prop(u, "name")), Prop(u, "email")), Str(""))
  }

  /** The bar for a path, the stored token and the stored user (None when
      absent or unreadable). */
  function Render(pathname: string, token: Option<string>, user: Option<Object>): (v: View)
    ensures v.Hidden? <==> StartsWith(pathname, "/login") || token.None? || token.value == ""
    ensures v.Bar? ==> v.links == CommonLinks + (if IsAdmin(user) then AdminLinks else [])
    ensures v.Bar? ==> v.displayName == DisplayName(user)
  {
    if StartsWith(pathname, "/login") then Hidden
    else if token.None? || token.value == "" then Hidden
    else Bar(CommonLinks + (if IsAdmin(user) then AdminLinks else []), DisplayName(user))
  }

  /** The administrator's links appear exactly for an administrator. */
  lemma AdminLinksOnlyForAdmins(pathname: string, token: string, user: Option<Object>)
    requires !StartsWith(pathname, "/login") && token != ""
    ensures "/admin" in Render(pathname, Some(token), user).links <==> IsAdmin(user)
  {
    var links := Render(pathname, Some(token), user).links;
    if IsAdmin(user) {
      assert links[3] == "/admin";
    } else {
      assert links == CommonLinks;
    }
  }

  /** `onLogout`: both keys leave the storage. */
  method Logout(storage: Storage)
    modifies storage
    ensures storage.token.None? && storage.user.None?
  {
    storage.token := None;
    storage.user := None;
  }

  /** After logging out the bar is hidden everywhere. */
  lemma LoggedOutHidden(pathname: string, user: Option<Object>)
    ensures Render(pathname, None, user) == Hidden
  {
  }

  /** The stored user read as the back end reads a token's claims. */
  function AsAuthUser(u: Object): Auth.User {
    Auth.User(Prop(u, "rol"), Prop(u, "role_id"), Prop(u, "nombre"), Prop(u, "name"), Prop(u, "email"))
  }

  /** Whoever the server's guard lets through sees the administrator's links. */
  lemma GuardImpliesAdminLinks(u: Object)
    ensures RequireAdmin.IsAdminUser(AsAuthUser(u)) ==> IsAdmin(Some(u))
  {
    assert ToUpper("ADMIN") == "ADMIN";
  }

  /** The bar's test is looser than the guard: a lower-case role shows the
      administrator's links and is still refused by the server. */
  lemma LowerCaseRoleOnlyInBar()
    ensures var v := map["rol" := Str("admin")];
      IsAdmin(Some(v)) && !RequireAdmin.IsAdminUser(AsAuthUser(v))
  {
    assert ToUpper("admin") == "ADMIN";
  }

  /** So is the text "1" as `role_id`. */
  lemma TextRoleIdOnlyInBar()
    ensures var w := map["role_id" := Str("1")];
      IsAdmin(Some(w)) && !RequireAdmin.IsAdminUser(AsAuthUser(w))
  {
    var w := map["role_id" := Str("1")];
    assert Prop(w, "role_id") == Str("1");
    assert Trim("1") == "1" by {
      TrimOfTrimmed("1");
    }
    assert UnsignedDecimal("1") == Some(1.0) by {
      assert AllDigits("1");
      assert "1"[..0] == "";
      assert DigitsValue("1") == 10 * DigitsValue("") + DigitValue('1');
    }
    assert StringToNumber("1") == Some(1.0);
  }

  /** A user the login page infers from the token has `role`, never `rol`
      or `role_id`, so the bar never shows it the administrator's links,
      whatever role the token carries. */
  lemma InferredUserNeverAdmin(claims: Object)
    ensures !IsAdmin(Some(InferUser(claims)))
  {
    var u := InferUser(claims);
    assert "rol" !in u && "role_id" !in u;
  }
}

=== FILE: pdf_import.dfy ===
/** Importing a regulation's PDF: the extracted text is cut at large blank
    gaps into candidate articles, short fragments are dropped, at most fifty
    are kept, and each becomes an article numbered `AUTO-1`, `AUTO-2`, ... */
module PdfImport {
  import opened Js
  import opened Text
  import opened Lists

  /** The end of the run of white space that starts at `i`. */
  function RunEnd(s: string, i: nat): (e: nat)
    requires i <= |s|
    ensures i <= e <= |s|
    ensures forall k :: i <= k < e ==> IsSpace(s[k])
    ensures e == |s| || !IsSpace(s[e])
    decreases |s| - i
  {
    if i < |s| && IsSpace(s[i]) then RunEnd(s, i + 1) else i
  }

  /** The number of line feeds in `t`. */
  function Newlines(t: string): nat {
    if t == [] then 0 else Newlines(t[..|t| - 1]) + (if t[|t| - 1] == '\n' then 1 else 0)
  }

  /** The language of `/\n\s*\n\s*\n/`: white space that starts and ends with a
      line feed and holds at least three. */
  predicate IsBreak(t: string) {
    && |t| > 0 && t[0] == '\n' && t[|t| - 1] == '\n'
    && (forall k :: 0 <= k < |t| ==> IsSpace(t[k]))
    && Newlines(t) >= 3
  }

  /** A match of the pattern starts at `i`: a line feed whose white-space run
      holds at least three line feeds. */
  predicate BreakAt(s: string, i: nat) {
    i < |s| && s[i] == '\n' && Newlines(s[i..RunEnd(s, i)]) >= 3
  }

  /** Backs `e` off over the characters that are not line feeds. */
  function BackToNewline(s: string, i: nat, e: nat): (f: nat)
    requires i < e <= |s| && s[i] == '\n'
    ensures i < f <= e && s[f - 1] == '\n'
    ensures forall k :: f <= k < e ==> s[k] != '\n'
    ensures Newlines(s[i..f]) == Newlines(s[i..e])
    decreases e
  {
    if s[e - 1] == '\n' then e
    else
      assert s[i..e - 1] == s[i..e][..e - 1 - i];
      BackToNewline(s, i, e - 1)
  }

  /** Where a match starting at `i` ends: the greedy `\s*` reach the last line
      feed of the run. */
  function BreakEnd(s: string, i: nat): (e: nat)
    requires BreakAt(s, i)
    ensures i < e <= |s| && IsBreak(s[i..e])
    ensures e <= RunEnd(s, i) && forall k :: e <= k < RunEnd(s, i) ==> s[k] != '\n'
  {
    var e := BackToNewline(s, i, RunEnd(s, i));
    assert s[i..e][0] == s[i];
    e
  }

  /** The first match at or after `from`. */
  function FindBreak(s: string, from: nat): (r: Option<nat>)
    requires from <= |s|
    ensures r.Some? ==> from <= r.value && BreakAt(s, r.value)
    ensures forall k :: from <= k && (r.None? || k < r.value) ==> !BreakAt(s, k)
    decreases |s| - from
  {
    if from == |s| then None
    else if BreakAt(s, from) then Some(from)
    else FindBreak(s, from + 1)
  }

  /** `s.slice(from).split(/\n\s*\n\s*\n/)` as pieces and the separators matched between them. */
  function SplitFrom(s: string, from: nat): (r: (seq<string>, seq<string>))
    requires from <= |s|
    ensures |r.0| == |r.1| + 1
    decreases |s| - from
  {
    match FindBreak(s, from)
    case None => ([s[from..]], [])
    case Some(i) =>
      var e := BreakEnd(s, i);
      var rest := SplitFrom(s, e);
      ([s[from..i]] + rest.0, [s[i..e]] + rest.1)
  }

  /** Pieces put back together with their separators. */
  function Interleave(pieces: seq<string>, seps: seq<string>): string
    requires |pieces| == |seps| + 1
  {
    if seps == [] then pieces[0] else pieces[0] + seps[0] + Interleave(pieces[1..], seps[1..])
  }

  /** The split loses nothing and cuts at every match: the pieces and the
      separators make up the text, every separator is a match of the pattern,
      and no piece holds a match of its own. */
  lemma {:induction false} SplitFromSound(s: string, from: nat)
    requires from <= |s|
    ensures var (pieces, seps) := SplitFrom(s, from);
      && Interleave(pieces, seps) == s[from..]
      && (forall k :: 0 <= k < |seps| ==> IsBreak(seps[k]))
      && (forall j, k :: 0 <= j < |pieces| ==> !BreakAt(pieces[j], k))
    decreases |s| - from
  {
    match FindBreak(s, from)
    case None =>
      NoBreakInSlice(s, from, |s|);
      assert s[from..|s|] == s[from..];
    case Some(i) =>
      var e := BreakEnd(s, i);
      SplitFromSound(s, e);
      NoBreakInSlice(s, from, i);
      var rest := SplitFrom(s, e);
      NoBreakInCons(s[from..i], rest.0);
      assert s[from..] == s[from..i] + s[i..e] + s[e..];
  }

  /** A piece without a match in front of pieces without one. */
  lemma NoBreakInCons(head: string, tail: seq<string>)
    requires forall k :: !BreakAt(head, k)
    requires forall j, k :: 0 <= j < |tail| ==> !BreakAt(tail[j], k)
    ensures forall j, k :: 0 <= j < |[head] + tail| ==> !BreakAt(([head] + tail)[j], k)
  {
    forall j, k | 0 <= j < |[head] + tail|
      ensures !BreakAt(([head] + tail)[j], k)
    {
      if j > 0 {
        assert ([head] + tail)[j] == tail[j - 1];
      }
    }
  }

  /** A stretch of the text with no match in it holds none on its own either:
      cutting the text can only shorten a white-space run. */
  lemma NoBreakInSlice(s: string, a: nat, b: nat)
    requires a <= b <= |s|
    requires forall k :: a <= k < b ==> !BreakAt(s, k)
    ensures forall k :: !BreakAt(s[a..b], k)
  {
    forall k: nat | BreakAt(s[a..b], k)
      ensures false
    {
      BreakInSlice(s, a, b, k);
    }
  }

  /** A match inside `s[a..b]` is a match of `s` at the same place. */
  lemma BreakInSlice(s: string, a: nat, b: nat, k: nat)
    requires a <= b <= |s| && BreakAt(s[a..b], k)
    ensures BreakAt(s, a + k)
  {
    var t := s[a..b];
    var m := RunEnd(t, k);
    SliceSpaces(s, a, b, k, m);
    RunEndAtLeast(s, a + k, a + m);
    var e := RunEnd(s, a + k);
    forall x | 0 <= x < m - k
      ensures s[a + k..e][..m - k][x] == t[k..m][x]
    {
      assert s[a + k..e][x] == s[a + k + x] == t[k + x];
    }
    assert s[a + k..e][..m - k] == t[k..m];
    NewlinesPrefix(s[a + k..e], m - k);
  }

  /** The white-space run of a slice lies in white space of the text. */
  lemma SliceSpaces(s: string, a: nat, b: nat, k: nat, m: nat)
    requires a <= b <= |s| && k <= m <= b - a
    requires forall x :: k <= x < m ==> IsSpace(s[a..b][x])
    ensures forall x :: a + k <= x < a + m ==> IsSpace(s[x])
  {
    forall x | a + k <= x < a + m
      ensures IsSpace(s[x])
    {
      assert s[a..b][x - a] == s[x];
    }
  }

  /** White space from `i` up to `m` puts the end of the run at `m` or later. */
  lemma {:induction false} RunEndAtLeast(s: string, i: nat, m: nat)
    requires i <= m <= |s|
    requires forall k :: i <= k < m ==> IsSpace(s[k])
    ensures RunEnd(s, i) >= m
    decreases m - i
  {
    if i < m {
      RunEndAtLeast(s, i + 1, m);
    }
  }

  /** A prefix holds no more line feeds than the whole. */
  lemma {:induction false} NewlinesPrefix(t: string, n: nat)
    requires n <= |t|
    ensures Newlines(t[..n]) <= Newlines(t)
    decreases |t|
  {
    if n < |t| {
      var init := t[..|t| - 1];
      assert init[..n] == t[..n];
      NewlinesPrefix(init, n);
    } else {
      assert t[..n] == t;
    }
  }

  /** `text.split(/\n\s*\n\s*\n/)` */
  function SplitBlocks(text: string): (pieces: seq<string>)
    ensures |pieces| >= 1
  {
    SplitFrom(text, 0).0
  }

  /** The pieces that survive the length filter. */
  predicate IsLong(p: string) {
    |Trim(p)| > 60
  }

  /** `.filter(s => s.trim().length > 60)` */
  function LongPieces(pieces: seq<string>): (r: seq<string>)
    ensures |r| <= |pieces|
    ensures forall p :: p in r <==> p in pieces && |Trim(p)| > 60
  {
    Filter(pieces, IsLong)
  }

  /** The filter keeps the pieces' order: consecutive stretches of pieces give
      consecutive stretches of the result, and one piece survives exactly when
      its trimmed text is longer than sixty characters. */
  lemma LongPiecesConcat(a: seq<string>, b: seq<string>)
    ensures LongPieces(a + b) == LongPieces(a) + LongPieces(b)
  {
    FilterConcat(a, b, IsLong);
  }

  lemma LongPiecesSingle(p: string)
    ensures LongPieces([p]) == if |Trim(p)| > 60 then [p] else []
  {
    FilterSingle(p, IsLong);
  }

  const MaxChunks: nat := 50

  /** `.slice(0, n)` */
  function Take<T>(s: seq<T>, n: nat): (r: seq<T>)
    ensures |r| == if |s| < n then |s| else n
    ensures r == s[..|r|]
  {
    if |s| <= n then s else s[..n]
  }

  /** The chunks the import keeps: the first fifty long pieces (or all of
      them, when there are fewer), in text order. */
  function Chunks(text: string): (chunks: seq<string>)
    ensures var long := LongPieces(SplitBlocks(text));
      && |chunks| == (if |long| < MaxChunks then |long| else MaxChunks)
      && chunks == long[..|chunks|]
    ensures forall k :: 0 <= k < |chunks| ==> |Trim(chunks[k])| > 60
  {
    var long := LongPieces(SplitBlocks(text));
    var chunks := Take(long, MaxChunks);
    forall k | 0 <= k < |chunks|
      ensures |Trim(chunks[k])| > 60
    {
      assert chunks[k] == long[k];
    }
    chunks
  }

  /** Every kept chunk is a long piece of the text. */
  lemma ChunksArePieces(text: string, c: string)
    requires c in Chunks(text)
    ensures c in SplitBlocks(text) && |Trim(c)| > 60
  {
    var long := LongPieces(SplitBlocks(text));
    assert c in long;
  }

  /** The chunks come in the order of the pieces: a later chunk is a later
      piece of the text. */
  lemma ChunksInOrder(text: string, i: nat, j: nat)
    requires i < j < |Chunks(text)|
    ensures exists pi, pj ::
      (0 <= pi < pj < |SplitBlocks(text)| && SplitBlocks(text)[pi] == Chunks(text)[i] && SplitBlocks(text)[pj] == Chunks(text)[j])
  {
    var long := LongPieces(SplitBlocks(text));
    assert Chunks(text)[i] == long[i] && Chunks(text)[j] == long[j];
    FilterPositions(SplitBlocks(text), IsLong, i, j);
  }

  /** The uploaded file as the upload middleware describes it. */
  datatype UploadedFile = UploadedFile(path: string, originalName: string, mimeType: string)

  /** What the PDF parser extracts: page count and text, either possibly missing. */
  datatype ParsedPdf = ParsedPdf(numPages: Option<int>, text: Option<string>)

  /** A row inserted into `regulation_sources`. */
  datatype SourceRow = SourceRow(regulationId: string, fileUrl: string, fileName: string, mimeType: string, pageCount: Option<int>, parsed: bool)

  /** A row inserted into `articles`. */
  datatype ArticleRow = ArticleRow(regulationId: string, code: string, title: Option<string>, body: string, sortIndex: int)

  /** The code of the `n`-th generated article. */
  function AutoCode(n: nat): string {
    "AUTO-" + NatToString(n)
  }

  /** The article generated from the chunk at (0-based) position `i`. */
  function AutoArticle(regulationId: string, chunks: seq<string>, i: nat): ArticleRow
    requires i < |chunks|
  {
    ArticleRow(regulationId, AutoCode(i + 1), None, Trim(chunks[i]), i + 1)
  }

  /** The articles generated from `chunks`, in order. */
  function AutoArticles(regulationId: string, chunks: seq<string>): (rows: seq<ArticleRow>)
    ensures |rows| == |chunks|
  {
    seq(|chunks|, i requires 0 <= i < |chunks| => AutoArticle(regulationId, chunks, i))
  }

  /** Different article numbers give different codes. */
  lemma AutoCodeInjective(m: nat, n: nat)
    requires AutoCode(m) == AutoCode(n)
    ensures m == n
  {
    assert NatToString(m) == AutoCode(m)[5..];
    assert NatToString(n) == AutoCode(n)[5..];
    NatToStringInjective(m, n);
  }

  /** Generated articles have distinct codes. */
  lemma AutoCodesDistinct(regulationId: string, chunks: seq<string>, i: nat, j: nat)
    requires i < j < |chunks|
    ensures AutoArticles(regulationId, chunks)[i].code != AutoArticles(regulationId, chunks)[j].code
  {
    if AutoCode(i + 1) == AutoCode(j + 1) {
      AutoCodeInjective(i + 1, j + 1);
    }
  }

  /** The `i`-th generated article has sort index i+1, no title, and a trimmed
      body longer than sixty characters; there are at most fifty. */
  lemma AutoArticlesWellFormed(regulationId: string, text: string, i: nat)
    requires i < |Chunks(text)|
    ensures |AutoArticles(regulationId, Chunks(text))| <= MaxChunks
    ensures var row := AutoArticles(regulationId, Chunks(text))[i];
      && row.sortIndex == i + 1 && row.title.None? && row.regulationId == regulationId
      && IsTrimmed(row.body) && |row.body| > 60
  {
  }

  datatype UploadResponse =
    | Imported(source: SourceRow, parsedCount: nat, sample: seq<ArticleRow>)
    | UploadError(status: nat, error: string)

  /** The `regulation_sources` and `articles` tables the import writes to. */
  class RegulationStore {
    var sources: seq<SourceRow>
    var articles: seq<ArticleRow>

    constructor(sources0: seq<SourceRow>, articles0: seq<ArticleRow>)
      ensures sources == sources0 && articles == articles0
    {
      sources := sources0;
      articles := articles0;
    }

    /** `POST /regulations/:id/upload`. `parsed` is None when reading or parsing
        the file fails. */
    method Upload(regulationId: string, file: Option<UploadedFile>, parsed: Option<ParsedPdf>) returns (res: UploadResponse)
      modifies this
      ensures file.None? ==> res == UploadError(400, "Archivo requerido") && unchanged(this)
      ensures file.Some? && parsed.None? ==> res == UploadError(500, "Error al procesar PDF") && unchanged(this)
      ensures file.Some? && parsed.Some? ==>
        var text := TextOrEmpty(parsed.value.text);
        var added := AutoArticles(regulationId, Chunks(text));
        var source := SourceRow(regulationId, file.value.path, file.value.originalName, file.value.mimeType,
                                PageCount(parsed.value.numPages), true);
        && sources == old(sources) + [source]
        && articles == old(articles) + added
        && res == Imported(source, |added|, Take(added, 3))
    {
      if file.None? {
        return UploadError(400, "Archivo requerido");
      }
      if parsed.None? {
        return UploadError(500, "Error al procesar PDF");
      }
      var f := file.value;
      var pdf := parsed.value;
      var source := SourceRow(regulationId, f.path, f.originalName, f.mimeType, PageCount(pdf.numPages), true);
      sources := sources + [source];

      var inserted := InsertArticles(regulationId, Chunks(TextOrEmpty(pdf.text)));
      return Imported(source, |inserted|, Take(inserted, 3));
    }

    /** The insertion loop: one `AUTO-n` article per chunk, appended in order. */
    method InsertArticles(regulationId: string, chunks: seq<string>) returns (inserted: seq<ArticleRow>)
      modifies this
      ensures inserted == AutoArticles(regulationId, chunks)
      ensures articles == old(articles) + inserted && sources == old(sources)
    {
      inserted := [];
      for i := 0 to |chunks|
        invariant inserted == AutoArticles(regulationId, chunks)[..i]
        invariant articles == old(articles) + inserted && sources == old(sources)
      {
        var row := AutoArticle(regulationId, chunks, i);
        articles := articles + [row];
        inserted := inserted + [row];
      }
    }
  }

  /** `parsed.numpages || null` */
  function PageCount(numPages: Option<int>): (p: Option<int>)
    ensures p.Some? ==> p.value != 0 && numPages == p
    ensures p.None? <==> numPages.None? || numPages == Some(0)
  {
    if numPages.Some? && numPages.value != 0 then numPages else None
  }
}

=== FILE: require_admin.dfy ===
/** The administrator guard placed after authentication on every admin route. */
module RequireAdmin {
  import opened Js
  import opened Auth

  /** Strict equality with `'ADMIN'` or with the number 1. */
  predicate IsAdminUser(u: User) {
    u.rol == Str("ADMIN") || u.roleId == Num(1.0)
  }

  /** `requireAdmin(req, res, next)`; `user` is None when no user was set. */
  function RequireAdmin(user: Option<User>): (o: Outcome)
    ensures o == Deny(401, "No autenticado") <==> user.None?
    ensures o == Deny(403, "Solo administradores") <==> user.Some? && !IsAdminUser(user.value)
    ensures o.Next? <==> user.Some? && IsAdminUser(user.value)
    ensures o.Next? ==> o.user == user.value
  {
    if user.None? then Deny(401, "No autenticado")
    else if !IsAdminUser(user.value) then Deny(403, "Solo administradores")
    else Next(user.value)
  }

  /** Either role marker alone lets a user through, whatever the other holds;
      the comparisons are exact, so a lower-case role or the string "1" does not. */
  lemma AdminMarkers(u: User)
    ensures u.rol == Str("ADMIN") ==> RequireAdmin(Some(u)).Next?
    ensures u.roleId == Num(1.0) ==> RequireAdmin(Some(u)).Next?
    ensures u.rol == Str("admin") && u.roleId == Str("1") ==> RequireAdmin(Some(u)) == Deny(403, "Solo administradores")
  {
  }

  /** An admin route: authentication, then the administrator guard. */
  function AdminGate(header: Option<string>, verify: string -> Option<User>): (o: Outcome)
    ensures o.Next? <==> Authenticate(header, verify).Next? && IsAdminUser(Authenticate(header, verify).user)
    ensures !Authenticate(header, verify).Next? ==> o == Authenticate(header, verify)
  {
    match Authenticate(header, verify)
    case Deny(s, e) => Deny(s, e)
    case Next(u) => RequireAdmin(Some(u))
  }
}

=== FILE: result_detail.dfy ===
/** The page of one stored evaluation (src/modules/results/ResultDetail.jsx):
    it loads the evaluation with its answers and the catalog of its
    regulation, lets the user change answers, comments and evidence per
    control, saves one control at a time and shows the percentage and the
    level. The page's state is the class `DetailState`. */
module ResultDetail {
  import opened Js
  import opened Text
  import opened Lists
  import opened EvaluationForm

  /** One stored answer; a NULL column or a missing property is None. */
  datatype AnswerRow = AnswerRow(controlClave: Option<string>, clave: Option<string>,
                                 valor: Option<string>, comentario: Option<string>)

  /** The evaluation header as the detail endpoint returns it. */
  datatype Ev = Ev(normativa: JsValue, cumplimiento: JsValue, pct: JsValue, nivel: JsValue,
                   status: JsValue, companyName: JsValue, respuestas: Option<seq<AnswerRow>>)

  /** A control of the regulation's catalog. */
  datatype CatalogControl = CatalogControl(clave: Option<string>, pregunta: JsValue, articulo: JsValue)

  /** What a save answers with. */
  datatype SaveReply = SaveReply(cumplimiento: JsValue, nivel: JsValue)

  /** The body of a save. */
  datatype SaveBody = SaveBody(valor: string, comentario: string)

  const LoadFailedMessage := "No se pudo cargar el detalle de la evaluación."

  /** `row.control_clave || row.clave`, as a property name (NULL gives `"null"`). */
  function RowKey(row: AnswerRow): string {
    if row.controlClave.Some? && row.controlClave.value != "" then row.controlClave.value
    else match row.clave
      case None => "null"
      case Some(s) => s
  }

  /** `row.valor || ""` */
  function RowValor(row: AnswerRow): string {
    TextOrEmpty(row.valor)
  }

  /** `row.comentario || ""` */
  function RowComentario(row: AnswerRow): string {
    TextOrEmpty(row.comentario)
  }

  function RowEvidence(row: AnswerRow): Evidence {
    FreshEvidence
  }

  /** The answers as loaded: one entry per key; a later row with the same key
      overwrites an earlier one. */
  function AnswersOf(rows: seq<AnswerRow>): (m: map<string, string>)
    ensures forall r :: r in rows ==> RowKey(r) in m
    ensures forall k :: k in m ==> exists i :: 0 <= i < |rows| && RowKey(rows[i]) == k
  {
    Index(rows, RowKey, RowValor)
  }

  function CommentsOf(rows: seq<AnswerRow>): (m: map<string, string>)
    ensures forall r :: r in rows ==> RowKey(r) in m
    ensures forall k :: k in m ==> exists i :: 0 <= i < |rows| && RowKey(rows[i]) == k
  {
    Index(rows, RowKey, RowComentario)
  }

  function EvidencesOf(rows: seq<AnswerRow>): (m: map<string, Evidence>)
    ensures forall r :: r in rows ==> RowKey(r) in m && m[RowKey(r)] == FreshEvidence
  {
    var m := Index(rows, RowKey, RowEvidence);
    assert forall k :: k in m ==> exists i :: 0 <= i < |rows| && RowKey(rows[i]) == k;
    IndexValues(rows, RowKey, RowEvidence);
    m
  }

  lemma {:induction false} IndexValues(rows: seq<AnswerRow>, key: AnswerRow -> string, val: AnswerRow -> Evidence)
    requires forall r :: val(r) == FreshEvidence
    ensures forall k :: k in Index(rows, key, val) ==> Index(rows, key, val)[k] == FreshEvidence
  {
    if rows != [] {
      IndexValues(rows[..|rows| - 1], key, val);
    }
  }

  /** The last row with a key gives that key's answer and comment. */
  lemma LastRowWins(rows: seq<AnswerRow>, i: int)
    requires 0 <= i < |rows|
    requires forall j :: i < j < |rows| ==> RowKey(rows[j]) != RowKey(rows[i])
    ensures RowKey(rows[i]) in AnswersOf(rows) && AnswersOf(rows)[RowKey(rows[i])] == RowValor(rows[i])
    ensures RowKey(rows[i]) in CommentsOf(rows) && CommentsOf(rows)[RowKey(rows[i])] == RowComentario(rows[i])
  {
    IndexLastWins(rows, RowKey, RowValor, i);
    IndexLastWins(rows, RowKey, RowComentario, i);
  }

  function ClaveOf(c: CatalogControl): Option<string> {
    c.clave
  }

  function Itself(c: CatalogControl): CatalogControl {
    c
  }

  /** `controlesByKey`: a `Map` from each clave (NULL included) to its
      control; a later control with the same clave replaces an earlier one. */
  function ControlesByKey(controles: seq<CatalogControl>): (m: map<Option<string>, CatalogControl>)
    ensures forall c :: c in controles ==> c.clave in m
    ensures forall k :: k in m ==> m[k].clave == k && m[k] in controles
  {
    var m := Index(controles, ClaveOf, Itself);
    IndexOwnKeys(controles);
    m
  }

  lemma {:induction false} IndexOwnKeys(controles: seq<CatalogControl>)
    ensures forall k :: k in Index(controles, ClaveOf, Itself) ==>
      Index(controles, ClaveOf, Itself)[k].clave == k && Index(controles, ClaveOf, Itself)[k] in controles
  {
    if controles != [] {
      var init := controles[..|controles| - 1];
      IndexOwnKeys(init);
      assert forall c :: c in init ==> c in controles;
    }
  }

  /** The last control with a clave is the one the page shows for it. */
  lemma LaterControlWins(controles: seq<CatalogControl>, i: int)
    requires 0 <= i < |controles|
    requires forall j :: i < j < |controles| ==> controles[j].clave != controles[i].clave
    ensures ControlesByKey(controles)[controles[i].clave] == controles[i]
  {
    IndexLastWins(controles, ClaveOf, Itself, i);
  }

  /** The first `forEach` of the load: the answer and comment objects. */
  method CollectAnswers(rows: seq<AnswerRow>) returns (a: map<string, string>, c: map<string, string>)
    ensures a == AnswersOf(rows) && c == CommentsOf(rows)
  {
    a, c := map[], map[];
    for i := 0 to |rows|
      invariant a == Index(rows[..i], RowKey, RowValor) && c == Index(rows[..i], RowKey, RowComentario)
    {
      assert rows[..i + 1] == rows[..i] + [rows[i]];
      IndexSnoc(rows[..i], rows[i], RowKey, RowValor);
      IndexSnoc(rows[..i], rows[i], RowKey, RowComentario);
      a := a[RowKey(rows[i]) := RowValor(rows[i])];
      c := c[RowKey(rows[i]) := RowComentario(rows[i])];
    }
    assert rows[..|rows|] == rows;
  }

  /** The second `forEach` of the load: a fresh evidence entry per key. */
  method CollectEvidence(rows: seq<AnswerRow>) returns (evd: map<string, Evidence>)
    ensures evd == EvidencesOf(rows)
  {
    evd := map[];
    for i := 0 to |rows|
      invariant evd == Index(rows[..i], RowKey, RowEvidence)
    {
      assert rows[..i + 1] == rows[..i] + [rows[i]];
      IndexSnoc(rows[..i], rows[i], RowKey, RowEvidence);
      evd := evd[RowKey(rows[i]) := FreshEvidence];
    }
    assert rows[..|rows|] == rows;
  }

  /** `fmtNivel(pct)`: thresholds 80, 60 and 40, each inclusive. */
  function FmtNivel(pct: JsValue): (n: string)
    ensures n == "Alto" <==> AtLeast(pct, 80.0)
    ensures n == "Medio" <==> AtLeast(pct, 60.0) && !AtLeast(pct, 80.0)
    ensures n == "Bajo" <==> AtLeast(pct, 40.0) && !AtLeast(pct, 60.0)
    ensures n == "Crítico" <==> !AtLeast(pct, 40.0)
  {
    if AtLeast(pct, 80.0) then "Alto"
    else if AtLeast(pct, 60.0) then "Medio"
    else if AtLeast(pct, 40.0) then "Bajo"
    else "Crítico"
  }

  /** The label and the colour always agree: both use the same boundaries. */
  lemma LabelMatchesColor(pct: JsValue)
    ensures FmtNivel(pct) == "Alto" <==> ColorNivel(pct) == Green
    ensures FmtNivel(pct) == "Medio" <==> ColorNivel(pct) == Yellow
    ensures FmtNivel(pct) == "Bajo" <==> ColorNivel(pct) == Orange
    ensures FmtNivel(pct) == "Crítico" <==> ColorNivel(pct) == Red
  {
  }

  /** `ev.cumplimiento ?? ev.pct ?? 0` */
  function ShownPct(e: Ev): (p: JsValue)
    ensures !Nullish(p)
    ensures !Nullish(e.cumplimiento) ==> p == e.cumplimiento
    ensures Nullish(e.cumplimiento) && !Nullish(e.pct) ==> p == e.pct
    ensures Nullish(e.cumplimiento) && Nullish(e.pct) ==> p == Num(0.0)
  {
    Coalesce(Coalesce(e.cumplimiento, e.pct), Num(0.0))
  }

  /** `ev.nivel || fmtNivel(pct)` */
  function ShownNivel(e: Ev): (n: JsValue)
    ensures Truthy(n)
    ensures Truthy(e.nivel) ==> n == e.nivel
    ensures !Truthy(e.nivel) ==> n == Str(FmtNivel(ShownPct(e)))
  {
    Or(e.nivel, Str(FmtNivel(ShownPct(e))))
  }

  /** The header after a save: `cumplimiento` and `nivel` take the server's
      values unless those are null or undefined; nothing else changes, and
      without a header there is nothing to update. */
  function Merge(prev: Option<Ev>, data: SaveReply): (r: Option<Ev>)
    ensures r.None? <==> prev.None?
    ensures r.Some? ==> r.value.(cumplimiento := prev.value.cumplimiento, nivel := prev.value.nivel) == prev.value
    ensures r.Some? && !Nullish(data.cumplimiento) ==> r.value.cumplimiento == data.cumplimiento
    ensures r.Some? && Nullish(data.cumplimiento) ==> r.value.cumplimiento == prev.value.cumplimiento
    ensures r.Some? && !Nullish(data.nivel) ==> r.value.nivel == data.nivel
    ensures r.Some? && Nullish(data.nivel) ==> r.value.nivel == prev.value.nivel
  {
    match prev
    case None => None
    case Some(e) => Some(e.(cumplimiento := Coalesce(data.cumplimiento, e.cumplimiento), nivel := Coalesce(data.nivel, e.nivel)))
  }

  /** Applying the same answer twice is applying it once, and after a save
      that reports a percentage the page shows that percentage. */
  lemma MergeProperties(prev: Option<Ev>, data: SaveReply)
    ensures Merge(Merge(prev, data), data) == Merge(prev, data)
    ensures prev.Some? && !Nullish(data.cumplimiento) ==> ShownPct(Merge(prev, data).value) == data.cumplimiento
  {
  }

  /** The page's state. */
  class DetailState {
    var ev: Option<Ev>
    var loading: bool
    var err: string
    var controles: seq<CatalogControl>
    var answers: map<string, string>
    var comments: map<string, string>
    var evidencias: map<string, Evidence>

    constructor()
      ensures ev.None? && loading && err == "" && controles == []
      ensures answers == map[] && comments == map[] && evidencias == map[]
    {
      ev := None;
      loading := true;
      err := "";
      controles := [];
      answers := map[];
      comments := map[];
      evidencias := map[];
    }

    /** The load effect. `detail` is the evaluation, None when its request
        fails; `catalog` is the catalog request's body, None when it fails,
        and is only asked for when the evaluation names a regulation. The
        catalog's status is not checked: an error body is not an array and
        gives no controls. A failed catalog request comes after the header
        and the answers were set, so those stay while the evidence entries
        are not reset. */
    method Load(detail: Option<Ev>, catalog: Option<Payload<CatalogControl>>)
      modifies this
      ensures !loading
      ensures detail.None? ==>
        && err == LoadFailedMessage && ev == old(ev) && controles == old(controles)
        && answers == old(answers) && comments == old(comments) && evidencias == old(evidencias)
      ensures detail.Some? ==>
        var rows := if detail.value.respuestas.Some? then detail.value.respuestas.value else [];
        && ev == detail && answers == AnswersOf(rows) && comments == CommentsOf(rows)
        && (Truthy(detail.value.normativa) && catalog.None? ==>
              err == LoadFailedMessage && controles == old(controles) && evidencias == old(evidencias))
        && (!Truthy(detail.value.normativa) ==> err == "" && controles == old(controles) && evidencias == EvidencesOf(rows))
        && (Truthy(detail.value.normativa) && catalog.Some? ==>
              err == "" && controles == ItemsOf(catalog.value) && evidencias == EvidencesOf(rows))
    {
      loading := true;
      err := "";
      if detail.None? {
        err := LoadFailedMessage;
        loading := false;
        return;
      }
      var data := detail.value;
      ev := detail;
      var rows := if data.respuestas.Some? then data.respuestas.value else [];
      answers, comments := CollectAnswers(rows);
      if Truthy(data.normativa) {
        if catalog.None? {
          err := LoadFailedMessage;
          loading := false;
          return;
        }
        controles := ItemsOf(catalog.value);
      }
      evidencias := CollectEvidence(rows);
      loading := false;
    }

    /** `setAnswer`: only the answer of `clave` changes. */
    method SetAnswer(clave: string, value: string)
      modifies this
      ensures clave in answers && answers[clave] == value
      ensures forall k :: k != clave ==> (k in answers <==> k in old(answers))
      ensures forall k :: k != clave && k in answers ==> answers[k] == old(answers)[k]
      ensures ev == old(ev) && loading == old(loading) && err == old(err) && controles == old(controles)
      ensures comments == old(comments) && evidencias == old(evidencias)
    {
      answers := answers[clave := value];
    }

    /** `setComment`: only the comment of `clave` changes. */
    method SetComment(clave: string, value: string)
      modifies this
      ensures clave in comments && comments[clave] == value
      ensures forall k :: k != clave ==> (k in comments <==> k in old(comments))
      ensures forall k :: k != clave && k in comments ==> comments[k] == old(comments)[k]
      ensures ev == old(ev) && loading == old(loading) && err == old(err) && controles == old(controles)
      ensures answers == old(answers) && evidencias == old(evidencias)
    {
      comments := comments[clave := value];
    }

    /** `onPickFiles`, as in the evaluation form. */
    method OnPickFiles(clave: string, files: seq<string>)
      modifies this
      ensures evidencias == PickFiles(old(evidencias), clave, files)
      ensures ev == old(ev) && loading == old(loading) && err == old(err) && controles == old(controles)
      ensures answers == old(answers) && comments == old(comments)
    {
      evidencias := PickFiles(evidencias, clave, files);
    }

    /** `uploadEvidence`, as in the evaluation form. */
    method UploadEvidence(clave: string, server: Option<Option<seq<string>>>) returns (sent: bool)
      modifies this
      ensures (evidencias, sent) == AfterUpload(old(evidencias), clave, server)
      ensures ev == old(ev) && loading == old(loading) && err == old(err) && controles == old(controles)
      ensures answers == old(answers) && comments == old(comments)
    {
      var outcome := AfterUpload(evidencias, clave, server);
      evidencias := outcome.0;
      sent := outcome.1;
    }

    /** The body `saveControl(clave)` sends. */
    function SaveBodyFor(clave: string): (b: SaveBody)
      reads this
      ensures b.valor == TextAt(answers, clave)
      ensures IsTrimmed(b.comentario) && |b.comentario| <= |TextAt(comments, clave)|
      ensures b.comentario == Trim(TextAt(comments, clave))
    {
      SaveBody(TextAt(answers, clave), Trim(TextAt(comments, clave)))
    }

    /** `saveControl(clave)`. `server` is the save's answer, None when it
        fails, which changes nothing. */
    method SaveControl(clave: string, server: Option<SaveReply>) returns (body: SaveBody)
      modifies this
      ensures body == old(SaveBodyFor(clave))
      ensures server.Some? ==> ev == Merge(old(ev), server.value)
      ensures server.None? ==> ev == old(ev)
      ensures loading == old(loading) && err == old(err) && controles == old(controles)
      ensures answers == old(answers) && comments == old(comments) && evidencias == old(evidencias)
    {
      body := SaveBodyFor(clave);
      if server.Some? {
        ev := Merge(ev, server.value);
      }
    }
  }
}

=== FILE: scoring.dfy ===
/** The scoring engine of the back end (backend/Controllers/evaluacionController.js):
    `calcularNivel`, the weighted scoring loop `evaluarNormativa`, and the
    `/evaluar` handler that picks the built-in catalog of a regulation. */
module Scoring {
  import opened Js
  import opened Text

  /** A catalog control as the scoring loop reads it. The question, the
      article and the recommendation are only copied into the report, so they
      stay JavaScript values. */
  datatype Control = Control(clave: string, pregunta: JsValue, articulo: JsValue, recomendacion: JsValue, peso: nat)

  /** One entry of `incumplimientos`. */
  datatype NonCompliance = NonCompliance(control: JsValue, articulo: JsValue, recomendacion: JsValue)

  /** The result of `Math.round`, which is NaN when the total weight is 0. */
  datatype Percent = Pct(value: int) | NaN

  /** The back end's four maturity levels. */
  datatype Level = Inicial | Basico | Intermedio | Avanzado

  datatype Evaluation = Evaluation(cumplimiento: Percent, nivel: Level, incumplimientos: seq<NonCompliance>)

  /** `p < k`, which is false when `p` is NaN. */
  predicate Below(p: Percent, k: int) {
    p.Pct? && p.value < k
  }

  /** `calcularNivel`: thresholds 30, 60 and 80, each the inclusive lower bound
      of the next level. NaN fails every comparison and lands on 'Avanzado'. */
  function CalcularNivel(p: Percent): (l: Level)
    ensures l == Inicial <==> p.Pct? && p.value < 30
    ensures l == Basico <==> p.Pct? && 30 <= p.value < 60
    ensures l == Intermedio <==> p.Pct? && 60 <= p.value < 80
    ensures l == Avanzado <==> p.NaN? || p.value >= 80
  {
    if Below(p, 30) then Inicial
    else if Below(p, 60) then Basico
    else if Below(p, 80) then Intermedio
    else Avanzado
  }

  function Rank(l: Level): nat {
    match l
    case Inicial => 0
    case Basico => 1
    case Intermedio => 2
    case Avanzado => 3
  }

  /** A higher percentage never gives a lower level. */
  lemma NivelMonotone(p: int, q: int)
    requires p <= q
    ensures Rank(CalcularNivel(Pct(p))) <= Rank(CalcularNivel(Pct(q)))
  {
  }

  /** `respuestas[clave]`: undefined when the key was not submitted. */
  function Answer(respuestas: map<string, JsValue>, clave: string): JsValue {
    if clave in respuestas then respuestas[clave] else Undefined
  }

  /** `if (valor)`: any truthy answer satisfies the control in full. */
  predicate Satisfied(c: Control, respuestas: map<string, JsValue>) {
    Truthy(Answer(respuestas, c.clave))
  }

  function Last<T>(s: seq<T>): T
    requires s != []
  {
    s[|s| - 1]
  }

  function Init<T>(s: seq<T>): seq<T>
    requires s != []
  {
    s[..|s| - 1]
  }

  /** The sum of all weights: `total`. */
  function TotalWeight(cs: seq<Control>): nat {
    if cs == [] then 0 else TotalWeight(Init(cs)) + Last(cs).peso
  }

  /** The sum of the weights of satisfied controls: `correctos`. */
  function SatisfiedWeight(cs: seq<Control>, respuestas: map<string, JsValue>): nat {
    if cs == [] then 0
    else SatisfiedWeight(Init(cs), respuestas) + (if Satisfied(Last(cs), respuestas) then Last(cs).peso else 0)
  }

  /** The controls whose answer is falsy, in catalog order. */
  function Unsatisfied(cs: seq<Control>, respuestas: map<string, JsValue>): seq<Control> {
    if cs == [] then []
    else Unsatisfied(Init(cs), respuestas) + (if Satisfied(Last(cs), respuestas) then [] else [Last(cs)])
  }

  function Entry(c: Control): NonCompliance {
    NonCompliance(c.pregunta, c.articulo, c.recomendacion)
  }

  /** The `incumplimientos` list: one entry per unsatisfied control. */
  function Report(cs: seq<Control>, respuestas: map<string, JsValue>): seq<NonCompliance> {
    var u := Unsatisfied(cs, respuestas);
    seq(|u|, i requires 0 <= i < |u| => Entry(u[i]))
  }

  /** `Math.round((correctos / total) * 100)`: NaN for a zero total, else
      r = floor(100·c/t + 1/2), the integer nearest to 100·c/t with halves
      rounded up; the second ensures is that definition multiplied by 2t. */
  function Round100(c: nat, t: nat): (p: Percent)
    ensures t == 0 <==> p.NaN?
    ensures t > 0 ==> 2 * t * p.value <= 200 * c + t < 2 * t * (p.value + 1)
  {
    if t == 0 then NaN else Pct((200 * c + t) / (2 * t))
  }

  lemma MulCancel(d: int, a: int, b: int)
    requires d > 0 && d * a < d * b
    ensures a < b
  {
  }

  /** The rounding characterisation determines the percentage. */
  lemma RoundIs(c: nat, t: nat, k: int)
    requires t > 0 && 2 * t * k <= 200 * c + t < 2 * t * (k + 1)
    ensures Round100(c, t) == Pct(k)
  {
    var r := Round100(c, t).value;
    MulCancel(2 * t, r, k + 1);
    MulCancel(2 * t, k, r + 1);
  }

  /** The scoring loop of `evaluarNormativa`: it sums the weights, sums the
      satisfied weights and collects the unsatisfied controls in order. */
  method EvaluarNormativa(controles: seq<Control>, respuestas: map<string, JsValue>) returns (r: Evaluation)
    ensures r.cumplimiento == Round100(SatisfiedWeight(controles, respuestas), TotalWeight(controles))
    ensures r.nivel == CalcularNivel(r.cumplimiento)
    ensures r.incumplimientos == Report(controles, respuestas)
  {
    var total: nat := 0;
    var correctos: nat := 0;
    var incumplimientos: seq<NonCompliance> := [];
    for i := 0 to |controles|
      invariant total == TotalWeight(controles[..i])
      invariant correctos == SatisfiedWeight(controles[..i], respuestas)
      invariant incumplimientos == Report(controles[..i], respuestas)
    {
      var control := controles[i];
      assert Init(controles[..i + 1]) == controles[..i] && Last(controles[..i + 1]) == control;
      total := total + control.peso;
      var valor := Answer(respuestas, control.clave);
      if Truthy(valor) {
        correctos := correctos + control.peso;
      } else {
        incumplimientos := incumplimientos + [Entry(control)];
      }
    }
    assert controles[..|controles|] == controles;
    var cumplimiento := Round100(correctos, total);
    r := Evaluation(cumplimiento, CalcularNivel(cumplimiento), incumplimientos);
  }

  /** Satisfied weight plus the weight of the reported controls is the total. */
  lemma {:induction false} WeightSplit(cs: seq<Control>, respuestas: map<string, JsValue>)
    ensures SatisfiedWeight(cs, respuestas) + TotalWeight(Unsatisfied(cs, respuestas)) == TotalWeight(cs)
  {
    if cs != [] {
      WeightSplit(Init(cs), respuestas);
      var u := Unsatisfied(Init(cs), respuestas);
      if Satisfied(Last(cs), respuestas) {
        assert Unsatisfied(cs, respuestas) == u + [] == u;
      } else {
        var v := u + [Last(cs)];
        assert Unsatisfied(cs, respuestas) == v;
        assert Init(v) == u && Last(v) == Last(cs);
        assert TotalWeight(v) == TotalWeight(u) + Last(cs).peso;
      }
    }
  }

  /** A control is reported exactly when it is in the catalog and its answer is falsy. */
  lemma {:induction false} UnsatisfiedExactly(cs: seq<Control>, respuestas: map<string, JsValue>, c: Control)
    ensures c in Unsatisfied(cs, respuestas) <==> c in cs && !Satisfied(c, respuestas)
  {
    if cs != [] {
      UnsatisfiedExactly(Init(cs), respuestas, c);
      assert cs == Init(cs) + [Last(cs)];
    }
  }

  /** With a positive total the percentage is an integer between 0 and 100. */
  lemma PercentInRange(cs: seq<Control>, respuestas: map<string, JsValue>)
    requires TotalWeight(cs) > 0
    ensures var p := Round100(SatisfiedWeight(cs, respuestas), TotalWeight(cs));
            p.Pct? && 0 <= p.value <= 100
  {
    var c := SatisfiedWeight(cs, respuestas);
    var t := TotalWeight(cs);
    WeightSplit(cs, respuestas);
    var r := Round100(c, t).value;
    assert 200 * c + t < 2 * t * 101;
    MulCancel(2 * t, r, 101);
    MulCancel(2 * t, -1, r);
  }

  /** When every answer is truthy nothing is reported and all weight is satisfied. */
  lemma {:induction false} AllTruthy(cs: seq<Control>, respuestas: map<string, JsValue>)
    requires forall i :: 0 <= i < |cs| ==> Truthy(Answer(respuestas, cs[i].clave))
    ensures Unsatisfied(cs, respuestas) == [] && Report(cs, respuestas) == []
    ensures SatisfiedWeight(cs, respuestas) == TotalWeight(cs)
    ensures TotalWeight(cs) > 0 ==> Round100(SatisfiedWeight(cs, respuestas), TotalWeight(cs)) == Pct(100)
  {
    if cs != [] {
      AllTruthy(Init(cs), respuestas);
      assert Satisfied(Last(cs), respuestas);
    }
    var t := TotalWeight(cs);
    if t > 0 {
      RoundIs(t, t, 100);
    }
  }

  /** With no answers at all every control is reported, in catalog order. */
  lemma {:induction false} NoAnswers(cs: seq<Control>)
    ensures Unsatisfied(cs, map[]) == cs
    ensures SatisfiedWeight(cs, map[]) == 0
    ensures Round100(0, TotalWeight(cs)) == if TotalWeight(cs) > 0 then Pct(0) else NaN
  {
    if cs != [] {
      NoAnswers(Init(cs));
      assert !Satisfied(Last(cs), map[]);
      assert Unsatisfied(cs, map[]) == Init(cs) + [Last(cs)] == cs;
    }
    var t := TotalWeight(cs);
    if t > 0 {
      RoundIs(0, t, 0);
    }
  }

  /** An empty or weightless catalog yields NaN, which `calcularNivel` maps to 'Avanzado'. */
  lemma ZeroTotalIsAvanzado(cs: seq<Control>, respuestas: map<string, JsValue>)
    requires TotalWeight(cs) == 0
    ensures CalcularNivel(Round100(SatisfiedWeight(cs, respuestas), TotalWeight(cs))) == Avanzado
  {
  }

  /** The strings "false" and "partial" are truthy, so they satisfy a control in full. */
  lemma NonEmptyStringsSatisfy(c: Control)
    ensures Satisfied(c, map[c.clave := Str("false")])
    ensures Satisfied(c, map[c.clave := Str("partial")])
    ensures !Satisfied(c, map[c.clave := Str("")])
  {
  }

  /** Which built-in catalog a regulation code selects. */
  datatype Catalog = Gdpr | Sox

  /** The `switch (normativa.toUpperCase())` of `evaluarCumplimiento`. */
  function SelectCatalog(normativa: string): (c: Option<Catalog>)
    ensures c == Some(Gdpr) <==> ToUpper(normativa) == "GDPR"
    ensures c == Some(Sox) <==> ToUpper(normativa) == "SOX"
    ensures c == None <==> ToUpper(normativa) != "GDPR" && ToUpper(normativa) != "SOX"
  {
    var code := ToUpper(normativa);
    if code == "GDPR" then Some(Gdpr) else if code == "SOX" then Some(Sox) else None
  }

  datatype Request = Request(empresa: JsValue, normativa: JsValue, respuestas: map<string, JsValue>)

  datatype Response =
    | BadRequest(error: string)
    | Evaluated(empresa: JsValue, normativa: JsValue, result: Evaluation)
      /** `normativa.toUpperCase()` threw (a missing or non-string
          `normativa`); the framework answers with its generic 500. */
    | ServerError

  /** POST /evaluar: a `normativa` that is not a string makes the handler
      throw; otherwise the built-in catalog of the (case-insensitive)
      regulation code is scored, and the response echoes `empresa` and
      `normativa` as sent. */
  method EvaluarCumplimiento(req: Request, controlesGdpr: seq<Control>, controlesSox: seq<Control>) returns (res: Response)
    ensures res == ServerError <==> !req.normativa.Str?
    ensures req.normativa.Str? ==> (SelectCatalog(req.normativa.s).None? <==> res == BadRequest("Normativa no soportada"))
    ensures req.normativa.Str? && SelectCatalog(req.normativa.s).Some? ==>
      var cs := if SelectCatalog(req.normativa.s) == Some(Gdpr) then controlesGdpr else controlesSox;
      && res.Evaluated?
      && res.empresa == req.empresa && res.normativa == req.normativa
      && res.result.cumplimiento == Round100(SatisfiedWeight(cs, req.respuestas), TotalWeight(cs))
      && res.result.nivel == CalcularNivel(res.result.cumplimiento)
      && res.result.incumplimientos == Report(cs, req.respuestas)
  {
    if !req.normativa.Str? {
      return ServerError;
    }
    var controles: seq<Control>;
    match SelectCatalog(req.normativa.s) {
      case None =>
        return BadRequest("Normativa no soportada");
      case Some(Gdpr) =>
        controles := controlesGdpr;
      case Some(Sox) =>
        controles := controlesSox;
    }
    var resultado := EvaluarNormativa(controles, req.respuestas);
    res := Evaluated(req.empresa, req.normativa, resultado);
  }
}

=== FILE: sorting.dfy ===
/** The row orderings the SQL queries ask for (`ORDER BY ...`), modelled as a
    stable insertion sort under a comparison `leq`. Whatever order the
    database picks among rows with equal keys, its result has the two
    properties proved here for the model's: it is sorted by the keys and it
    is a permutation of the selected rows. */
module Sorting {
  import opened Js

  /** `leq` compares every pair and is transitive. */
  ghost predicate TotalPreorder<T(!new)>(leq: (T, T) -> bool) {
    && (forall a, b :: leq(a, b) || leq(b, a))
    && (forall a, b, c :: leq(a, b) && leq(b, c) ==> leq(a, c))
  }

  predicate SortedBy<T>(s: seq<T>, leq: (T, T) -> bool) {
    forall i, j :: 0 <= i < j < |s| ==> leq(s[i], s[j])
  }

  /** Puts `x` before the first element it is not after. */
  function Insert<T>(x: T, s: seq<T>, leq: (T, T) -> bool): (r: seq<T>)
    ensures multiset(r) == multiset(s) + multiset{x}
  {
    if s == [] || leq(x, s[0]) then [x] + s
    else
      assert s == [s[0]] + s[1..];
      [s[0]] + Insert(x, s[1..], leq)
  }

  /** Rows in the order `leq` asks for; earlier rows stay first among equals. */
  function Sort<T>(s: seq<T>, leq: (T, T) -> bool): (r: seq<T>)
    ensures multiset(r) == multiset(s)
    ensures |r| == |s|
  {
    if s == [] then []
    else
      assert s == [s[0]] + s[1..];
      var r := Insert(s[0], Sort(s[1..], leq), leq);
      assert |r| == |multiset(r)|;
      r
  }

  lemma {:induction false} InsertSorted<T(!new)>(x: T, s: seq<T>, leq: (T, T) -> bool)
    requires TotalPreorder(leq) && SortedBy(s, leq)
    ensures SortedBy(Insert(x, s, leq), leq)
  {
    if s != [] && !leq(x, s[0]) {
      var tail := s[1..];
      var t := Insert(x, tail, leq);
      InsertSorted(x, tail, leq);
      forall j | 0 <= j < |t|
        ensures leq(s[0], t[j])
      {
        assert t[j] in multiset(t);
        if t[j] != x {
          assert t[j] in multiset(tail);
          var k :| 0 <= k < |tail| && tail[k] == t[j];
          assert tail[k] == s[k + 1];
        }
      }
      assert Insert(x, s, leq) == [s[0]] + t;
    }
  }

  /** The model's query results are sorted. */
  lemma {:induction false} SortSorted<T(!new)>(s: seq<T>, leq: (T, T) -> bool)
    requires TotalPreorder(leq)
    ensures SortedBy(Sort(s, leq), leq)
  {
    if s != [] {
      SortSorted(s[1..], leq);
      InsertSorted(s[0], Sort(s[1..], leq), leq);
    }
  }

  /** A strict order on sort keys that is irreflexive, transitive and
      compares any two different keys. */
  ghost predicate StrictTotalOrder<K(!new)>(lt: (K, K) -> bool) {
    && (forall a :: !lt(a, a))
    && (forall a, b, c :: lt(a, b) && lt(b, c) ==> lt(a, c))
    && (forall a, b :: a == b || lt(a, b) || lt(b, a))
  }

  /** Rows ordered by a key: `a` may come first unless `b`'s key is smaller. */
  function ByKey<T, K>(key: T -> K, lt: (K, K) -> bool): (T, T) -> bool {
    (a: T, b: T) => !lt(key(b), key(a))
  }

  lemma ByKeyPreorder<T(!new), K(!new)>(key: T -> K, lt: (K, K) -> bool)
    requires StrictTotalOrder(lt)
    ensures TotalPreorder(ByKey(key, lt))
  {
    var leq := ByKey(key, lt);
    forall a, b, c | leq(a, b) && leq(b, c)
      ensures leq(a, c)
    {
      assert !lt(key(b), key(a)) && !lt(key(c), key(b));
    }
  }

  /** Two keys compared on their first part, then on their second. */
  function Lex<A(==), B>(ltA: (A, A) -> bool, ltB: (B, B) -> bool): ((A, B), (A, B)) -> bool {
    (x: (A, B), y: (A, B)) => ltA(x.0, y.0) || (x.0 == y.0 && ltB(x.1, y.1))
  }

  lemma LexStrictTotal<A(!new), B(!new)>(ltA: (A, A) -> bool, ltB: (B, B) -> bool)
    requires StrictTotalOrder(ltA) && StrictTotalOrder(ltB)
    ensures StrictTotalOrder(Lex(ltA, ltB))
  {
    var lt := Lex(ltA, ltB);
    forall x: (A, B), y: (A, B) ensures x == y || lt(x, y) || lt(y, x) {
      assert ltA(x.0, y.0) || x.0 == y.0 || ltA(y.0, x.0);
      assert ltB(x.1, y.1) || x.1 == y.1 || ltB(y.1, x.1);
    }
  }

  /** The reverse order: `DESC`. */
  function Desc<K>(lt: (K, K) -> bool): (K, K) -> bool {
    (a: K, b: K) => lt(b, a)
  }

  lemma DescStrictTotal<K(!new)>(lt: (K, K) -> bool)
    requires StrictTotalOrder(lt)
    ensures StrictTotalOrder(Desc(lt))
  {
  }

  /** `NULLS LAST`: NULL is after every value. */
  function NullsLast<K>(lt: (K, K) -> bool): (Option<K>, Option<K>) -> bool {
    (a: Option<K>, b: Option<K>) => a.Some? && (b.None? || lt(a.value, b.value))
  }

  lemma NullsLastStrictTotal<K(!new)>(lt: (K, K) -> bool)
    requires StrictTotalOrder(lt)
    ensures StrictTotalOrder(NullsLast(lt))
  {
    var nl := NullsLast(lt);
    forall a: Option<K>, b: Option<K> ensures a == b || nl(a, b) || nl(b, a) {
      if a.Some? && b.Some? {
        assert a.value == b.value || lt(a.value, b.value) || lt(b.value, a.value);
      }
    }
  }

  function IntLt(): (int, int) -> bool {
    (a: int, b: int) => a < b
  }

  lemma IntLtStrictTotal()
    ensures StrictTotalOrder(IntLt())
  {
  }

  /** Code-point lexicographic order on strings: the database's "C" collation. */
  predicate StrLess(a: string, b: string) {
    if a == [] then b != []
    else if b == [] then false
    else if a[0] != b[0] then a[0] < b[0]
    else StrLess(a[1..], b[1..])
  }

  function StrLt(): (string, string) -> bool {
    (a: string, b: string) => StrLess(a, b)
  }

  lemma {:induction false} StrLessIrreflexive(a: string)
    ensures !StrLess(a, a)
  {
    if a != [] {
      StrLessIrreflexive(a[1..]);
    }
  }

  lemma {:induction false} StrLessTransitive(a: string, b: string, c: string)
    requires StrLess(a, b) && StrLess(b, c)
    ensures StrLess(a, c)
  {
    if a != [] && a[0] == b[0] && b[0] == c[0] {
      StrLessTransitive(a[1..], b[1..], c[1..]);
    }
  }

  lemma {:induction false} StrLessTotal(a: string, b: string)
    ensures a == b || StrLess(a, b) || StrLess(b, a)
  {
    if a != [] && b != [] && a[0] == b[0] {
      StrLessTotal(a[1..], b[1..]);
      if a[1..] == b[1..] {
        assert a == [a[0]] + a[1..] && b == [b[0]] + b[1..];
      }
    }
  }

  lemma StrLtStrictTotal()
    ensures StrictTotalOrder(StrLt())
  {
    var lt := StrLt();
    forall a ensures !lt(a, a) {
      StrLessIrreflexive(a);
    }
    forall a, b, c | lt(a, b) && lt(b, c) ensures lt(a, c) {
      StrLessTransitive(a, b, c);
    }
    forall a, b ensures a == b || lt(a, b) || lt(b, a) {
      StrLessTotal(a, b);
    }
  }
}

=== FILE: text.dfy ===
/** The JavaScript string operations the application relies on: `trim`,
    case mapping, `includes`, `startsWith`, `indexOf`, `split` on one
    character, `join`, and decimal rendering of integers. */
module Text {

  /** The characters JavaScript's `trim` and the regular-expression class `\s`
      treat as white space (WhiteSpace and LineTerminator). */
  predicate IsSpace(c: char) {
    || c == ' ' || c == '\t' || c == '\n' || c == '\U{B}' || c == '\U{C}' || c == '\r'
    || c == '\U{A0}' || c == '\U{1680}' || ('\U{2000}' <= c <= '\U{200A}')
    || c == '\U{2028}' || c == '\U{2029}' || c == '\U{202F}' || c == '\U{205F}'
    || c == '\U{3000}' || c == '\U{FEFF}'
  }

  predicate IsDigit(c: char) {
    '0' <= c <= '9'
  }

  /** No white space at either end. */
  predicate IsTrimmed(s: string) {
    s == [] || (!IsSpace(s[0]) && !IsSpace(s[|s| - 1]))
  }

  /** `trim`: white space removed from both ends, one character at a time. */
  function Trim(s: string): (r: string)
    ensures |r| <= |s|
    ensures IsTrimmed(r)
    decreases |s|
  {
    if s != [] && IsSpace(s[0]) then Trim(s[1..])
    else if s != [] && IsSpace(s[|s| - 1]) then Trim(s[..|s| - 1])
    else s
  }

  lemma TrimOfTrimmed(s: string)
    requires IsTrimmed(s)
    ensures Trim(s) == s
  {
  }

  /** Trimming twice is trimming once. */
  lemma TrimIdempotent(s: string)
    ensures Trim(Trim(s)) == Trim(s)
  {
    TrimOfTrimmed(Trim(s));
  }

  /** Where `trim` cuts: the result is a slice of the input with only white
      space before it and only white space after it. */
  lemma {:induction false} TrimBounds(s: string) returns (i: nat, j: nat)
    ensures i <= j <= |s| && Trim(s) == s[i..j]
    ensures forall k :: 0 <= k < i ==> IsSpace(s[k])
    ensures forall k :: j <= k < |s| ==> IsSpace(s[k])
    decreases |s|
  {
    if s != [] && IsSpace(s[0]) {
      var t := s[1..];
      var a, b := TrimBounds(t);
      i, j := a + 1, b + 1;
      assert t[a..b] == s[i..j];
      forall k | 0 <= k < i ensures IsSpace(s[k]) {
        if k > 0 { assert s[k] == t[k - 1]; }
      }
      forall k | j <= k < |s| ensures IsSpace(s[k]) {
        assert s[k] == t[k - 1];
      }
    } else if s != [] && IsSpace(s[|s| - 1]) {
      var t := s[..|s| - 1];
      i, j := TrimBounds(t);
      assert t[i..j] == s[i..j];
      forall k | j <= k < |s| ensures IsSpace(s[k]) {
        if k < |s| - 1 { assert s[k] == t[k]; }
      }
    } else {
      i, j := 0, |s|;
    }
  }

  /** `trim` keeps a slice of its input and drops only white space around it. */
  lemma TrimIsSlice(s: string)
    ensures exists i, j :: (0 <= i <= j <= |s| && Trim(s) == s[i..j]
      && (forall k :: 0 <= k < i ==> IsSpace(s[k])) && (forall k :: j <= k < |s| ==> IsSpace(s[k])))
  {
    var i, j := TrimBounds(s);
  }

  /** A string that is all white space trims to the empty string, and only such a string. */
  lemma {:induction false} TrimEmptyIff(s: string)
    ensures Trim(s) == "" <==> forall i :: 0 <= i < |s| ==> IsSpace(s[i])
    decreases |s|
  {
    if s != [] && IsSpace(s[0]) {
      var t := s[1..];
      TrimEmptyIff(t);
      assert forall i :: 1 <= i < |s| ==> s[i] == t[i - 1];
    } else if s != [] && IsSpace(s[|s| - 1]) {
      var t := s[..|s| - 1];
      TrimEmptyIff(t);
      assert t[0] == s[0];
    }
  }

  /** ASCII `toLowerCase` of one character. */
  function LowerChar(c: char): char {
    if 'A' <= c <= 'Z' then (c as int + 32) as char else c
  }

  /** ASCII `toUpperCase` of one character. */
  function UpperChar(c: char): char {
    if 'a' <= c <= 'z' then (c as int - 32) as char else c
  }

  function ToLower(s: string): (r: string)
    ensures |r| == |s| && forall i :: 0 <= i < |s| ==> r[i] == LowerChar(s[i])
  {
    if s == [] then [] else [LowerChar(s[0])] + ToLower(s[1..])
  }

  function ToUpper(s: string): (r: string)
    ensures |r| == |s| && forall i :: 0 <= i < |s| ==> r[i] == UpperChar(s[i])
  {
    if s == [] then [] else [UpperChar(s[0])] + ToUpper(s[1..])
  }

  predicate StartsWith(s: string, prefix: string) {
    |prefix| <= |s| && s[..|prefix|] == prefix
  }

  /** `h` contains `n` at index `i`. */
  predicate OccursAt(h: string, n: string, i: int) {
    0 <= i && i + |n| <= |h| && h[i..i + |n|] == n
  }

  /** `h.includes(n)`, computed by trying each starting position in turn. */
  function Includes(h: string, n: string): (b: bool)
    decreases |h|
  {
    StartsWith(h, n) || (h != [] && Includes(h[1..], n))
  }

  /** `includes` holds exactly when the needle occurs somewhere. */
  lemma {:induction false} IncludesIff(h: string, n: string)
    ensures Includes(h, n) <==> exists i :: OccursAt(h, n, i)
    decreases |h|
  {
    if h != [] {
      IncludesIff(h[1..], n);
      if StartsWith(h, n) {
        assert OccursAt(h, n, 0);
      }
      if Includes(h[1..], n) {
        var i :| OccursAt(h[1..], n, i);
        assert OccursAt(h, n, i + 1);
      }
      if exists i :: OccursAt(h, n, i) {
        var i :| OccursAt(h, n, i);
        if i > 0 {
          assert OccursAt(h[1..], n, i - 1);
        } else {
          assert h[..|n|] == h[0..|n|];
        }
      }
    } else {
      if Includes(h, n) {
        assert OccursAt(h, n, 0);
      }
      if exists i :: OccursAt(h, n, i) {
        var i :| OccursAt(h, n, i);
        assert n == [] && StartsWith(h, n);
      }
    }
  }

  /** `s.indexOf(c)`: the first position of `c`, or -1. */
  function IndexOf(s: string, c: char): (r: int)
    ensures -1 <= r < |s|
    ensures r >= 0 ==> s[r] == c && c !in s[..r]
    ensures r == -1 <==> c !in s
  {
    if s == [] then -1
    else if s[0] == c then 0
    else
      var k := IndexOf(s[1..], c);
      if k == -1 then -1
      else
        assert s[..k + 1] == [s[0]] + s[1..][..k];
        k + 1
  }

  /** The first occurrence is the one with no occurrence before it. */
  lemma {:induction false} IndexOfIs(s: string, c: char, k: int)
    requires 0 <= k < |s| && s[k] == c
    requires forall j :: 0 <= j < k ==> s[j] != c
    ensures IndexOf(s, c) == k
  {
    if k > 0 {
      assert s[0] != c;
      IndexOfIs(s[1..], c, k - 1);
    }
  }

  /** `s.split(c)` for a one-character separator: the pieces between the
      occurrences of `c`, in order; `"".split(c)` is `[""]`. */
  function Split(s: string, c: char): (parts: seq<string>)
    ensures |parts| >= 1
    ensures forall i :: 0 <= i < |parts| ==> c !in parts[i]
    decreases |s|
  {
    var k := IndexOf(s, c);
    if k == -1 then [s] else [s[..k]] + Split(s[k + 1..], c)
  }

  /** Where the first separator is at `k`, the split is the text before it
      followed by the split of the text after it. */
  lemma SplitAtFirst(s: string, c: char, k: nat)
    requires k < |s| && s[k] == c && forall j :: 0 <= j < k ==> s[j] != c
    ensures Split(s, c) == [s[..k]] + Split(s[k + 1..], c)
  {
    IndexOfIs(s, c, k);
  }

  /** A piece free of the separator, then the separator: that piece comes
      first in the split and the rest splits on its own. */
  lemma SplitAfter(a: string, c: char, b: string)
    requires c !in a
    ensures Split(a + [c] + b, c) == [a] + Split(b, c)
  {
    var s := a + [c] + b;
    assert s[|a|] == c;
    assert forall j :: 0 <= j < |a| ==> s[j] == a[j];
    IndexOfIs(s, c, |a|);
    assert s[..|a|] == a && s[|a| + 1..] == b;
  }

  /** `parts.join(sep)` */
  function Join(parts: seq<string>, sep: string): string {
    if parts == [] then ""
    else if |parts| == 1 then parts[0]
    else parts[0] + sep + Join(parts[1..], sep)
  }

  /** Joining the pieces of a split with the separator gives back the string. */
  lemma {:induction false} SplitJoin(s: string, c: char)
    ensures Join(Split(s, c), [c]) == s
    decreases |s|
  {
    var k := IndexOf(s, c);
    if k == -1 {
      assert Split(s, c) == [s];
    } else {
      var head, rest := s[..k], s[k + 1..];
      var parts := Split(rest, c);
      assert Split(s, c) == [head] + parts;
      SplitJoin(rest, c);
      JoinCons(head, parts, [c]);
      assert head + [c] + rest == s;
    }
  }

  lemma JoinCons(a: string, parts: seq<string>, sep: string)
    requires parts != []
    ensures Join([a] + parts, sep) == a + sep + Join(parts, sep)
  {
    assert ([a] + parts)[1..] == parts;
  }

  function DigitChar(d: nat): char
    requires d < 10
  {
    ('0' as int + d) as char
  }

  /** The decimal numeral of `n`, as `String(n)` writes it. */
  function NatToString(n: nat): (s: string)
    ensures |s| >= 1 && (|s| == 1 <==> n < 10)
    ensures forall i :: 0 <= i < |s| ==> IsDigit(s[i])
  {
    if n < 10 then [DigitChar(n)] else NatToString(n / 10) + [DigitChar(n % 10)]
  }

  /** Different numbers have different numerals. */
  lemma {:induction false} NatToStringInjective(m: nat, n: nat)
    requires NatToString(m) == NatToString(n)
    ensures m == n
  {
    var s := NatToString(m);
    if m >= 10 && n >= 10 {
      var sm := NatToString(m / 10);
      var sn := NatToString(n / 10);
      assert sm + [DigitChar(m % 10)] == sn + [DigitChar(n % 10)];
      assert |sm| == |sn|;
      assert sm == s[..|s| - 1] == sn;
      NatToStringInjective(m / 10, n / 10);
    }
  }

  /** `String(i)` for an integer. */
  function IntToString(i: int): string {
    if i < 0 then "-" + NatToString(-i) else NatToString(i)
  }
}
